=== FILE: README.md ===
# BookmarkPro bookmark manager, modelled in Dafny

This project models the data and query logic of BookmarkPro's
`AdvancedBookmarkManager`, a browser bookmark manager. The manager keeps:

- a list of bookmarks, each with a title, url, description, collection,
  tags, rating, read flag, broken flag, visit count and timestamps;
- a list of collections;
- a registry of tags;
- a settings object;
- the view state: the current collection, the sort key, the search query,
  bulk mode and the set of selected bookmark ids.

The model covers what the manager does with this state:

- the collection views (`all`, `favorites`, `recent`, `unread`, `broken`,
  or a stored collection), the case-insensitive search and the five sort
  keys;
- deleting bookmarks and collections, toggling favourites, the quick-add,
  edit and collection forms, and the tag registry;
- the bulk operations over the selection: delete, move and tag;
- the JSON import (validation, then merge or replace) and its export;
- the CSV export and import, and the Netscape HTML export and import;
- the day arithmetic behind "recent", the relative date labels and the
  automatic-backup check.

Timestamps are integer milliseconds since the epoch, and ids are opaque
strings. The browser (DOM, storage, dialogs, files, the clock) is not
modelled. Every answer from `confirm` or `prompt` is a parameter, and so is
the current time.

The modules follow the structure of the program:

| module | contents |
|---|---|
| `Wrappers` | `Option` and `Result` |
| `Seqs` | `filter`, append-if-absent, an accumulating loop |
| `Text` | lower-casing, `includes`, trimming, `split` and `join`, `parseInt`, the string order used for the title sort |
| `Domain` | the records, the settings merge, fresh ids, the form validations, the favourite toggle, the JSON patch overlay `{ ...a, ...b }` |
| `Dates` | `isRecent`, `formatDate`, the backup-due check |
| `Query` | `getBookmarksByCollection` and `getFilteredBookmarks` |
| `Reconcile` | the match-or-append merge of `mergeImportData`, generic in the record type |
| `Transfer` | the JSON file: validation, merge, replace, export |
| `Csv` | the CSV export and import |
| `Html` | the Netscape bookmark file export and import |
| `Manager` | the `BookmarkManager` class, whose methods update its fields as the source's methods do |

The loops that change state step by step are methods with loop invariants,
each proved equal to a function that specifies it:

- `UnfileEach`, `MoveEach` and `TagEach` for the `forEach` loops of
  `deleteCollection`, `bulkMoveBookmarks` and `bulkTagBookmarks`;
- `MergeEach` for `mergeImportData`;
- `AppendMissing` for `updateTagsList`;
- `ReadCsv` and `ReadHtml` for the two import loops;
- `GroupByCollection` for the grouping loop of the HTML export.

The class methods state the whole new state of the manager.

About `getFilteredBookmarks`: for the `all` view with an empty query, the
source sorts the stored array itself, because the view *is* that array. So
showing the list reorders the stored bookmarks. `FilteredBookmarks` models
this: in that case the sorted view becomes the stored list, and in every
other case the stored list is unchanged.

## Model

| member | source | states |
|---|---|---|
| Seqs.Filter | script.js:370-374 | the result keeps exactly the elements that satisfy the predicate and is no longer than the input |
| Seqs.FilterIsSubseq | script.js:370-374 | filtering keeps the input order (the result is a subsequence) |
| Seqs.FilterMultiplicity | script.js:370-374 | filtering keeps every copy of a selected element and no copy of any other |
| Seqs.AppendAbsentGrows | script.js:1451-1461 | the tag registry only grows: old entries stay first and in order, each entry is old or added, and a registry without duplicates keeps none |
| Seqs.AppendAbsentCount | script.js:1454-1458 | the registry grows by exactly the number of distinct added values not yet present |
| Seqs.AppendMissing | script.js:1454-1458 | the push-if-absent loop yields the append-if-absent registry |
| Text.Lower | script.js:747 | `toLowerCase` keeps the length and lowers each character (ASCII letters) |
| Text.LowerIdempotent | script.js:747-752 | lowering twice is lowering once |
| Text.ContainsIffOccurs | script.js:749-752 | `includes` holds exactly when the query occurs at some position |
| Text.Trim | script.js:1561-1562 | a trimmed string neither starts nor ends with white space |
| Text.TrimWithin | script.js:955 | trimming adds no character that was absent |
| Text.SplitJoin | script.js:1192 | splitting pieces that do not hold the separator, once joined with it, gives the pieces back |
| Text.JoinSplit | script.js:1192 | joining the pieces of a split with the separator restores the string |
| Text.ParseIntRoundTrip | script.js:1206 | `parseInt` reads a rendered integer, negative ones included, back as that integer, so `parseInt(v) \|\| 0` gives it too |
| Text.Compare | script.js:760 | the title order is a three-way comparison that is zero exactly on equal strings |
| Text.CompareAntisymmetric | script.js:760 | swapping the titles flips the sign of the comparison |
| Text.CompareTransitive | script.js:760 | "not after" is transitive |
| Domain.Overridden | script.js:38-49 | `{ ...base, ...over }` has the keys of both, with the value of `over` wherever it has one |
| Domain.LoadSettingsStable | script.js:38-49 | loading the loaded settings again changes nothing, and no default key is ever missing |
| Domain.FindCollection | script.js:931 | `find` succeeds exactly when some collection has the id, and then returns a stored collection with that id |
| Domain.FreshId | script.js:1363-1365 | a generated id is carried by none of the used ids |
| Domain.AppendFresh | script.js:1155-1162 | appending a record under an unused id keeps the ids distinct and unused |
| Domain.NewBookmark | script.js:1556-1588 | the quick add succeeds exactly when the trimmed title and url are both non-empty, and otherwise reports the missing field; a new bookmark has the fresh id, the trimmed title and url, the form's collection, rating, tags and read flag, the creation time, an empty description and notes, priority "medium", no visits, no update or visit time, and is not broken |
| Domain.EditedBookmark | script.js:1590-1616 | an edit keeps the id, the creation time, the visits and the broken flag; the title, url, description and notes become the trimmed form values; the collection, priority, rating, tags and read flag become the form values; `updatedAt` is stamped |
| Domain.EditResubmitted | script.js:1596-1605 | submitting the edit form again with the values it now shows changes nothing but the update time |
| Domain.Visited | script.js:778-781 | opening adds exactly one visit and stamps the visit time; nothing else changes |
| Domain.ToggledRating | script.js:806-807 | the toggle lands on 0 or 5 and flips whether the bookmark is a favourite |
| Domain.ToggleTwice | script.js:806-807 | toggling twice restores the favourite status but not the exact rating |
| Domain.NewCollection | script.js:1618-1659 | a collection is created exactly when the trimmed name is non-empty, and otherwise the missing field is reported; it has the given id, the trimmed name and description, the form's color and icon, the creation time and no update time |
| Domain.EditedCollection | script.js:1618-1659 | an edit of a collection has the same validation and error; it keeps the id and the creation time, takes the trimmed name and description and the form's color and icon, and stamps `updatedAt` |
| Domain.OverlayFullBookmark | script.js:1255 | a bookmark exported in full wins every field of whatever it overlays, and on its own it reproduces the bookmark |
| Domain.OverlayBookmarkIdempotent | script.js:1255 | overlaying the same imported record twice is overlaying it once |
| Domain.OverlayFullCollection | script.js:1268 | a collection exported in full wins every field of whatever it overlays, and on its own it reproduces the collection |
| Dates.CeilDays | script.js:381 | the number of started days d satisfies (d-1)·day < ms ≤ d·day |
| Dates.IsRecentIff | script.js:377-383 | recent means at most seven whole days away, to the millisecond, in the past or the future alike |
| Dates.RecentBoundary | script.js:377-383 | exactly seven days away is recent and one millisecond more is not, in either direction |
| Dates.FormatDateAtNowAsWritten | script.js:1373-1384 | as written, a bookmark created at this very millisecond is labelled "-1 days ago" |
| Dates.FormatDate | script.js:1373-1384 | the corrected labels: "Today" exactly within one day, "Yesterday" exactly between one and two days, "n days ago" only for n from 2 to 6, and a calendar date exactly when the date is not recent |
| Dates.FormatDateAgrees | script.js:1373-1384 | the correction changes the label of no timestamp other than the current one |
| Dates.BackupDueIff | script.js:2040-2047 | with auto-backup on, a backup is due when none was taken or seven full days have passed since the last; a future stamp never makes one due |
| Query.ByCollectionSelects | script.js:368-375 | a view is an order-preserving selection that keeps exactly the bookmarks belonging to it, every copy of each; `all` is the whole list, `favorites` rating ≥ 4, `recent` recent, `unread` not read, `broken` broken, any other id that collection |
| Query.SearchSelects | script.js:746-754 | an empty query returns the list itself; any other query keeps, in order and with every copy, exactly the bookmarks whose lower-cased title, description, url or some tag holds the lower-cased query |
| Query.SearchIgnoresCase | script.js:747 | two queries that lower-case alike find the same bookmarks |
| Query.SearchFindsTitle | script.js:749 | a bookmark whose title holds the query, in any case, is found |
| Query.CmpConsistent | script.js:757-772 | each comparator's sign flips with its arguments, and "not after" and "tied" are transitive |
| Query.SortByCorrect | script.js:757-772 | sorting yields a permutation in which no element comes after a later one, and bookmarks with equal keys keep their input order (the sort is stable) |
| Query.SortedMeans | script.js:758-771 | a sorted list is non-increasing in rating or visits, newest or oldest first by date, or ordered by title, according to the key |
| Query.UnsortedIsIdentity | script.js:769-770 | an unknown sort key leaves the order unchanged |
| Query.FilteredViewContents | script.js:742-775 | the visible list holds exactly the stored bookmarks that belong to the view and match the query, each as often as it is stored, sorted by the current key |
| Reconcile.FindKey | script.js:1252 | `findIndex` returns -1 or the first position with the key |
| Reconcile.MergeOne | script.js:1250-1261 | one imported record keeps the length exactly when its key is stored, and otherwise is appended, after the unchanged list, as the record built from it under an id not yet used |
| Reconcile.MergeOneKeys | script.js:1250-1261 | on keys, one merge step is an append-if-absent |
| Reconcile.MergeAllKeys | script.js:1247-1274 | on keys, the whole merge is the append-if-absent of the imported keys |
| Reconcile.MergeAllCounts | script.js:1247-1274 | the merge keeps the stored keys at their positions, grows by exactly the number of distinct unmatched imported keys, holds only stored or imported keys, and keeps unique keys unique |
| Reconcile.MergeAllAt | script.js:1252-1255 | the first stored record with a key ends up as that record overlaid, in import order, with every imported record of its key |
| Reconcile.MergeAllUntouched | script.js:1252-1255 | a stored record whose key no import carries is unchanged, wherever it stands |
| Reconcile.MergeOneLater | script.js:1252-1255 | one import leaves alone a stored record that comes after another with the same key, since `findIndex` stops at the first |
| Reconcile.MergeAllLater | script.js:1249-1261 | the whole merge never touches a stored record that comes after another with the same key, whatever is imported |
| Reconcile.MergeAllSplit | script.js:1249-1261 | merging a list of imports is merging a prefix, then the rest |
| Reconcile.MergeAllAppended | script.js:1249-1261 | an import whose key is neither stored nor imported earlier is appended, at the end of the list merged so far, as the record built from it under an id that list does not use, and the later imports of its key are overlaid onto it in order |
| Reconcile.MergeIdentity | script.js:1247-1261 | merging records that match the stored ones one for one and overlay each to itself changes nothing |
| Transfer.ValidateImport | script.js:1235-1245 | a file without a bookmarks array is refused; a file with one is accepted unless it is marked as from a newer version, in which case it is accepted exactly when the user confirms |
| Transfer.ByUrlLawful | script.js:1252-1259 | bookmarks are matched on their url; overlaying and creating keep the url, and a created bookmark takes the fresh id |
| Transfer.ByNameLawful | script.js:1266-1272 | collections are matched on their name, with the same laws |
| Transfer.ExportBookmarks | script.js:975-989 | the JSON export writes one full record per bookmark, each standing for that bookmark |
| Transfer.ExportValidates | script.js:975-989 | a file the manager exported itself always passes validation |
| Transfer.PatchesToBookmarks | script.js:1287-1289 | replace mode installs one bookmark per imported record, in order, each the record itself with its missing fields at their defaults |
| Transfer.PatchesToCollections | script.js:1287-1289 | replace mode installs one collection per imported record, in order, each the record itself with its missing fields at their defaults |
| Transfer.ReplaceExportRoundTrip | script.js:1287-1289 | replacing with one's own export restores the bookmarks and the collections exactly |
| Transfer.MergeOwnExport | script.js:1247-1261 | merging one's own export changes no bookmark when no two bookmarks share a url |
| Csv.Escape | script.js:1052 | escaping never shortens a cell and leaves a cell without quotes unchanged |
| Csv.EscapeSpec | script.js:1052 | escaping adds one character per quote, doubles the number of quotes, and leaves the other characters as they were, in order |
| Csv.Cells | script.js:1037-1050 | a row holds nine cells in the header order: title, url, description, collection name or "Uncategorized", tags joined with "; ", rating, creation time, visits, "Yes" or "No" |
| Csv.IndexOf | script.js:1201-1209 | `indexOf` is -1 exactly when the name is missing, and otherwise the first position holding it |
| Csv.ImportCsv | script.js:1185-1225 | fewer than two data lines is an error; a success holds at least one record; the only errors are too few lines and no valid row |
| Csv.ImportCsvSpec | script.js:1185-1224 | with a header and a data line, there is nothing to import exactly when no data line has two cells; otherwise the records are one per line with two cells, in order, each read from that line against the header names |
| Csv.RecordsOfLines | script.js:1195-1213 | the loop yields no record exactly when no line has two cells, and otherwise one record per such line, in order |
| Csv.RecordsSkipShort | script.js:1196-1198 | lines with fewer than two cells add nothing: the records are those of the other lines alone |
| Csv.HeaderNamesLower | script.js:1192 | the header names of a line and of its lower-cased copy are the same |
| Csv.HeaderNamesCaseInsensitive | script.js:1192 | two header lines that differ only in the case of their letters give the same header names |
| Csv.ColumnPermuted | script.js:1201-1209 | with distinct header names, a cell is found by its name wherever its column stands |
| Csv.RecordPermuted | script.js:1199-1210 | with distinct header names and non-empty title and url cells, rearranging the columns of the header and of a line together gives the same record |
| Csv.ReadCsv | script.js:1185-1225 | the import loop computes the import |
| Csv.Step | script.js:1196-1212 | a line with fewer than two cells adds nothing; any other adds one record at the end, under an id neither used nor taken, in no collection |
| Csv.ImportCsvFresh | script.js:1195-1213 | imported records carry distinct ids that no stored bookmark has, and belong to no collection |
| Csv.RecordsFromEmpty | script.js:1195-1213 | when every line has two cells, there is one record per line, in order, read from that line |
| Csv.RecordFallback | script.js:1201-1202 | without a title or url column the first or second cell is used, and an empty title cell falls back to the first cell |
| Csv.RecordReadFlag | script.js:1207 | the read flag is set exactly when there is an "is read" cell that says yes in any case |
| Csv.NumberCellBlank | script.js:1206 | an empty or missing number cell reads as 0 |
| Csv.RecordBlankRating | script.js:1206 | an empty rating cell gives rating 0 |
| Csv.RecordNoVisits | script.js:1209 | without a visits column the visit count is 0 |
| Csv.DecodeCell | script.js:1052 | removing the quotes of an encoded plain cell and trimming gives the cell back |
| Csv.DecodeRow | script.js:1196 | reading the cells of an encoded row of plain cells gives the cells back |
| Csv.DecodeTags | script.js:1204 | splitting a tags cell on ';' and trimming gives the tags back |
| Csv.ExportedHeaders | script.js:1192 | the import reads the exported header row as the nine names in lower case |
| Csv.ExportDataLines | script.js:1185 | of an export, the import keeps exactly the header row and the bookmark rows; the preamble and the blank line are skipped |
| Csv.ExportRecords | script.js:1033-1057 | importing an export gives, for each bookmark, the record of its cells read under the lower-cased headers |
| Csv.CsvRoundTrip | script.js:1033-1057 | importing an export of exportable bookmarks yields one record per bookmark, in order, with the same title, url, description, tags, rating, visits and read flag, in no collection |
| Html.GroupSelects | script.js:1003-1010 | a group keeps, in stored order and with every copy, exactly the bookmarks with its key |
| Html.FirstSeenKeys | script.js:1004-1010 | the grouping keys are distinct, and a key is present exactly when its group is non-empty |
| Html.GroupByCollection | script.js:1003-1010 | the grouping loop records the keys in first-seen order and, under each, its group |
| Html.SortIndicesCorrect | script.js:1012 | the array-index keys are sorted into ascending numeric order, as a permutation |
| Html.ObjectKeysPermutes | script.js:1012 | `Object.keys` lists every key exactly as often as it was added |
| Html.ObjectKeysOrder | script.js:1012 | `Object.keys` lists the array-index keys first, in ascending value, then the others in insertion order |
| Html.ObjectKeysPlain | script.js:1012 | without array-index keys, `Object.keys` is the insertion order |
| Html.AddDate | script.js:1018 | `ADD_DATE` is the whole number of seconds of the creation time |
| Html.GroupedPermutes | script.js:1003-1025 | the export writes every stored bookmark exactly as often as it is stored |
| Html.ExportWritesEntry | script.js:1012-1025 | every stored bookmark's entry is written into the file |
| Html.ExportEntryInFolder | script.js:1012-1025 | each entry sits in a folder headed by its collection's name, or "Uncategorized" |
| Html.AnchorRecord | script.js:1142-1153 | a link becomes a bookmark with its href as url; its title is the trimmed link text, or the href when that text is blank; its tags hold no comma; it is in no collection and at the defaults elsewhere |
| Html.AnchorRecordTags | script.js:1147 | a non-empty TAGS attribute becomes tags that, joined with commas, give the attribute back; no attribute or an empty one gives no tags |
| Html.AnchorRecordsShape | script.js:1141-1155 | there is one record per link, in order, each built from its link |
| Html.AnchorRecordsFresh | script.js:1141-1155 | the records carry distinct ids, none of which was in use |
| Html.ImportHtml | script.js:1157-1175 | an import fails exactly when the file has no links |
| Html.ImportHtmlSpec | script.js:1141-1162 | an import adds one record per link, built from it, under distinct unused ids |
| Html.ReadHtml | script.js:1141-1155 | the link loop computes the import |
| Html.TagsRoundTrip | script.js:1147 | tags without commas, written as a TAGS attribute and split back, come back as they were |
| Html.HtmlRoundTrip | script.js:991-1031 | importing what the export writes gives one new bookmark per stored one, in folder order, each with its url and its trimmed title (its url when blank), and with its tags when they are all non-empty and free of commas |
| Manager.WithoutIdsSpec | script.js:910 | removal keeps the order and drops every copy of every bookmark with a removed id, and nothing else |
| Manager.WithoutCollectionSpec | script.js:340 | after the removal no collection carries the id, and every other collection stays, in order |
| Manager.Unfiled | script.js:333-337 | exactly the members of the deleted collection lose their collection; every other field and every other bookmark is unchanged |
| Manager.UnfiledEmptiesView | script.js:333-340 | after deleting a stored collection, its view is empty |
| Manager.UnfileEach | script.js:333-337 | the loop computes the unfiling |
| Manager.MovedTo | script.js:937-941 | exactly the selected bookmarks get the target collection; nothing else changes |
| Manager.MovedShowInView | script.js:937-941 | every moved bookmark shows in the view of its target collection |
| Manager.MoveEach | script.js:937-941 | the loop computes the move |
| Manager.TagListClean | script.js:955 | each tag of the answer is non-empty, trimmed and free of commas |
| Manager.TaggedWith | script.js:957-966 | only the tags of the selected bookmarks change |
| Manager.TaggedWithSpec | script.js:957-966 | a tagged bookmark keeps its tags first and in order, gains each new tag once, and keeps a duplicate-free list duplicate-free |
| Manager.TagEach | script.js:957-966 | the nested loop computes the tagging |
| Manager.MergeEach | script.js:1250-1261 | the merge loop computes the merge |
| Manager.AppendFreshRecords | script.js:1217 | appending records with distinct unused ids keeps the ids distinct |
| Manager.CsvImportKeepsIds | script.js:1216-1217 | appending what a CSV import yields keeps the ids distinct |
| Manager.HtmlImportKeepsIds | script.js:1157-1158 | appending what an HTML import yields keeps the ids distinct |
| Manager.IdsAfterUpdate | script.js:1596-1606 | an edit in place keeps the list of ids |
| Manager.OverriddenSelf | script.js:1291 | spreading the settings over themselves gives the settings |
| Manager.Toggled | script.js:889-894 | toggling changes the membership of the id and of no other |
| Manager.ToggledTwice | script.js:889-894 | toggling twice restores the selection |
| Manager.AllViewPermutes | script.js:757 | the `all` view without a search is a sorted rearrangement of the stored list |
| Manager.BookmarkManager.constructor | script.js:1-62 | the stored lists where there are any, the three seed collections otherwise, the defaults overridden by the stored settings, the `all` view sorted newest first, no search, no selection |
| Manager.BookmarkManager.FilteredBookmarks | script.js:742-775 | returns the filtered view; in the `all` view without a search the stored list becomes that sorted view, otherwise it is unchanged; the stored bookmarks stay the same multiset |
| Manager.BookmarkManager.SelectCollection | script.js:355-366 | switches the view and leaves bulk mode with an empty selection |
| Manager.BookmarkManager.Search | script.js:857-860 | sets the query and nothing else |
| Manager.BookmarkManager.ChangeSort | script.js:850-854 | sets the sort key and nothing else |
| Manager.BookmarkManager.OpenBookmark | script.js:778-790 | the opened bookmark gains one visit and the visit time; the answer is the open-in-new-tab setting read as JavaScript truthiness |
| Domain.FlagOnFalsy | script.js:785 | a setting is off exactly when it is missing, `false`, 0 or the empty string; the defaults open links in a new tab (script.js:41) |
| Manager.BookmarkManager.ToggleFavorite | script.js:806-811 | only the rating of that bookmark changes, and its favourite status flips |
| Manager.BookmarkManager.DeleteBookmark | script.js:813-822 | on confirmation every bookmark with the id goes and the id leaves the selection; otherwise nothing changes |
| Manager.BookmarkManager.UpdateTagsList | script.js:1451-1461 | the registry gains the absent tags, in order, and keeps a duplicate-free registry duplicate-free |
| Manager.BookmarkManager.QuickAdd | script.js:1556-1588 | an invalid form changes nothing; a valid one appends the new bookmark under a fresh id, registers its tags and keeps the ids distinct |
| Manager.BookmarkManager.EditBookmark | script.js:1590-1616 | with a bookmark under edit, only that bookmark is replaced by its edit (trimmed text fields, the form's other values, the update time; id, creation time and visits kept), and its tags are registered; otherwise nothing changes |
| Manager.BookmarkManager.SubmitCollection | script.js:1618-1659 | refused exactly when the trimmed name is empty; otherwise the edited collection is replaced or a new one appended under a fresh id |
| Manager.BookmarkManager.DeleteCollection | script.js:320-353 | an unknown id or no confirmation changes nothing; otherwise the members are unfiled, the collection is removed, and a view of it falls back to `all` |
| Manager.BookmarkManager.ExitBulkMode | script.js:880-887 | leaves bulk mode with an empty selection |
| Manager.BookmarkManager.ToggleBulkMode | script.js:868-878 | flips bulk mode; leaving it clears the selection |
| Manager.BookmarkManager.ToggleSelection | script.js:889-898 | the id's membership in the selection flips |
| Manager.BookmarkManager.BulkDelete | script.js:906-916 | without a selection or a confirmation nothing changes; otherwise the selected bookmarks go and bulk mode ends |
| Manager.BookmarkManager.BulkMove | script.js:925-947 | no selection or an empty answer changes nothing; an unknown collection is refused and changes nothing; otherwise exactly the selected bookmarks move and bulk mode ends |
| Manager.BookmarkManager.BulkTag | script.js:949-972 | no selection or an empty answer changes nothing; otherwise the selected bookmarks gain the absent tags of the answer, the registry gains them, and bulk mode ends |
| Manager.BookmarkManager.ImportJson | script.js:1089-1127 | an invalid file changes nothing; a merge merges bookmarks by url, collections by name and tags as a registry, leaving the settings alone; a replace installs the file's lists and overrides the settings; replacing with one's own export changes nothing |
| Manager.BookmarkManager.ImportCsvFile | script.js:1177-1233 | a failed import changes nothing; with confirmation the records are appended, keeping the ids distinct |
| Manager.BookmarkManager.ImportHtmlFile | script.js:1129-1175 | a file without links changes nothing; with confirmation one record per link is appended, keeping the ids distinct |

## Left out

- Rendering, event wiring, modals, menus, notifications and the DOM. One part of rendering does change the state: every re-render (`renderBookmarksContainer`, script.js:406-410, called by the constructor and after almost every handler) goes through `getFilteredBookmarks`, which in the `all` view with an empty query sorts the stored array in place. The model keeps that step as the separate method `FilteredBookmarks`, and the `ensures` of the constructor and of every other method describe the state before that re-render. So `QuickAdd` promises the new bookmark at the end of the list, while after the re-render under the default newest-first sort the source holds it first; and `Search` and `ChangeSort` promise that only the query or the key changes, while the re-render that follows them can reorder the stored list.
- `localStorage`, `saveData`, `Blob`, file downloads and `FileReader`. The stored lists are constructor parameters, and exported files are values.
- `window.open` and navigation. `OpenBookmark` returns whether the link opens in a new tab.
- `confirm`, `prompt` and `alert`. The answers are parameters, and the alerts are the returned outcomes.
- `generateId` draws from the clock and `Math.random`. `FreshId` instead returns an id that none of the used ids carries; that is the property the source relies on.
- The `parseFloat` version comparison in `validateImportData` is the parameter `newer`.
- `JSON.parse` of the file text. The JSON import starts from the parsed records. Every field of an imported record except the url (for a collection, the name) may be missing, and a missing field takes its value from `BlankBookmark` (or `BlankCollection`). The source leaves it `undefined`, which differs wherever the source reads a field without a fallback:
  - the date sorts (script.js:761-764) and the rating sort (script.js:766) compare `NaN` for a missing `createdAt` or `rating`, which the sort treats as a tie, while the model sorts the record as created at time 0 or rated 0;
  - a missing title makes the search (script.js:749) and the title sort (script.js:760) throw, while the model reads the empty string;
  - the CSV export writes the text "undefined" for a missing title or `createdAt` (script.js:1040, 1046, 1052), while the model writes the empty string or 0;
  - the HTML export writes "undefined" as the link text for a missing title and `ADD_DATE="NaN"` for a missing `createdAt` (script.js:1018-1019), and omits the TAGS attribute when the tags array is missing (script.js:1019), while the model writes an empty title, 0 and an empty TAGS attribute (which reads back as no tags, as a missing attribute does);
  - an imported record without a url matches the first stored bookmark that lacks one too (script.js:1252), and one that is appended makes the search (script.js:751), the CSV export and the HTML export read an undefined url; in the model every record has a url.
- Csv.RecordPermuted: holds only when the title and url cells are non-empty. An empty one falls back to the first or second cell of the line (script.js:1201-1202), which depends on where the columns stand.
- `localeCompare` for the title sort is modelled as ordering by character code (`Text.Compare`).
- `toLowerCase` and `trim` are modelled for ASCII letters and ASCII white space only. `parseInt` reads base 10, with an optional sign after leading white space; the source's `parseInt` without a radix reads a `0x` or `0X` prefix as hexadecimal, so a rating or visits cell "0x10" imports as 16 there (script.js:1206, 1209) and as 0 in the model.
- Timestamps are integers. The source stores ISO strings in `createdAt`, so in the CSV export and in the imported records they are shown as numbers. `toLocaleDateString` in `formatDate` is the label `CalendarDate(at)`.
- `createBackup`: the backup file and its download. Only the decision whether a backup is due is modelled.
- The HTML export escapes nothing, and neither does the model. The `DOMParser` link extraction and URL resolution are replaced by an abstract list of links (href, text, TAGS attribute), so the HTML round trip is stated on those links and not on the HTML text.
- The HTML export writes a TAGS attribute for every bookmark that has a tags array, because an array is truthy even when empty; in the model every bookmark has one. An empty attribute reads back as no tags.
- Html.GroupByCollection: the source groups into a plain object `{}` (script.js:1003-1009), which inherits the members of `Object.prototype`. A bookmark whose collection id is one of their names (`constructor`, `toString`, `valueOf`, `hasOwnProperty`, `isPrototypeOf`, `propertyIsEnumerable`, `toLocaleString`, `__proto__`, `__defineGetter__`, `__defineSetter__`, `__lookupGetter__`, `__lookupSetter__`) finds the inherited member already present, so `push` is not a function there and the export throws without writing a file. The model's grouping starts from an empty map, so `GroupByCollection` and `ExportHtml` always produce a document.
- Csv.CsvRoundTrip: holds only for cells without commas, quotes, line breaks or surrounding white space, and for tags that are also free of semicolons. The import splits on every comma and removes every quote, so other cells do not come back.
- Html.HtmlRoundTrip: the collection and every field other than url, title and tags are not carried back, because the import does not read them.
- `editingBookmark` and `editingCollection` are object references in the source; the model passes the index of the record under edit. Likewise `OpenBookmark` and `ToggleFavorite` take the index of the bookmark where the source passes the bookmark object (script.js:778, 806).
- The rest of the application state (`currentView`, the context-menu target, the version fields) is not modelled. The storage statistics, the favicon URL and text escaping are not modelled either.
- The methods of `BookmarkManager` that change the view or the selection declare `modifies this`, not a narrower frame. Their `ensures` state every field that stays the same.

## Findings

| source | as written | input that shows it | evidently intended | confidence | as-written member | corrected member |
|---|---|---|---|---|---|---|
| script.js:1373-1384 | `formatDate` counts started days with `Math.ceil`, so a timestamp equal to now gives `diffDays` 0, which falls through to `` `${diffDays - 1} days ago` `` | a bookmark created at the current millisecond (`createdAt == now`) is labelled "-1 days ago" | "Today" for every timestamp less than one day away, the current instant included | not executed | Dates.FormatDateAtNowAsWritten | Dates.FormatDate |

=== FILE: csv.dfy ===
/** The CSV format: the export writes a `#` preamble and then one quoted row
    per bookmark; the import keeps the lines that are neither blank nor
    comments, reads the first as header names and builds one bookmark per
    later line that has at least two cells. */
module Csv {
  import opened Wrappers
  import opened Text
  import opened Seqs
  import opened Domain

  // --------------------------------------------------------------- export

  /** The column titles of the export, in order. */
  function Headers(): seq<string> {
    ["Title", "URL", "Description", "Collection", "Tags", "Rating", "Created", "Visits", "Is Read"]
  }

  /** `replace(/"/g, '""')`: every quote doubled. */
  function Escape(s: string): (r: string)
    ensures |r| >= |s|
    ensures '"' !in s ==> r == s
  {
    if s == [] then []
    else (if s[0] == '"' then "\"\"" else [s[0]]) + Escape(s[1..])
  }

  /** A cell as written: quoted, with its quotes doubled. */
  function EncodeCell(s: string): string {
    "\"" + Escape(s) + "\""
  }

  function EncodeRow(cells: seq<string>): string {
    Join(seq(|cells|, i requires 0 <= i < |cells| => EncodeCell(cells[i])), ",")
  }

  /** `collection?.name || 'Uncategorized'`. */
  function CollectionLabel(cs: seq<Collection>, id: string): string {
    match FindCollection(cs, id)
    case Some(c) => if c.name != "" then c.name else "Uncategorized"
    case None => "Uncategorized"
  }

  /** The nine cells of a bookmark's row, in the order of `Headers`. */
  function Cells(b: Bookmark, cs: seq<Collection>): (r: seq<string>)
    ensures |r| == |Headers()|
    ensures r[0] == b.title && r[1] == b.url && r[2] == b.description
    ensures r[3] == CollectionLabel(cs, b.collection) && r[4] == Join(b.tags, "; ")
    ensures r[5] == IntToString(b.rating) && r[6] == IntToString(b.createdAt)
    ensures r[7] == IntToString(b.visitCount)
    ensures r[8] == if b.isRead then "Yes" else "No"
  {
    [b.title, b.url, b.description, CollectionLabel(cs, b.collection), Join(b.tags, "; "),
     IntToString(b.rating), IntToString(b.createdAt), IntToString(b.visitCount),
     if b.isRead then "Yes" else "No"]
  }

  /** One row per bookmark. */
  function BookmarkRows(bs: seq<Bookmark>, cs: seq<Collection>): (r: seq<string>)
    ensures |r| == |bs| && forall i :: 0 <= i < |bs| ==> r[i] == EncodeRow(Cells(bs[i], cs))
  {
    seq(|bs|, i requires 0 <= i < |bs| => EncodeRow(Cells(bs[i], cs)))
  }

  /** The header row followed by one row per bookmark. */
  function ExportRows(bs: seq<Bookmark>, cs: seq<Collection>): (r: seq<string>)
    ensures |r| == |bs| + 1 && r[0] == EncodeRow(Headers())
    ensures forall i :: 1 <= i < |r| ==> r[i] == EncodeRow(Cells(bs[i - 1], cs))
  {
    var rows := BookmarkRows(bs, cs);
    var r := [EncodeRow(Headers())] + rows;
    assert forall i :: 1 <= i < |r| ==> r[i] == rows[i - 1];
    r
  }

  /** The comment lines and the blank line before the rows. */
  function CommentLines(exportDate: string): seq<string> {
    [Comment("Exported from " + AppName + " v" + AppVersion),
     Comment("Export Date: " + exportDate),
     Comment("Website: " + AppUrl),
     ""]
  }

  /** A comment line: `# ` and the text. */
  function Comment(text: string): string {
    "# " + text
  }

  /** The preamble: each comment line and the blank line, ended by a line
      break. */
  function Preamble(exportDate: string): string {
    Join(CommentLines(exportDate), "\n") + "\n"
  }

  /** `exportBookmarksCsv`; the export time is a parameter. */
  function ExportCsv(bs: seq<Bookmark>, cs: seq<Collection>, exportDate: string): string {
    Preamble(exportDate) + Join(ExportRows(bs, cs), "\n")
  }

  // --------------------------------------------------------------- import

  /** A line the import reads: not blank and not a comment. */
  predicate IsDataLine(line: string) {
    Trim(line) != "" && !StartsWith(line, "#")
  }

  function DataLines(text: string): seq<string> {
    Filter(Split(text, '\n'), IsDataLine)
  }

  /** Keeps every character but the double quote. */
  function NotQuote(): char -> bool {
    (c: char) => c != '"'
  }

  /** Escaping adds exactly one character per quote, doubles the number of
      quotes, and leaves the other characters as they were, in order. */
  lemma EscapeSpec(s: string)
    ensures |Escape(s)| == |s| + multiset(s)['"']
    ensures multiset(Escape(s))['"'] == 2 * multiset(s)['"']
    ensures Filter(Escape(s), NotQuote()) == Filter(s, NotQuote())
  {
    EscapeCounts(s);
    EscapeKeepsText(s);
  }

  lemma {:induction false} EscapeCounts(s: string)
    ensures |Escape(s)| == |s| + multiset(s)['"']
    ensures multiset(Escape(s))['"'] == 2 * multiset(s)['"']
  {
    if s != [] {
      var t := s[1..];
      EscapeCounts(t);
      assert multiset(s) == multiset{s[0]} + multiset(t) by {
        assert s == [s[0]] + t;
      }
      if s[0] == '"' {
        assert Escape(s) == "\"\"" + Escape(t);
        assert multiset(Escape(s)) == multiset{'"', '"'} + multiset(Escape(t));
      } else {
        assert Escape(s) == [s[0]] + Escape(t);
        assert multiset(Escape(s)) == multiset{s[0]} + multiset(Escape(t));
      }
    }
  }

  lemma {:induction false} EscapeKeepsText(s: string)
    ensures Filter(Escape(s), NotQuote()) == Filter(s, NotQuote())
  {
    if s != [] {
      var h: string := if s[0] == '"' then "\"\"" else [s[0]];
      EscapeKeepsText(s[1..]);
      assert Escape(s) == h + Escape(s[1..]);
      FilterAppend(h, Escape(s[1..]), NotQuote());
      assert Filter(s, NotQuote()) == Filter([s[0]], NotQuote()) + Filter(s[1..], NotQuote()) by {
        assert s == [s[0]] + s[1..];
        FilterAppend([s[0]], s[1..], NotQuote());
      }
    }
  }

  /** `replace(/"/g, '')`: every quote removed, doubled or not. */
  function StripQuotes(s: string): (r: string)
    ensures '"' !in r
  {
    Filter(s, NotQuote())
  }

  /** Removing quotes and lower-casing commute. */
  lemma {:induction false} StripQuotesLower(s: string)
    ensures StripQuotes(Lower(s)) == Lower(StripQuotes(s))
  {
    if s != [] {
      var c := LowerChar(s[0]);
      var h := if s[0] != '"' then [s[0]] else [];
      LowerAppend([s[0]], s[1..]);
      assert s == [s[0]] + s[1..];
      assert Lower(s)[1..] == Lower(s[1..]);
      assert StripQuotes(Lower(s)) == (if c != '"' then [c] else []) + StripQuotes(Lower(s[1..]));
      StripQuotesLower(s[1..]);
      assert StripQuotes(s) == h + StripQuotes(s[1..]);
      LowerAppend(h, StripQuotes(s[1..]));
      assert Lower(h) == if c != '"' then [c] else [];
    } else {
      assert Lower(s) == [];
    }
  }

  function TrimAll(parts: seq<string>): (r: seq<string>)
    ensures |r| == |parts| && forall i :: 0 <= i < |parts| ==> r[i] == Trim(parts[i])
  {
    seq(|parts|, i requires 0 <= i < |parts| => Trim(parts[i]))
  }

  /** The cells of a line: split on every comma, quotes removed, trimmed. */
  function RowValues(line: string): (r: seq<string>)
    ensures |r| >= 1
  {
    CleanCells(Split(line, ','))
  }

  /** `cells.map(v => v.replace(/"/g, '').trim())`. */
  function CleanCells(cells: seq<string>): (r: seq<string>)
    ensures |r| == |cells|
  {
    seq(|cells|, i requires 0 <= i < |cells| => Trim(StripQuotes(cells[i])))
  }

  /** The header names: the cells of the first line, lower-cased. */
  function HeaderNames(line: string): (r: seq<string>)
    ensures |r| == |RowValues(line)| && forall i :: 0 <= i < |r| ==> r[i] == Lower(RowValues(line)[i])
  {
    var vs := RowValues(line);
    seq(|vs|, i requires 0 <= i < |vs| => Lower(vs[i]))
  }

  /** Header names ignore case: the header line reads the same lower-cased. */
  lemma HeaderNamesLower(line: string)
    ensures HeaderNames(Lower(line)) == HeaderNames(line)
  {
    var cells := Split(line, ',');
    SplitLower(line, ',');
    forall i | 0 <= i < |cells|
      ensures HeaderNames(Lower(line))[i] == HeaderNames(line)[i]
    {
      var x := cells[i];
      StripQuotesLower(x);
      TrimLower(StripQuotes(x));
      LowerIdempotent(Trim(StripQuotes(x)));
    }
  }

  /** Two header lines that differ only in the case of their letters give
      the same header names, so a column is found whatever its case. */
  lemma HeaderNamesCaseInsensitive(line1: string, line2: string)
    requires Lower(line1) == Lower(line2)
    ensures HeaderNames(line1) == HeaderNames(line2)
  {
    HeaderNamesLower(line1);
    HeaderNamesLower(line2);
  }

  /** `xs.indexOf(x)`: the first position holding x, or -1. */
  function IndexOf(xs: seq<string>, x: string): (r: int)
    ensures r == -1 <==> x !in xs
    ensures r != -1 ==> 0 <= r < |xs| && xs[r] == x && x !in xs[..r]
  {
    if xs == [] then -1
    else if xs[0] == x then 0
    else
      var r := IndexOf(xs[1..], x);
      if r == -1 then -1
      else
        assert xs[..r + 1] == [xs[0]] + xs[1..][..r];
        r + 1
  }

  /** `values[headers.indexOf(name)]`: undefined when the header is missing
      or the line is too short. */
  function Column(headers: seq<string>, values: seq<string>, name: string): Option<string> {
    var i := IndexOf(headers, name);
    if 0 <= i < |values| then Some(values[i]) else None
  }

  /** `v || fallback` for a cell. */
  function CellOr(v: Option<string>, fallback: string): string {
    if v.Some? && v.value != "" then v.value else fallback
  }

  /** `parseInt(v) || 0`. */
  function NumberCell(v: Option<string>): int {
    match v
    case None => 0
    case Some(s) => ParseIntOr0(s)
  }

  /** The bookmark a data line stands for. */
  function Record(headers: seq<string>, values: seq<string>, id: string, now: int): (r: Bookmark)
    requires |values| >= 2
    ensures r.id == id && r.collection == "" && r.createdAt == now && !r.isBroken
  {
    var tags := Column(headers, values, "tags");
    Bookmark(
      id,
      CellOr(Column(headers, values, "title"), values[0]),
      CellOr(Column(headers, values, "url"), values[1]),
      CellOr(Column(headers, values, "description"), ""),
      "",
      if tags.Some? && tags.value != "" then TrimAll(Split(tags.value, ';')) else [],
      NumberCell(Column(headers, values, "rating")),
      Lower(CellOr(Column(headers, values, "is read"), "")) == "yes",
      false, "medium", "", now, None, None,
      NumberCell(Column(headers, values, "visits")))
  }

  /** hs2 and vs2 are hs and vs with their columns rearranged together:
      column i of the new line is column perm[i] of the old one, and every
      old column appears. */
  ghost predicate ColumnsPermuted(hs: seq<string>, vs: seq<string>, hs2: seq<string>, vs2: seq<string>,
                                  perm: seq<int>) {
    && |hs| == |vs| == |perm| == |hs2| == |vs2|
    && (forall i :: 0 <= i < |perm| ==> 0 <= perm[i] < |hs|)
    && (forall k :: 0 <= k < |hs| ==> k in perm)
    && (forall i :: 0 <= i < |perm| ==> hs2[i] == hs[perm[i]] && vs2[i] == vs[perm[i]])
  }

  /** With distinct header names, a cell is found by its name wherever its
      column stands. */
  lemma ColumnPermuted(hs: seq<string>, vs: seq<string>, hs2: seq<string>, vs2: seq<string>,
                       perm: seq<int>, name: string)
    requires NoDuplicates(hs) && ColumnsPermuted(hs, vs, hs2, vs2, perm)
    ensures Column(hs2, vs2, name) == Column(hs, vs, name)
  {
    if name in hs {
      var k := IndexOf(hs, name);
      assert k in perm;
      var j :| 0 <= j < |perm| && perm[j] == k;
      assert hs2[j] == name;
      var i := IndexOf(hs2, name);
      assert hs[perm[i]] == name;
    }
  }

  /** The order of the columns does not matter: with distinct header names
      and non-empty title and url cells, rearranging the columns of the
      header line and of a data line together gives the same record. */
  lemma RecordPermuted(hs: seq<string>, vs: seq<string>, hs2: seq<string>, vs2: seq<string>,
                       perm: seq<int>, id: string, now: int)
    requires NoDuplicates(hs) && ColumnsPermuted(hs, vs, hs2, vs2, perm) && |vs| >= 2
    requires Column(hs, vs, "title").Some? && Column(hs, vs, "title").value != ""
    requires Column(hs, vs, "url").Some? && Column(hs, vs, "url").value != ""
    ensures Record(hs2, vs2, id, now) == Record(hs, vs, id, now)
  {
    ColumnPermuted(hs, vs, hs2, vs2, perm, "title");
    ColumnPermuted(hs, vs, hs2, vs2, perm, "url");
    ColumnPermuted(hs, vs, hs2, vs2, perm, "description");
    ColumnPermuted(hs, vs, hs2, vs2, perm, "tags");
    ColumnPermuted(hs, vs, hs2, vs2, perm, "rating");
    ColumnPermuted(hs, vs, hs2, vs2, perm, "is read");
    ColumnPermuted(hs, vs, hs2, vs2, perm, "visits");
  }

  /** The records of the data lines, appended to acc; each takes an id that
      neither `used` nor an earlier record carries. */
  function Records(headers: seq<string>, rows: seq<string>, used: seq<string>, acc: seq<Bookmark>,
                   now: int): seq<Bookmark>
  {
    Accumulate(RowStep(headers, used, now), rows, acc)
  }

  /** The first line is read first. */
  lemma RecordsFirst(headers: seq<string>, rows: seq<string>, used: seq<string>, acc: seq<Bookmark>, now: int)
    requires rows != []
    ensures Records(headers, rows, used, acc, now)
         == Records(headers, rows[1..], used, Step(headers, rows[0], used, acc, now), now)
  {
    assert RowStep(headers, used, now)(acc, rows[0]) == Step(headers, rows[0], used, acc, now);
  }

  function RowStep(headers: seq<string>, used: seq<string>, now: int): (seq<Bookmark>, string) -> seq<Bookmark> {
    (acc, row) => Step(headers, row, used, acc, now)
  }

  /** One line of the loop: a line with two cells adds its record under a
      fresh id; any other line adds nothing. */
  function Step(headers: seq<string>, row: string, used: seq<string>, acc: seq<Bookmark>, now: int): (r: seq<Bookmark>)
    ensures |RowValues(row)| < 2 ==> r == acc
    ensures |RowValues(row)| >= 2 ==>
              && |r| == |acc| + 1 && r[..|acc|] == acc
              && r[|acc|].id !in used && r[|acc|].id !in BookmarkIds(acc)
              && r[|acc|].collection == ""
  {
    var values := RowValues(row);
    if |values| >= 2 then
      var r := acc + [Record(headers, values, FreshId(used + BookmarkIds(acc)), now)];
      assert r[..|acc|] == acc;
      r
    else acc
  }

  /** The import as a whole: at least a header line and one data line, and
      at least one line with two cells. */
  function ImportCsv(text: string, used: seq<string>, now: int): (r: Result<seq<Bookmark>, Failure>)
    ensures |DataLines(text)| < 2 ==> r == Err(NotEnoughRows)
    ensures r.Ok? ==> |r.value| >= 1
    ensures r.Err? ==> r.error == NotEnoughRows || r.error == NothingToImport
  {
    var lines := DataLines(text);
    if |lines| < 2 then Err(NotEnoughRows)
    else
      var recs := Records(HeaderNames(lines[0]), lines[1..], used, [], now);
      if recs == [] then Err(NothingToImport) else Ok(recs)
  }

  /** The loop of `handleCsvImport` that builds the records. */
  method ReadCsv(text: string, used: seq<string>, now: int) returns (r: Result<seq<Bookmark>, Failure>)
    ensures r == ImportCsv(text, used, now)
  {
    var lines := DataLines(text);
    if |lines| < 2 {
      return Err(NotEnoughRows);
    }
    var headers := HeaderNames(lines[0]);
    var recs: seq<Bookmark> := [];
    var i := 1;
    while i < |lines|
      invariant 1 <= i <= |lines|
      invariant Records(headers, lines[i..], used, recs, now) == Records(headers, lines[1..], used, [], now)
    {
      RecordsFirst(headers, lines[i..], used, recs, now);
      assert lines[i..][1..] == lines[i + 1..];
      ghost var before := recs;
      var values := RowValues(lines[i]);
      if |values| >= 2 {
        var id := FreshId(used + BookmarkIds(recs));
        recs := recs + [Record(headers, values, id, now)];
      }
      assert recs == Step(headers, lines[i], used, before, now);
      i := i + 1;
    }
    assert lines[i..] == [];
    if recs == [] {
      return Err(NothingToImport);
    }
    return Ok(recs);
  }

  // ----------------------------------------------------- import properties

  /** The records' ids are distinct and unused whenever acc's are. */
  lemma {:induction false} RecordsFresh(headers: seq<string>, rows: seq<string>, used: seq<string>,
                                        acc: seq<Bookmark>, now: int)
    requires NoDuplicates(BookmarkIds(acc)) && forall b :: b in acc ==> b.id !in used
    ensures var r := Records(headers, rows, used, acc, now);
      NoDuplicates(BookmarkIds(r)) && forall b :: b in r ==> b.id !in used
    decreases |rows|
  {
    if rows != [] {
      var next := Step(headers, rows[0], used, acc, now);
      StepFresh(headers, rows[0], used, acc, now);
      RecordsFresh(headers, rows[1..], used, next, now);
    }
  }

  lemma StepFresh(headers: seq<string>, row: string, used: seq<string>, acc: seq<Bookmark>, now: int)
    requires NoDuplicates(BookmarkIds(acc)) && forall b :: b in acc ==> b.id !in used
    ensures var next := Step(headers, row, used, acc, now);
      && |acc| <= |next| <= |acc| + 1 && next[..|acc|] == acc
      && NoDuplicates(BookmarkIds(next)) && forall b :: b in next ==> b.id !in used
  {
    var next := Step(headers, row, used, acc, now);
    if |next| > |acc| {
      var x := next[|acc|];
      assert next == acc + [x];
      AppendFresh(acc, x, used);
    }
  }

  /** Imported records carry distinct ids that no stored bookmark has, and
      belong to no collection. */
  lemma ImportCsvFresh(text: string, used: seq<string>, now: int)
    ensures ImportCsv(text, used, now).Ok? ==>
      var r := ImportCsv(text, used, now).value;
      NoDuplicates(BookmarkIds(r)) && forall b :: b in r ==> b.id !in used && b.collection == ""
  {
    var lines := DataLines(text);
    if |lines| >= 2 {
      RecordsFresh(HeaderNames(lines[0]), lines[1..], used, [], now);
      RecordsShape(HeaderNames(lines[0]), lines[1..], used, [], now);
    }
  }

  lemma {:induction false} RecordsShape(headers: seq<string>, rows: seq<string>, used: seq<string>,
                                        acc: seq<Bookmark>, now: int)
    requires forall b :: b in acc ==> b.collection == ""
    ensures forall b :: b in Records(headers, rows, used, acc, now) ==> b.collection == ""
    decreases |rows|
  {
    if rows != [] {
      var next := Step(headers, rows[0], used, acc, now);
      StepShape(headers, rows[0], used, acc, now);
      RecordsShape(headers, rows[1..], used, next, now);
    }
  }

  lemma StepShape(headers: seq<string>, row: string, used: seq<string>, acc: seq<Bookmark>, now: int)
    requires forall b :: b in acc ==> b.collection == ""
    ensures forall b :: b in Step(headers, row, used, acc, now) ==> b.collection == ""
  {
    var next := Step(headers, row, used, acc, now);
    forall b | b in next
      ensures b.collection == ""
    {
      var k :| 0 <= k < |next| && next[k] == b;
      if k < |acc| {
        assert next[..|acc|][k] == b;
      }
    }
  }

  /** When every line has two cells, there is one record per line, in order. */
  lemma RecordsFromEmpty(headers: seq<string>, rows: seq<string>, used: seq<string>, now: int)
    requires forall i :: 0 <= i < |rows| ==> |RowValues(rows[i])| >= 2
    ensures var r := Records(headers, rows, used, [], now);
      && |r| == |rows|
      && forall i :: 0 <= i < |rows| ==> r[i] == Record(headers, RowValues(rows[i]), r[i].id, now)
  {
    var step := RowStep(headers, used, now);
    var none: seq<Bookmark> := [];
    forall a: seq<Bookmark>, x: string | x in rows
      ensures |step(a, x)| == |a| + 1 && step(a, x)[..|a|] == a
    {
      var k :| 0 <= k < |rows| && rows[k] == x;
    }
    AccumulateLength(step, rows, none);
    var r := Records(headers, rows, used, none, now);
    forall i | 0 <= i < |rows|
      ensures r[i] == Record(headers, RowValues(rows[i]), r[i].id, now)
    {
      AccumulateAt(step, rows, none, i);
      assert |none| + i == i;
      StepRecord(headers, rows[i], used, r[..i], now);
    }
  }

  /** Holds of a line with at least two cells, the lines the loop keeps. */
  function Wide(): string -> bool {
    (row: string) => |RowValues(row)| >= 2
  }

  /** Lines with fewer than two cells add nothing: the records are those of
      the wide lines alone. */
  lemma {:induction false} RecordsSkipShort(headers: seq<string>, rows: seq<string>, used: seq<string>,
                                            acc: seq<Bookmark>, now: int)
    ensures Records(headers, rows, used, acc, now) == Records(headers, Filter(rows, Wide()), used, acc, now)
    decreases |rows|
  {
    if rows != [] {
      var next := Step(headers, rows[0], used, acc, now);
      var good := Filter(rows, Wide());
      RecordsFirst(headers, rows, used, acc, now);
      RecordsSkipShort(headers, rows[1..], used, next, now);
      if Wide()(rows[0]) {
        assert good == [rows[0]] + Filter(rows[1..], Wide());
        RecordsFirst(headers, good, used, acc, now);
        assert good[1..] == Filter(rows[1..], Wide());
      } else {
        assert next == acc;
        assert good == Filter(rows[1..], Wide());
      }
    }
  }

  /** The records read from data lines: none exactly when no line has two
      cells, and otherwise one per such line, in order. */
  lemma RecordsOfLines(headers: seq<string>, rows: seq<string>, used: seq<string>, now: int)
    ensures var good := Filter(rows, Wide());
      var recs := Records(headers, rows, used, [], now);
      && (recs == [] <==> forall l :: l in rows ==> |RowValues(l)| < 2)
      && |recs| == |good|
      && forall i :: 0 <= i < |good| ==>
           |RowValues(good[i])| >= 2 && recs[i] == Record(headers, RowValues(good[i]), recs[i].id, now)
  {
    var good := Filter(rows, Wide());
    var recs := Records(headers, rows, used, [], now);
    RecordsSkipShort(headers, rows, used, [], now);
    forall i | 0 <= i < |good|
      ensures |RowValues(good[i])| >= 2
    {
      assert good[i] in good;
    }
    RecordsFromEmpty(headers, good, used, now);
    if good != [] {
      assert good[0] in rows && Wide()(good[0]);
    } else {
      forall l | l in rows
        ensures |RowValues(l)| < 2
      {
        assert l in good <==> Wide()(l);
      }
    }
  }

  /** What the CSV import yields once there are a header line and a data
      line: nothing to import exactly when no data line has two cells, and
      otherwise one record per such line, in order, read against the header
      names. */
  lemma ImportCsvSpec(text: string, used: seq<string>, now: int)
    ensures var lines := DataLines(text);
      |lines| >= 2 ==>
        var good := Filter(lines[1..], Wide());
        var r := ImportCsv(text, used, now);
        && (r == Err(NothingToImport) <==> forall l :: l in lines[1..] ==> |RowValues(l)| < 2)
        && (r.Ok? ==>
              && |r.value| == |good|
              && forall i :: 0 <= i < |good| ==>
                   |RowValues(good[i])| >= 2 &&
                   r.value[i] == Record(HeaderNames(lines[0]), RowValues(good[i]), r.value[i].id, now))
  {
    var lines := DataLines(text);
    if |lines| >= 2 {
      RecordsOfLines(HeaderNames(lines[0]), lines[1..], used, now);
    }
  }

  lemma StepRecord(headers: seq<string>, row: string, used: seq<string>, acc: seq<Bookmark>, now: int)
    requires |RowValues(row)| >= 2
    ensures |Step(headers, row, used, acc, now)| == |acc| + 1
    ensures var x := Step(headers, row, used, acc, now)[|acc|];
      x == Record(headers, RowValues(row), x.id, now)
  {
  }

  /** A title or url cell that is missing or empty falls back to the first or
      second cell of the line. */
  lemma RecordFallback(headers: seq<string>, values: seq<string>, id: string, now: int)
    requires |values| >= 2
    ensures "title" !in headers ==> Record(headers, values, id, now).title == values[0]
    ensures "url" !in headers ==> Record(headers, values, id, now).url == values[1]
    ensures Column(headers, values, "title") == Some("") ==> Record(headers, values, id, now).title == values[0]
  {
  }

  /** The read flag is set exactly when there is an "is read" cell and it
      says yes in any case. */
  lemma RecordReadFlag(headers: seq<string>, values: seq<string>, id: string, now: int)
    requires |values| >= 2
    ensures var c := Column(headers, values, "is read");
      Record(headers, values, id, now).isRead <==> c.Some? && Lower(c.value) == "yes"
  {
    var c := Column(headers, values, "is read");
    assert Record(headers, values, id, now).isRead == (Lower(CellOr(c, "")) == "yes");
    assert |Lower("")| == 0;
  }

  /** A number cell that is empty or missing reads as 0. */
  lemma NumberCellBlank(v: Option<string>)
    requires v == None || v == Some("")
    ensures NumberCell(v) == 0
  {
    if v.Some? {
      var t := TrimStart(v.value);
      assert t == "";
      assert DigitRun(t) == 0;
    }
  }

  /** An empty rating cell gives rating 0. */
  lemma RecordBlankRating(headers: seq<string>, values: seq<string>, id: string, now: int)
    requires |values| >= 2 && Column(headers, values, "rating") == Some("")
    ensures Record(headers, values, id, now).rating == 0
  {
    NumberCellBlank(Column(headers, values, "rating"));
  }

  /** Without a "visits" column the visit count is 0. */
  lemma RecordNoVisits(headers: seq<string>, values: seq<string>, id: string, now: int)
    requires |values| >= 2 && "visits" !in headers
    ensures Record(headers, values, id, now).visitCount == 0
  {
    NumberCellBlank(Column(headers, values, "visits"));
  }

  // ------------------------------------------------------------ round trip

  /** A cell the import reads back as written: no comma, quote or line
      break, and no white space at either end. */
  predicate Plain(s: string) {
    ',' !in s && '"' !in s && '\n' !in s && IsTrimmed(s)
  }

  /** A bookmark whose row the import reads back: plain text fields, and tags
      that are non-empty, plain and free of semicolons. */
  predicate Exportable(b: Bookmark, cs: seq<Collection>) {
    && Plain(b.title) && Plain(b.url) && Plain(b.description)
    && Plain(CollectionLabel(cs, b.collection))
    && TagsExportable(b.tags)
  }

  /** Tags the tags cell carries back: non-empty, plain, without semicolons. */
  predicate TagsExportable(tags: seq<string>) {
    forall t :: t in tags ==> t != "" && ';' !in t && Plain(t)
  }

  /** Removing the quotes of an encoded plain cell and trimming gives it back. */
  lemma DecodeCell(s: string)
    requires Plain(s)
    ensures Trim(StripQuotes(EncodeCell(s))) == s
  {
    assert EncodeCell(s) == "\"" + s + "\"";
    FilterAppend("\"" + s, "\"", NotQuote());
    FilterAppend("\"", s, NotQuote());
    FilterKeepsAll(s, NotQuote());
    assert StripQuotes(EncodeCell(s)) == s;
    TrimTrimmed(s);
  }

  /** Reading the cells of an encoded row of plain cells gives them back. */
  lemma DecodeRow(cells: seq<string>)
    requires |cells| >= 1 && forall i :: 0 <= i < |cells| ==> Plain(cells[i])
    ensures RowValues(EncodeRow(cells)) == cells
  {
    var enc := seq(|cells|, i requires 0 <= i < |cells| => EncodeCell(cells[i]));
    forall p | p in enc
      ensures ',' !in p
    {
      var i :| 0 <= i < |cells| && enc[i] == p;
      assert p == "\"" + cells[i] + "\"";
    }
    SplitJoin(enc, ',');
    forall i | 0 <= i < |cells|
      ensures RowValues(EncodeRow(cells))[i] == cells[i]
    {
      DecodeCell(cells[i]);
    }
  }

  /** Numbers render without commas, quotes, line breaks or spaces. */
  lemma IntPlain(n: int)
    ensures Plain(IntToString(n))
  {
    var ds := NatToString(if n < 0 then -n else n);
    assert forall i :: 0 <= i < |ds| ==> IsDigit(ds[i]);
    var s := IntToString(n);
    assert forall i :: 0 <= i < |s| ==> IsDigit(s[i]) || s[i] == '-';
    assert forall c :: c in s ==> IsDigit(c) || c == '-';
  }

  /** The tags joined with "; " form a plain cell. */
  lemma TagsPlain(tags: seq<string>)
    requires forall t :: t in tags ==> t != "" && ';' !in t && Plain(t)
    ensures Plain(Join(tags, "; "))
  {
    JoinExcludes(tags, "; ", ',');
    JoinExcludes(tags, "; ", '"');
    JoinExcludes(tags, "; ", '\n');
    if tags != [] {
      assert tags[0] in tags && tags[|tags| - 1] in tags;
      JoinTrimmed(tags, "; ");
    }
  }

  /** Every tag after the first, with a space in front. */
  function SpacedTail(tags: seq<string>): (r: seq<string>)
    requires |tags| >= 1
    ensures |r| == |tags| - 1 && forall i :: 1 <= i < |tags| ==> r[i - 1] == " " + tags[i]
  {
    seq(|tags| - 1, i requires 0 <= i < |tags| - 1 => " " + tags[i + 1])
  }

  /** Splitting joined tags on ';' gives the tags, each after the first with
      the space of the separator in front. */
  lemma {:induction false} SplitTags(tags: seq<string>)
    requires |tags| >= 1 && forall t :: t in tags ==> ';' !in t
    ensures Split(Join(tags, "; "), ';') == [tags[0]] + SpacedTail(tags)
    decreases |tags|, 1
  {
    if |tags| == 1 {
      SplitNoSeparator(tags[0], ';');
    } else {
      var rest := tags[1..];
      var j := Join(rest, "; ");
      calc {
        Split(Join(tags, "; "), ';');
        { assert Join(tags, "; ") == tags[0] + [';'] + (" " + j); }
        Split(tags[0] + [';'] + (" " + j), ';');
        { assert tags[0] in tags;
          SplitAtFirst(tags[0], ';', " " + j); }
        [tags[0]] + Split(" " + j, ';');
        { SplitSpaced(rest); }
        [tags[0]] + SpacedTail(tags);
      }
    }
  }

  /** Splitting the joined tags after a leading space gives every tag with a
      space in front of the first. */
  lemma {:induction false} SplitSpaced(rest: seq<string>)
    requires |rest| >= 1 && forall t :: t in rest ==> ';' !in t
    ensures Split(" " + Join(rest, "; "), ';') == SpacedTail([""] + rest)
    decreases |rest| + 1, 0
  {
    var j := Join(rest, "; ");
    var s := " " + j;
    SplitTags(rest);
    var r := Split(j, ';');
    assert r == [rest[0]] + SpacedTail(rest);
    assert s[1..] == j;
    assert Split(s, ';') == [" " + r[0]] + r[1..];
    var t := SpacedTail([""] + rest);
    assert r[1..] == SpacedTail(rest);
    forall i | 0 <= i < |t|
      ensures t[i] == ([" " + r[0]] + r[1..])[i]
    {
      if i > 0 {
        assert t[i] == " " + rest[i];
        assert SpacedTail(rest)[i - 1] == " " + rest[i];
      }
    }
  }

  /** Trimming each piece undoes the spaces. */
  lemma TrimSpaced(tags: seq<string>)
    requires |tags| >= 1 && forall t :: t in tags ==> IsTrimmed(t)
    ensures TrimAll([tags[0]] + SpacedTail(tags)) == tags
  {
    var pieces := [tags[0]] + SpacedTail(tags);
    forall i | 0 <= i < |tags|
      ensures Trim(pieces[i]) == tags[i]
    {
      assert tags[i] in tags;
      if i == 0 {
        TrimTrimmed(tags[0]);
      } else {
        assert pieces[i] == " " + tags[i];
        TrimLeadingSpace(tags[i]);
      }
    }
  }

  /** The tags cell reads back as the tag list. */
  lemma DecodeTags(tags: seq<string>)
    requires |tags| >= 1 && forall t :: t in tags ==> t != "" && ';' !in t && Plain(t)
    ensures TrimAll(Split(Join(tags, "; "), ';')) == tags
  {
    SplitTags(tags);
    TrimSpaced(tags);
  }

  /** The header names the import reads from an exported header row. */
  function LowerHeaders(): seq<string> {
    ["title", "url", "description", "collection", "tags", "rating", "created", "visits", "is read"]
  }

  /** The import reads an exported header row as the lower-cased headers. */
  lemma ExportedHeaders()
    ensures HeaderNames(EncodeRow(Headers())) == LowerHeaders()
  {
    HeadersPlain();
    forall i | 0 <= i < |Headers()|
      ensures Lower(Headers()[i]) == LowerHeaders()[i]
    {
      HeaderLower(i);
    }
    ReadHeaderRow(Headers(), LowerHeaders());
  }

  /** A header row of plain names reads back as the names in lower case. */
  lemma ReadHeaderRow(hs: seq<string>, names: seq<string>)
    requires |hs| >= 1 && |names| == |hs|
    requires forall i :: 0 <= i < |hs| ==> Plain(hs[i]) && Lower(hs[i]) == names[i]
    ensures HeaderNames(EncodeRow(hs)) == names
  {
    DecodeRow(hs);
  }

  lemma HeadersPlain()
    ensures forall i :: 0 <= i < |Headers()| ==> Plain(Headers()[i])
  {
  }

  lemma HeaderLower(i: int)
    requires 0 <= i < |Headers()|
    ensures Lower(Headers()[i]) == LowerHeaders()[i]
  {
    var s := Headers()[i];
    var t := LowerHeaders()[i];
    assert |s| == |t|;
    forall k | 0 <= k < |s|
      ensures Lower(s)[k] == t[k]
    {
    }
  }

  /** The cells of an exportable bookmark are plain. */
  lemma CellsPlain(b: Bookmark, cs: seq<Collection>)
    requires Exportable(b, cs)
    ensures forall i :: 0 <= i < |Cells(b, cs)| ==> Plain(Cells(b, cs)[i])
  {
    var vs := Cells(b, cs);
    forall i | 0 <= i < |vs|
      ensures Plain(vs[i])
    {
      if i == 4 {
        TagsPlain(b.tags);
      } else if i == 5 {
        IntPlain(b.rating);
      } else if i == 6 {
        IntPlain(b.createdAt);
      } else if i == 7 {
        IntPlain(b.visitCount);
      } else if i == 8 {
        assert Plain("Yes") && Plain("No");
      }
    }
  }

  /** The fields a CSV row carries. */
  predicate SameCsvFields(r: Bookmark, b: Bookmark) {
    && r.title == b.title && r.url == b.url && r.description == b.description
    && r.tags == b.tags && r.rating == b.rating && r.visitCount == b.visitCount
    && r.isRead == b.isRead
  }

  /** In a list without repetitions, each entry is found at its own position. */
  lemma IndexOfDistinct(xs: seq<string>, k: int)
    requires NoDuplicates(xs) && 0 <= k < |xs|
    ensures IndexOf(xs, xs[k]) == k
  {
    assert xs[k] in xs;
    var r := IndexOf(xs, xs[k]);
    assert xs[r] == xs[k];
  }

  /** No header name appears twice. */
  lemma LowerHeadersDistinct()
    ensures NoDuplicates(LowerHeaders())
  {
    var h := LowerHeaders();
    forall i, j | 0 <= i < j < |h|
      ensures h[i] != h[j]
    {
      if |h[i]| == |h[j]| {
        assert h[i][0] != h[j][0];
      }
    }
  }

  /** Where the import finds each column of an exported header row. */
  lemma LowerHeadersIndex()
    ensures ExportLayout(LowerHeaders())
  {
    var h := LowerHeaders();
    LowerHeadersDistinct();
    IndexOfDistinct(h, 0);
    IndexOfDistinct(h, 1);
    IndexOfDistinct(h, 2);
    IndexOfDistinct(h, 4);
    IndexOfDistinct(h, 5);
    IndexOfDistinct(h, 7);
    IndexOfDistinct(h, 8);
  }

  /** Headers() that put each column the import looks for where the export
      writes it. */
  predicate ExportLayout(hs: seq<string>) {
    && IndexOf(hs, "title") == 0 && IndexOf(hs, "url") == 1
    && IndexOf(hs, "description") == 2 && IndexOf(hs, "tags") == 4
    && IndexOf(hs, "rating") == 5 && IndexOf(hs, "visits") == 7
    && IndexOf(hs, "is read") == 8
  }

  /** Reading an exported row under such headers gives back every field the
      row carries. */
  lemma RecordOfRow(hs: seq<string>, b: Bookmark, cs: seq<Collection>, id: string, now: int)
    requires ExportLayout(hs) && Exportable(b, cs)
    ensures SameCsvFields(Record(hs, Cells(b, cs), id, now), b)
  {
    ExportedCells(b, cs);
    RecordOfCells(hs, Cells(b, cs), b, id, now);
  }

  /** The cells of an exportable bookmark read back as its values. */
  lemma ExportedCells(b: Bookmark, cs: seq<Collection>)
    requires TagsExportable(b.tags)
    ensures var vs := Cells(b, cs);
      && |vs| == 9 && vs[0] == b.title && vs[1] == b.url && vs[2] == b.description
      && (if vs[4] != "" then TrimAll(Split(vs[4], ';')) else []) == b.tags
      && ParseIntOr0(vs[5]) == b.rating && ParseIntOr0(vs[7]) == b.visitCount
      && (Lower(vs[8]) == "yes") == b.isRead
  {
    CellsTags(b, cs);
    CellsNumbers(b, cs);
    CellsFlag(b, cs);
  }

  /** The tags cell of an exportable bookmark reads back as its tags. */
  lemma CellsTags(b: Bookmark, cs: seq<Collection>)
    requires TagsExportable(b.tags)
    ensures var v := Cells(b, cs)[4];
      (if v != "" then TrimAll(Split(v, ';')) else []) == b.tags
  {
    RowTags(b.tags);
  }

  /** The rating and visits cells read back as the numbers. */
  lemma CellsNumbers(b: Bookmark, cs: seq<Collection>)
    ensures ParseIntOr0(Cells(b, cs)[5]) == b.rating && ParseIntOr0(Cells(b, cs)[7]) == b.visitCount
  {
    ParseIntRoundTrip(b.rating);
    ParseIntRoundTrip(b.visitCount);
  }

  /** The read cell reads back as the flag. */
  lemma CellsFlag(b: Bookmark, cs: seq<Collection>)
    ensures (Lower(Cells(b, cs)[8]) == "yes") == b.isRead
  {
    ReadFlagCell(b.isRead);
  }

  /** The fields of a record read from cells that hold a bookmark's values in
      the export's order. */
  lemma RecordOfCells(hs: seq<string>, vs: seq<string>, b: Bookmark, id: string, now: int)
    requires ExportLayout(hs) && |vs| == 9
    requires vs[0] == b.title && vs[1] == b.url && vs[2] == b.description
    requires (if vs[4] != "" then TrimAll(Split(vs[4], ';')) else []) == b.tags
    requires ParseIntOr0(vs[5]) == b.rating && ParseIntOr0(vs[7]) == b.visitCount
    requires (Lower(vs[8]) == "yes") == b.isRead
    ensures SameCsvFields(Record(hs, vs, id, now), b)
  {
  }

  /** The read cell says yes, in any case, exactly when the flag is set. */
  lemma ReadFlagCell(isRead: bool)
    ensures (Lower(if isRead then "Yes" else "No") == "yes") == isRead
  {
    if isRead {
      assert Lower("Yes") == "yes";
    } else {
      assert |Lower("No")| == 2;
    }
  }

  /** The tags cell reads back as the tag list, an empty one included. */
  lemma RowTags(tags: seq<string>)
    requires forall t :: t in tags ==> t != "" && ';' !in t && Plain(t)
    ensures var v := Join(tags, "; ");
      (if v != "" then TrimAll(Split(v, ';')) else []) == tags
  {
    if tags != [] {
      DecodeTags(tags);
      JoinEnds(tags, "; ");
      assert tags[0] in tags;
    }
  }

  /** The lines the import keeps from an export are the header row and the
      bookmark rows. */
  lemma ExportDataLines(bs: seq<Bookmark>, cs: seq<Collection>, exportDate: string)
    requires '\n' !in exportDate
    requires forall b :: b in bs ==> Exportable(b, cs)
    ensures DataLines(ExportCsv(bs, cs, exportDate)) == ExportRows(bs, cs)
  {
    CommentsSkipped(exportDate);
    RowsAreLines(bs, cs);
    DataLinesAfter(CommentLines(exportDate), ExportRows(bs, cs));
  }

  /** No comment line holds a line break, and the import skips each. */
  lemma CommentsSkipped(exportDate: string)
    requires '\n' !in exportDate
    ensures forall l :: l in CommentLines(exportDate) ==> '\n' !in l && !IsDataLine(l)
  {
    var ls := CommentLines(exportDate);
    CommentTextsUnbroken();
    assert '\n' !in "Export Date: " + exportDate;
    CommentSkipped("Exported from " + AppName + " v" + AppVersion);
    CommentSkipped("Export Date: " + exportDate);
    CommentSkipped("Website: " + AppUrl);
    assert Trim(ls[3]) == "";
    forall l | l in ls
      ensures '\n' !in l && !IsDataLine(l)
    {
      var k :| 0 <= k < 4 && ls[k] == l;
      if k == 0 {
      } else if k == 1 {
      } else if k == 2 {
      }
    }
  }

  /** The fixed texts of the comment lines hold no line break. */
  lemma CommentTextsUnbroken()
    ensures '\n' !in "Exported from " + AppName + " v" + AppVersion
    ensures '\n' !in "Export Date: " && '\n' !in "Website: " + AppUrl
  {
  }

  /** A comment line is skipped, and holds a line break only if its text does. */
  lemma CommentSkipped(text: string)
    requires '\n' !in text
    ensures '\n' !in Comment(text) && !IsDataLine(Comment(text))
  {
    var l := Comment(text);
    assert l[..1] == "#";
  }

  /** Every exported row is one line the import reads. */
  lemma RowsAreLines(bs: seq<Bookmark>, cs: seq<Collection>)
    requires forall b :: b in bs ==> Exportable(b, cs)
    ensures forall r :: r in ExportRows(bs, cs) ==> '\n' !in r && IsDataLine(r)
  {
    var rows := ExportRows(bs, cs);
    forall r | r in rows
      ensures '\n' !in r && IsDataLine(r)
    {
      var k :| 0 <= k < |rows| && rows[k] == r;
      if k == 0 {
        HeaderLine();
      } else {
        assert bs[k - 1] in bs;
        BookmarkLine(bs[k - 1], cs);
      }
    }
  }

  /** The row of an exportable bookmark is one line the import reads. */
  lemma BookmarkLine(b: Bookmark, cs: seq<Collection>)
    requires Exportable(b, cs)
    ensures '\n' !in EncodeRow(Cells(b, cs)) && IsDataLine(EncodeRow(Cells(b, cs)))
  {
    CellsPlain(b, cs);
    RowLine(Cells(b, cs));
  }

  /** The header row is one line the import reads. */
  lemma HeaderLine()
    ensures '\n' !in EncodeRow(Headers()) && IsDataLine(EncodeRow(Headers()))
  {
    HeadersPlain();
    RowLine(Headers());
  }

  /** An encoded row of plain cells is one line the import reads. */
  lemma RowLine(cells: seq<string>)
    requires |cells| >= 1 && forall i :: 0 <= i < |cells| ==> Plain(cells[i])
    ensures '\n' !in EncodeRow(cells) && IsDataLine(EncodeRow(cells))
  {
    var enc := seq(|cells|, k requires 0 <= k < |cells| => EncodeCell(cells[k]));
    forall p | p in enc
      ensures '\n' !in p
    {
      var k :| 0 <= k < |cells| && enc[k] == p;
      assert p == "\"" + cells[k] + "\"";
    }
    JoinExcludes(enc, ",", '\n');
    JoinEnds(enc, ",");
    var row := EncodeRow(cells);
    assert row[0] == enc[0][0] == '"';
    TrimNonEmpty(row, 0);
    assert row[..1][0] != "#"[0];
  }

  /** After lines the import skips, it reads exactly the given lines. */
  lemma DataLinesAfter(skipped: seq<string>, lines: seq<string>)
    requires |skipped| >= 1 && |lines| >= 1
    requires forall l :: l in skipped ==> '\n' !in l && !IsDataLine(l)
    requires forall l :: l in lines ==> '\n' !in l && IsDataLine(l)
    ensures DataLines(Join(skipped, "\n") + "\n" + Join(lines, "\n")) == lines
  {
    JoinAppend(skipped, lines, "\n");
    SplitJoin(skipped + lines, '\n');
    FilterAppend(skipped, lines, IsDataLine);
    FilterKeepsAll(lines, IsDataLine);
    FilterKeepsNone(skipped, IsDataLine);
  }

  /** Importing an export of at least one exportable bookmark yields one
      record per bookmark, in order, agreeing with it on every field the
      format carries; the collection is not carried back. */
  lemma CsvRoundTrip(bs: seq<Bookmark>, cs: seq<Collection>, exportDate: string, used: seq<string>, now: int)
    requires |bs| >= 1 && '\n' !in exportDate
    requires forall b :: b in bs ==> Exportable(b, cs)
    ensures var r := ImportCsv(ExportCsv(bs, cs, exportDate), used, now);
      && r.Ok? && |r.value| == |bs|
      && forall i :: 0 <= i < |bs| ==> SameCsvFields(r.value[i], bs[i]) && r.value[i].collection == ""
  {
    ExportRecords(bs, cs, exportDate, used, now);
    LowerHeadersIndex();
    RecordsOfRows(LowerHeaders(), bs, cs, ImportCsv(ExportCsv(bs, cs, exportDate), used, now).value, now);
  }

  /** Records read from the rows of exportable bookmarks carry their fields. */
  lemma RecordsOfRows(hs: seq<string>, bs: seq<Bookmark>, cs: seq<Collection>, r: seq<Bookmark>, now: int)
    requires ExportLayout(hs)
    requires forall b :: b in bs ==> Exportable(b, cs)
    requires |r| == |bs|
    requires forall i :: 0 <= i < |bs| ==> r[i] == Record(hs, Cells(bs[i], cs), r[i].id, now)
    ensures forall i :: 0 <= i < |bs| ==> SameCsvFields(r[i], bs[i]) && r[i].collection == ""
  {
    forall i | 0 <= i < |bs|
      ensures SameCsvFields(r[i], bs[i]) && r[i].collection == ""
    {
      assert bs[i] in bs;
      RecordOfRow(hs, bs[i], cs, r[i].id, now);
    }
  }

  /** Importing an export gives, for each bookmark, the record of its cells
      read under the lower-cased headers. */
  lemma ExportRecords(bs: seq<Bookmark>, cs: seq<Collection>, exportDate: string, used: seq<string>, now: int)
    requires |bs| >= 1 && '\n' !in exportDate
    requires forall b :: b in bs ==> Exportable(b, cs)
    ensures var r := ImportCsv(ExportCsv(bs, cs, exportDate), used, now);
      && r.Ok? && |r.value| == |bs|
      && forall i :: 0 <= i < |bs| ==> r.value[i] == Record(LowerHeaders(), Cells(bs[i], cs), r.value[i].id, now)
  {
    var text := ExportCsv(bs, cs, exportDate);
    ExportDataLines(bs, cs, exportDate);
    ExportedHeaders();
    var values := seq(|bs|, i requires 0 <= i < |bs| => Cells(bs[i], cs));
    forall i | 0 <= i < |bs|
      ensures RowValues(DataLines(text)[i + 1]) == values[i] && |values[i]| >= 2
    {
      assert bs[i] in bs;
      BookmarkRowValues(bs[i], cs);
    }
    ImportReads(text, used, now, LowerHeaders(), values);
  }

  /** The row of an exportable bookmark reads back as its cells. */
  lemma BookmarkRowValues(b: Bookmark, cs: seq<Collection>)
    requires Exportable(b, cs)
    ensures RowValues(EncodeRow(Cells(b, cs))) == Cells(b, cs)
  {
    CellsPlain(b, cs);
    DecodeRow(Cells(b, cs));
  }

  /** A text whose data lines are a header line and lines of at least two
      cells imports as one record per line, in order, read under the header
      names. */
  lemma ImportReads(text: string, used: seq<string>, now: int, hs: seq<string>, values: seq<seq<string>>)
    requires |values| >= 1 && |DataLines(text)| == |values| + 1
    requires HeaderNames(DataLines(text)[0]) == hs
    requires forall i :: 0 <= i < |values| ==> RowValues(DataLines(text)[i + 1]) == values[i] && |values[i]| >= 2
    ensures var r := ImportCsv(text, used, now);
      && r.Ok? && |r.value| == |values|
      && forall i :: 0 <= i < |values| ==> r.value[i] == Record(hs, values[i], r.value[i].id, now)
  {
    var rows := DataLines(text)[1..];
    LaterLines(DataLines(text), values);
    RecordsFromEmpty(hs, rows, used, now);
    ImportIsRecords(text, used, now);
  }

  /** With a header line and a line that makes a record, the import
      succeeds with the records of the lines after the header. */
  lemma ImportIsRecords(text: string, used: seq<string>, now: int)
    requires |DataLines(text)| >= 2
    requires |Records(HeaderNames(DataLines(text)[0]), DataLines(text)[1..], used, [], now)| >= 1
    ensures ImportCsv(text, used, now)
      == Ok(Records(HeaderNames(DataLines(text)[0]), DataLines(text)[1..], used, [], now))
  {
  }

  /** The lines after the first, read as the given cells. */
  lemma LaterLines(lines: seq<string>, values: seq<seq<string>>)
    requires |lines| == |values| + 1
    requires forall i :: 0 <= i < |values| ==> RowValues(lines[i + 1]) == values[i] && |values[i]| >= 2
    ensures forall i :: 0 <= i < |values| ==> RowValues(lines[1..][i]) == values[i] && |RowValues(lines[1..][i])| >= 2
  {
    forall i | 0 <= i < |values|
      ensures RowValues(lines[1..][i]) == values[i]
    {
      assert lines[1..][i] == lines[i + 1];
    }
  }
}

=== FILE: dates.dfy ===
/** Day arithmetic on millisecond timestamps: the "recent" test behind the
    virtual collection, the relative date labels, and the decision whether an
    automatic backup is due. The current time is always a parameter. */
module Dates {
  import opened Wrappers

  /** `1000 * 60 * 60 * 24`. */
  const DayMs: nat := 86_400_000

  function Abs(x: int): nat {
    if x < 0 then -x else x
  }

  /** `Math.ceil(ms / DayMs)` for a non-negative duration: the number of
      started days. */
  function CeilDays(ms: nat): (d: nat)
    ensures d * DayMs - DayMs < ms <= d * DayMs
  {
    (ms + DayMs - 1) / DayMs
  }

  /** `isRecent`: at most seven started days lie between the timestamp and
      now, in either direction. */
  predicate IsRecent(createdAt: int, now: int) {
    CeilDays(Abs(now - createdAt)) <= 7
  }

  /** Recent means at most seven whole days away, to the millisecond, in the
      past or in the future alike. */
  lemma IsRecentIff(createdAt: int, now: int)
    ensures IsRecent(createdAt, now) <==> Abs(now - createdAt) <= 7 * DayMs
  {
    var d := CeilDays(Abs(now - createdAt));
    if d <= 7 {
      assert d * DayMs <= 7 * DayMs;
    }
  }

  /** Exactly seven days old is recent, one millisecond more is not, and a
      timestamp as far in the future is treated the same. */
  lemma RecentBoundary(now: int)
    ensures IsRecent(now - 7 * DayMs, now)
    ensures !IsRecent(now - 7 * DayMs - 1, now)
    ensures IsRecent(now + 7 * DayMs, now) && !IsRecent(now + 7 * DayMs + 1, now)
  {
    IsRecentIff(now - 7 * DayMs, now);
    IsRecentIff(now - 7 * DayMs - 1, now);
    IsRecentIff(now + 7 * DayMs, now);
    IsRecentIff(now + 7 * DayMs + 1, now);
  }

  // ---------------------------------------------------------- date labels

  /** What `formatDate` shows; a date further away is shown by the locale's
      calendar format, not modelled beyond the timestamp it shows. */
  datatype DateLabel = Today | Yesterday | DaysAgo(n: int) | CalendarDate(at: int)

  /** `formatDate` as the source has it: buckets by started days. A
      timestamp equal to now is zero started days and falls through to the
      "n days ago" bucket with n = -1. */
  function FormatDateAsWritten(at: int, now: int): DateLabel {
    var d := CeilDays(Abs(now - at));
    if d == 1 then Today
    else if d == 2 then Yesterday
    else if d <= 7 then DaysAgo(d - 1)
    else CalendarDate(at)
  }

  /** The label shown for a bookmark created at this very millisecond. */
  lemma FormatDateAtNowAsWritten(now: int)
    ensures FormatDateAsWritten(now, now) == DaysAgo(-1)
  {
  }

  /** `formatDate` with the zero-day case counted as today. */
  function FormatDate(at: int, now: int): (r: DateLabel)
    ensures r == Today <==> Abs(now - at) <= DayMs
    ensures r == Yesterday <==> DayMs < Abs(now - at) <= 2 * DayMs
    ensures r.DaysAgo? ==> 2 <= r.n <= 6
    ensures r.CalendarDate? <==> !IsRecent(at, now)
  {
    IsRecentIff(at, now);
    var d := CeilDays(Abs(now - at));
    if d <= 1 then Today
    else if d == 2 then Yesterday
    else if d <= 7 then DaysAgo(d - 1)
    else CalendarDate(at)
  }

  /** The correction changes nothing but the zero-day case. */
  lemma FormatDateAgrees(at: int, now: int)
    requires at != now
    ensures FormatDate(at, now) == FormatDateAsWritten(at, now)
  {
  }

  // --------------------------------------------------------------- backup

  /** The check in `saveData`: with auto-backup on, a backup is due when none
      was ever made, or when at least seven whole days (`Math.floor`) have
      passed since the last one. */
  predicate BackupDue(autoBackup: bool, lastBackup: Option<int>, now: int) {
    autoBackup && (lastBackup.None? || (now - lastBackup.value) / DayMs >= 7)
  }

  /** Due means seven full days to the millisecond; a last backup stamped in
      the future never makes one due. */
  lemma BackupDueIff(autoBackup: bool, lastBackup: Option<int>, now: int)
    ensures BackupDue(autoBackup, lastBackup, now) <==>
      autoBackup && (lastBackup.None? || now - lastBackup.value >= 7 * DayMs)
  {
    if lastBackup.Some? {
      var e := now - lastBackup.value;
      var q := e / DayMs;
      assert q * DayMs <= e < q * DayMs + DayMs;
      if q >= 7 {
        assert q * DayMs >= 7 * DayMs;
      }
    }
  }
}

=== FILE: domain.dfy ===
/** The records of the bookmark manager: bookmarks, collections, settings;
    the partial records a JSON import carries; the id oracle; and the
    per-record operations (creation with its validation, edit, visit, the
    favourite toggle). Timestamps are integer milliseconds since the epoch. */
module Domain {
  import opened Wrappers
  import opened Text
  import opened Seqs

  const AppName := "BookmarkPro"
  const AppVersion := "2.1.0"
  const AppUrl := "https://bookmarkpro.app"

  /** A stored bookmark. Every field is present here; a field the source
      leaves undefined is held at the value its readers substitute for it
      (`|| ''`, `|| 0`, `|| []`, `false`). */
  datatype Bookmark = Bookmark(
    id: string,
    title: string,
    url: string,
    description: string,
    collection: string,       // a collection id, or "" for uncategorised
    tags: seq<string>,
    rating: int,
    isRead: bool,
    isBroken: bool,
    priority: string,
    notes: string,
    createdAt: int,
    updatedAt: Option<int>,
    lastVisited: Option<int>,
    visitCount: int)

  datatype Collection = Collection(
    id: string,
    name: string,
    description: string,
    color: string,
    icon: string,
    createdAt: int,
    updatedAt: Option<int>)

  /** Why an operation refused its input. */
  datatype Failure =
    | MissingRequiredField   // empty title, url or collection name
    | CollectionNotFound     // bulk move to an unknown collection
    | NotEnoughRows          // a CSV file without a header and a data row
    | NothingToImport        // an HTML or CSV file that yields no record
    | InvalidFormat          // a JSON payload without a bookmarks array, or a declined newer version

  // ------------------------------------------------------------- settings

  datatype SettingValue = Flag(on: bool) | Number(n: int) | Word(w: string)

  type Settings = map<string, SettingValue>

  /** The defaults the manager starts from. */
  function DefaultSettings(): Settings {
    map[
      "darkMode" := Flag(true),
      "compactView" := Flag(true),
      "openInNewTab" := Flag(true),
      "autoFetchMeta" := Flag(true),
      "enableNotifications" := Flag(false),
      "autoBackup" := Flag(false),
      "theme" := Word("light"),
      "itemsPerPage" := Number(50),
      "enableDebug" := Flag(false)
    ]
  }

  /** `{ ...base, ...over }`: every key of either, the value from `over`
      where it has one. Keys the manager does not know are kept. */
  function Overridden(base: Settings, over: Settings): (r: Settings)
    ensures r.Keys == base.Keys + over.Keys
    ensures forall k :: k in over ==> r[k] == over[k]
    ensures forall k :: k in base && k !in over ==> r[k] == base[k]
  {
    base + over
  }

  /** The settings at start-up: the defaults, overridden key by key by the
      stored ones. */
  function LoadSettings(stored: Settings): Settings {
    Overridden(DefaultSettings(), stored)
  }

  /** Loading again what was loaded changes nothing, and no default key is
      ever missing after a load. */
  lemma LoadSettingsStable(stored: Settings)
    ensures LoadSettings(LoadSettings(stored)) == LoadSettings(stored)
    ensures DefaultSettings().Keys <= LoadSettings(stored).Keys
  {
  }

  /** Whether a setting is on, read as JavaScript truthiness: a missing
      setting, `false`, the number 0 and the empty string are off; every
      other value, `"false"` among them, is on. */
  predicate FlagOn(s: Settings, key: string) {
    key in s &&
    match s[key]
    case Flag(b) => b
    case Number(n) => n != 0
    case Word(w) => w != ""
  }

  /** A setting is off exactly when it is missing or one of the three falsy
      values; with nothing stored, the defaults open links in a new tab. */
  lemma FlagOnFalsy(s: Settings, key: string)
    ensures !FlagOn(s, key) <==>
      key !in s || s[key] == Flag(false) || s[key] == Number(0) || s[key] == Word("")
    ensures "openInNewTab" !in s ==> FlagOn(LoadSettings(s), "openInNewTab")
  {
  }

  // ----------------------------------------------------------- collections

  /** The three collections seeded when nothing was stored. */
  function SeedCollections(now: int): seq<Collection> {
    [
      Collection("work", "Work", "Work-related bookmarks", "#3b82f6", "ri-briefcase-line", now, None),
      Collection("personal", "Personal", "Personal bookmarks", "#10b981", "ri-heart-line", now, None),
      Collection("learning", "Learning", "Educational resources", "#f59e0b", "ri-book-line", now, None)
    ]
  }

  function CollectionIds(cs: seq<Collection>): (r: seq<string>)
    ensures |r| == |cs| && forall i :: 0 <= i < |cs| ==> r[i] == cs[i].id
  {
    seq(|cs|, i requires 0 <= i < |cs| => cs[i].id)
  }

  function BookmarkIds(bs: seq<Bookmark>): (r: seq<string>)
    ensures |r| == |bs| && forall i :: 0 <= i < |bs| ==> r[i] == bs[i].id
  {
    seq(|bs|, i requires 0 <= i < |bs| => bs[i].id)
  }

  /** `collections.find(c => c.id === id)`: the first collection with that id. */
  function FindCollection(cs: seq<Collection>, id: string): (r: Option<Collection>)
    ensures r.Some? <==> exists i :: 0 <= i < |cs| && cs[i].id == id
    ensures r.Some? ==> r.value in cs && r.value.id == id
  {
    if cs == [] then None
    else if cs[0].id == id then Some(cs[0])
    else
      var r := FindCollection(cs[1..], id);
      assert forall i :: 1 <= i < |cs| ==> cs[i] == cs[1..][i - 1];
      r
  }

  // ------------------------------------------------------------------ ids

  /** The length of the longest string in ids. */
  function MaxLength(ids: seq<string>): (n: nat)
    ensures forall s :: s in ids ==> |s| <= n
  {
    if ids == [] then 0
    else
      var m := MaxLength(ids[1..]);
      if |ids[0]| > m then |ids[0]| else m
  }

  /** `generateId()`: an id that none of `used` carries. The source draws it
      from the clock and a random number; here it is a string longer than
      every used one. */
  function FreshId(used: seq<string>): (r: string)
    ensures r !in used
  {
    seq(MaxLength(used) + 1, _ => 'x')
  }

  /** Appending a bookmark whose id is neither used nor already in the list
      keeps the ids distinct and unused. */
  lemma AppendFresh(acc: seq<Bookmark>, x: Bookmark, used: seq<string>)
    requires NoDuplicates(BookmarkIds(acc)) && forall b :: b in acc ==> b.id !in used
    requires x.id !in used && x.id !in BookmarkIds(acc)
    ensures NoDuplicates(BookmarkIds(acc + [x])) && forall b :: b in acc + [x] ==> b.id !in used
  {
    var next := acc + [x];
    var ids := BookmarkIds(acc);
    forall i, j | 0 <= i < j < |next|
      ensures BookmarkIds(next)[i] != BookmarkIds(next)[j]
    {
      assert BookmarkIds(next)[i] == next[i].id && BookmarkIds(next)[j] == next[j].id;
      if j == |acc| {
        assert next[i].id == ids[i];
      } else {
        assert next[i].id == ids[i] && next[j].id == ids[j];
      }
    }
  }
  // --------------------------------------------------------- per bookmark

  /** A bookmark at the defaults, for the fields an imported record omits. */
  function BlankBookmark(): Bookmark {
    Bookmark("", "", "", "", "", [], 0, false, false, "medium", "", 0, None, None, 0)
  }

  /** The quick-add form: title and url are trimmed and must not be empty. */
  function NewBookmark(title: string, url: string, collection: string, rating: int,
                       tags: seq<string>, isRead: bool, id: string, now: int): (r: Result<Bookmark, Failure>)
    ensures r.Ok? <==> Trim(title) != "" && Trim(url) != ""
    ensures r.Err? ==> r.error == MissingRequiredField
    ensures r.Ok? ==> var b := r.value;
      && b.id == id && b.title == Trim(title) && b.url == Trim(url) && IsTrimmed(b.title)
      && b.collection == collection && b.tags == tags && b.rating == rating
      && b.isRead == isRead && b.createdAt == now && b.visitCount == 0 && !b.isBroken
      && b.description == "" && b.priority == "medium" && b.notes == ""
      && b.updatedAt.None? && b.lastVisited.None?
  {
    var t, u := Trim(title), Trim(url);
    if t == "" || u == "" then Err(MissingRequiredField)
    else Ok(Bookmark(id, t, u, "", collection, tags, rating, isRead, false, "medium", "", now, None, None, 0))
  }

  /** The edit form: the text fields are trimmed and `updatedAt` is set; the
      id, creation time, visit history and broken flag are kept. Nothing is
      validated. */
  function EditedBookmark(b: Bookmark, title: string, url: string, description: string,
                          collection: string, priority: string, rating: int, tags: seq<string>,
                          isRead: bool, notes: string, now: int): (r: Bookmark)
    ensures r.id == b.id && r.createdAt == b.createdAt && r.visitCount == b.visitCount
    ensures r.lastVisited == b.lastVisited && r.isBroken == b.isBroken
    ensures r.title == Trim(title) && r.url == Trim(url) && r.description == Trim(description)
            && r.notes == Trim(notes)
    ensures IsTrimmed(r.title) && IsTrimmed(r.url) && IsTrimmed(r.description) && IsTrimmed(r.notes)
    ensures r.collection == collection && r.priority == priority && r.rating == rating
            && r.tags == tags && r.isRead == isRead
    ensures r.updatedAt == Some(now)
  {
    b.(title := Trim(title), url := Trim(url), description := Trim(description),
       collection := collection, priority := priority, rating := rating, tags := tags,
       isRead := isRead, notes := Trim(notes), updatedAt := Some(now))
  }

  /** Submitting the edit form again, unchanged, on an edited bookmark
      changes nothing but the update time: the form shows the trimmed values,
      and trimming them again gives them back. */
  lemma EditResubmitted(b: Bookmark, title: string, url: string, description: string,
                        collection: string, priority: string, rating: int, tags: seq<string>,
                        isRead: bool, notes: string, now: int, later: int)
    ensures var e := EditedBookmark(b, title, url, description, collection, priority, rating,
                                    tags, isRead, notes, now);
      EditedBookmark(e, e.title, e.url, e.description, e.collection, e.priority, e.rating,
                     e.tags, e.isRead, e.notes, later) == e.(updatedAt := Some(later))
  {
    var e := EditedBookmark(b, title, url, description, collection, priority, rating,
                            tags, isRead, notes, now);
    TrimTrimmed(e.title);
    TrimTrimmed(e.url);
    TrimTrimmed(e.description);
    TrimTrimmed(e.notes);
  }

  /** Opening a bookmark counts one more visit and stamps the visit time. */
  function Visited(b: Bookmark, now: int): (r: Bookmark)
    ensures r.visitCount == b.visitCount + 1 && r.lastVisited == Some(now)
    ensures r.(visitCount := b.visitCount, lastVisited := b.lastVisited) == b
  {
    b.(visitCount := b.visitCount + 1, lastVisited := Some(now))
  }

  /** A bookmark is a favourite when its rating is at least 4. */
  predicate IsFavorite(b: Bookmark) {
    b.rating >= 4
  }

  /** `rating >= 4 ? 0 : 5`: the toggle always lands on 0 or 5 and flips
      whether the bookmark is a favourite. */
  function ToggledRating(rating: int): (r: int)
    ensures r == 0 || r == 5
    ensures (r >= 4) <==> !(rating >= 4)
  {
    if rating >= 4 then 0 else 5
  }

  /** Toggling twice lands on 5 for a favourite and on 0 otherwise: the
      favourite status comes back, the exact rating does not. */
  lemma ToggleTwice(rating: int)
    ensures ToggledRating(ToggledRating(rating)) == if rating >= 4 then 5 else 0
  {
  }

  /** The collection form: name and description are trimmed, and the name
      must not be empty. */
  function NewCollection(name: string, description: string, color: string, icon: string,
                         id: string, now: int): (r: Result<Collection, Failure>)
    ensures r.Ok? <==> Trim(name) != ""
    ensures r.Err? ==> r.error == MissingRequiredField
    ensures r.Ok? ==> r.value.id == id && r.value.name == Trim(name) && r.value.createdAt == now
                      && r.value.updatedAt == None
    ensures r.Ok? ==> r.value.description == Trim(description) && r.value.color == color
                      && r.value.icon == icon
  {
    if Trim(name) == "" then Err(MissingRequiredField)
    else Ok(Collection(id, Trim(name), Trim(description), color, icon, now, None))
  }

  /** The collection form in edit mode: the same validation; the id and the
      creation time are kept and `updatedAt` is set. */
  function EditedCollection(c: Collection, name: string, description: string, color: string,
                            icon: string, now: int): (r: Result<Collection, Failure>)
    ensures r.Ok? <==> Trim(name) != ""
    ensures r.Err? ==> r.error == MissingRequiredField
    ensures r.Ok? ==> r.value.id == c.id && r.value.createdAt == c.createdAt
                      && r.value.name == Trim(name) && r.value.updatedAt == Some(now)
    ensures r.Ok? ==> r.value.description == Trim(description) && r.value.color == color
                      && r.value.icon == icon
  {
    if Trim(name) == "" then Err(MissingRequiredField)
    else Ok(c.(name := Trim(name), description := Trim(description), color := color,
               icon := icon, updatedAt := Some(now)))
  }

  // -------------------------------------------------------------- patches

  /** A bookmark as a JSON import carries it: any field may be missing except
      the url, the key the merge matches on. */
  datatype BookmarkPatch = BookmarkPatch(
    id: Option<string>,
    title: Option<string>,
    url: string,
    description: Option<string>,
    collection: Option<string>,
    tags: Option<seq<string>>,
    rating: Option<int>,
    isRead: Option<bool>,
    isBroken: Option<bool>,
    priority: Option<string>,
    notes: Option<string>,
    createdAt: Option<int>,
    updatedAt: Option<int>,
    lastVisited: Option<int>,
    visitCount: Option<int>)

  /** `{ ...b, ...p }`: the fields p carries replace those of b. */
  function OverlayBookmark(b: Bookmark, p: BookmarkPatch): Bookmark {
    Bookmark(
      p.id.GetOr(b.id), p.title.GetOr(b.title), p.url, p.description.GetOr(b.description),
      p.collection.GetOr(b.collection), p.tags.GetOr(b.tags), p.rating.GetOr(b.rating),
      p.isRead.GetOr(b.isRead), p.isBroken.GetOr(b.isBroken), p.priority.GetOr(b.priority),
      p.notes.GetOr(b.notes), p.createdAt.GetOr(b.createdAt),
      if p.updatedAt.Some? then p.updatedAt else b.updatedAt,
      if p.lastVisited.Some? then p.lastVisited else b.lastVisited,
      p.visitCount.GetOr(b.visitCount))
  }

  /** The record a patch stands for on its own (the fields it lacks at their
      defaults). */
  function PatchToBookmark(p: BookmarkPatch): Bookmark {
    OverlayBookmark(BlankBookmark(), p)
  }

  /** A bookmark written out in full, as the JSON export writes it. */
  function BookmarkToPatch(b: Bookmark): BookmarkPatch {
    BookmarkPatch(Some(b.id), Some(b.title), b.url, Some(b.description), Some(b.collection),
                  Some(b.tags), Some(b.rating), Some(b.isRead), Some(b.isBroken), Some(b.priority),
                  Some(b.notes), Some(b.createdAt), b.updatedAt, b.lastVisited, Some(b.visitCount))
  }

  /** A record exported in full wins every field of whatever it overlays,
      except an absent optional timestamp, which JSON leaves out and the
      overlay therefore keeps. On its own it reproduces the bookmark. */
  lemma OverlayFullBookmark(b: Bookmark, old_: Bookmark)
    ensures var r := OverlayBookmark(old_, BookmarkToPatch(b));
      && r.(updatedAt := b.updatedAt, lastVisited := b.lastVisited) == b
      && r.updatedAt == (if b.updatedAt.Some? then b.updatedAt else old_.updatedAt)
      && r.lastVisited == (if b.lastVisited.Some? then b.lastVisited else old_.lastVisited)
    ensures PatchToBookmark(BookmarkToPatch(b)) == b
  {
  }

  /** Overlaying the same patch twice is overlaying it once, so importing
      the same file twice in merge mode changes nothing the second time. */
  lemma OverlayBookmarkIdempotent(b: Bookmark, p: BookmarkPatch)
    ensures OverlayBookmark(OverlayBookmark(b, p), p) == OverlayBookmark(b, p)
  {
  }

  /** A collection as a JSON import carries it; the name is the merge key. */
  datatype CollectionPatch = CollectionPatch(
    id: Option<string>,
    name: string,
    description: Option<string>,
    color: Option<string>,
    icon: Option<string>,
    createdAt: Option<int>,
    updatedAt: Option<int>)

  function BlankCollection(): Collection {
    Collection("", "", "", "", "", 0, None)
  }

  /** `{ ...c, ...p }` for collections. */
  function OverlayCollection(c: Collection, p: CollectionPatch): Collection {
    Collection(p.id.GetOr(c.id), p.name, p.description.GetOr(c.description),
               p.color.GetOr(c.color), p.icon.GetOr(c.icon), p.createdAt.GetOr(c.createdAt),
               if p.updatedAt.Some? then p.updatedAt else c.updatedAt)
  }

  function PatchToCollection(p: CollectionPatch): Collection {
    OverlayCollection(BlankCollection(), p)
  }

  function CollectionToPatch(c: Collection): CollectionPatch {
    CollectionPatch(Some(c.id), c.name, Some(c.description), Some(c.color), Some(c.icon),
                    Some(c.createdAt), c.updatedAt)
  }

  lemma OverlayFullCollection(c: Collection, old_: Collection)
    ensures var r := OverlayCollection(old_, CollectionToPatch(c));
      r.(updatedAt := c.updatedAt) == c
      && r.updatedAt == (if c.updatedAt.Some? then c.updatedAt else old_.updatedAt)
    ensures PatchToCollection(CollectionToPatch(c)) == c
  {
  }
}

=== FILE: html.dfy ===
/** The Netscape bookmark file. The export groups the bookmarks by
    collection into one folder per group; the import turns every link of a
    parsed file into a new bookmark. */
module Html {
  import opened Wrappers
  import opened Text
  import opened Seqs
  import opened Domain

  // ------------------------------------------------------------- grouping

  /** The property a bookmark is grouped under in `bookmarksByCollection`:
      its collection id, or "uncategorized" when it has none. */
  function GroupKey(b: Bookmark): string {
    if b.collection == "" then "uncategorized" else b.collection
  }

  function GroupKeys(bs: seq<Bookmark>): (r: seq<string>)
    ensures |r| == |bs| && forall i :: 0 <= i < |bs| ==> r[i] == GroupKey(bs[i])
  {
    seq(|bs|, i requires 0 <= i < |bs| => GroupKey(bs[i]))
  }

  /** The keys in the order the grouping object receives them. */
  function FirstSeen(bs: seq<Bookmark>): seq<string> {
    AppendAbsent([], GroupKeys(bs))
  }

  /** The bookmarks of one group, in stored order. */
  function Group(bs: seq<Bookmark>, key: string): seq<Bookmark> {
    Filter(bs, (b: Bookmark) => GroupKey(b) == key)
  }

  /** A group keeps, in stored order, exactly the bookmarks with its key. */
  lemma GroupSelects(bs: seq<Bookmark>, key: string)
    ensures IsSubseq(Group(bs, key), bs)
    ensures forall b :: b in Group(bs, key) <==> b in bs && GroupKey(b) == key
    ensures forall b :: multiset(Group(bs, key))[b] == if GroupKey(b) == key then multiset(bs)[b] else 0
  {
    FilterIsSubseq(bs, (b: Bookmark) => GroupKey(b) == key);
    FilterMultiplicity(bs, (b: Bookmark) => GroupKey(b) == key);
  }

  /** A key occurs among the bookmarks' keys exactly when its group is not
      empty. */
  lemma KeysAreGroups(bs: seq<Bookmark>, k: string)
    ensures k in GroupKeys(bs) <==> Group(bs, k) != []
  {
    GroupSelects(bs, k);
    if k in GroupKeys(bs) {
      var i :| 0 <= i < |bs| && GroupKeys(bs)[i] == k;
      assert bs[i] in Group(bs, k);
    }
  }

  /** The keys are distinct, and a key is present exactly when its group is
      not empty. */
  lemma FirstSeenKeys(bs: seq<Bookmark>)
    ensures NoDuplicates(FirstSeen(bs))
    ensures forall k :: k in FirstSeen(bs) <==> Group(bs, k) != []
  {
    AppendAbsentGrows([], GroupKeys(bs));
    assert NoDuplicates<string>([]);
    forall k
      ensures k in FirstSeen(bs) <==> Group(bs, k) != []
    {
      KeysAreGroups(bs, k);
    }
  }

  /** A bookmark added at the end adds its key at the end unless the key is
      there already: the keys come in order of first appearance. */
  lemma FirstSeenSnoc(bs: seq<Bookmark>, b: Bookmark)
    ensures FirstSeen(bs + [b]) ==
            if GroupKey(b) in FirstSeen(bs) then FirstSeen(bs) else FirstSeen(bs) + [GroupKey(b)]
  {
    assert GroupKeys(bs + [b]) == GroupKeys(bs) + [GroupKey(b)];
    AppendAbsentSnoc([], GroupKeys(bs), GroupKey(b));
  }

  /** A group of a prefix one longer gains the new bookmark when it has the
      group's key. */
  lemma GroupSnoc(bs: seq<Bookmark>, i: int, key: string)
    requires 0 <= i < |bs|
    ensures Group(bs[..i + 1], key) == Group(bs[..i], key) + if GroupKey(bs[i]) == key then [bs[i]] else []
  {
    var p := (b: Bookmark) => GroupKey(b) == key;
    assert bs[..i + 1] == bs[..i] + [bs[i]];
    FilterAppend(bs[..i], [bs[i]], p);
    assert [bs[i]][1..] == [];
  }

  /** The grouping object holds, under each of the keys in `order`, the group
      of that key, and no other key has a group. */
  ghost predicate Grouping(bs: seq<Bookmark>, order: seq<string>, groups: map<string, seq<Bookmark>>) {
    && (forall k :: k in groups <==> k in order)
    && (forall k :: k in groups ==> groups[k] == Group(bs, k))
    && (forall k :: k !in groups ==> Group(bs, k) == [])
  }

  /** One turn of the grouping loop. */
  lemma GroupingStep(bs: seq<Bookmark>, i: int, order: seq<string>, groups: map<string, seq<Bookmark>>)
    requires 0 <= i < |bs| && Grouping(bs[..i], order, groups)
    ensures var key := GroupKey(bs[i]);
      var current := if key in groups then groups[key] else [];
      Grouping(bs[..i + 1], if key in groups then order else order + [key], groups[key := current + [bs[i]]])
  {
    forall k
      ensures Group(bs[..i + 1], k) == Group(bs[..i], k) + if GroupKey(bs[i]) == k then [bs[i]] else []
    {
      GroupSnoc(bs, i, k);
    }
  }

  /** The `forEach` that fills `bookmarksByCollection`: the keys in the order
      they are added, and the list of each. */
  method GroupByCollection(bs: seq<Bookmark>) returns (order: seq<string>, groups: map<string, seq<Bookmark>>)
    ensures order == FirstSeen(bs)
    ensures forall k :: k in groups <==> k in order
    ensures forall k :: k in groups ==> groups[k] == Group(bs, k)
  {
    order := [];
    groups := map[];
    var i := 0;
    while i < |bs|
      invariant 0 <= i <= |bs|
      invariant AppendAbsent(order, GroupKeys(bs)[i..]) == FirstSeen(bs)
      invariant Grouping(bs[..i], order, groups)
    {
      var key := GroupKey(bs[i]);
      assert GroupKeys(bs)[i..][0] == key && GroupKeys(bs)[i..][1..] == GroupKeys(bs)[i + 1..];
      GroupingStep(bs, i, order, groups);
      var current := if key in groups then groups[key] else [];
      if key !in groups {
        order := order + [key];
      }
      groups := groups[key := current + [bs[i]]];
      i := i + 1;
    }
    assert bs[..i] == bs;
  }

  // ------------------------------------------------------ property order

  /** A property name that is an array index: the canonical decimal form of
      a number below 2^32 - 1. */
  predicate IsArrayIndex(k: string) {
    k != "" && AllDigits(k) && (k[0] != '0' || k == "0") && DigitsValue(k) < 0xFFFF_FFFF
  }

  /** The number an index key denotes (0 for any other key). */
  function IndexValue(k: string): nat {
    if AllDigits(k) then DigitsValue(k) else 0
  }

  function InsertIndex(k: string, s: seq<string>): (r: seq<string>)
    ensures |r| == |s| + 1
  {
    if s == [] then [k]
    else if IndexValue(k) <= IndexValue(s[0]) then [k] + s
    else [s[0]] + InsertIndex(k, s[1..])
  }

  function SortIndices(s: seq<string>): (r: seq<string>)
    ensures |r| == |s|
  {
    if s == [] then [] else InsertIndex(s[0], SortIndices(s[1..]))
  }

  predicate Ascending(s: seq<string>) {
    forall i, j :: 0 <= i < j < |s| ==> IndexValue(s[i]) <= IndexValue(s[j])
  }

  /** Keeps every key that is not an array index. */
  function NotIndex(): string -> bool {
    (k: string) => !IsArrayIndex(k)
  }

  /** `Object.keys`: the array-index keys in ascending numeric order, then
      the other keys in the order they were added. */
  function ObjectKeys(order: seq<string>): seq<string> {
    SortIndices(Filter(order, IsArrayIndex)) + Filter(order, NotIndex())
  }

  lemma {:induction false} InsertIndexPermutes(k: string, s: seq<string>)
    ensures multiset(InsertIndex(k, s)) == multiset(s) + multiset{k}
  {
    if s != [] && IndexValue(k) > IndexValue(s[0]) {
      InsertIndexPermutes(k, s[1..]);
      assert s == [s[0]] + s[1..];
    }
  }

  lemma {:induction false} InsertIndexAscending(k: string, s: seq<string>)
    requires Ascending(s)
    ensures Ascending(InsertIndex(k, s))
  {
    if s != [] && IndexValue(k) > IndexValue(s[0]) {
      InsertIndexAscending(k, s[1..]);
      InsertIndexPermutes(k, s[1..]);
      var t := InsertIndex(k, s[1..]);
      forall j | 0 <= j < |t|
        ensures IndexValue(s[0]) <= IndexValue(t[j])
      {
        assert t[j] in multiset(t);
        if t[j] != k {
          assert t[j] in s[1..];
        }
      }
      AscendingCons(s[0], t);
    }
  }

  lemma AscendingCons(h: string, t: seq<string>)
    requires Ascending(t) && forall j :: 0 <= j < |t| ==> IndexValue(h) <= IndexValue(t[j])
    ensures Ascending([h] + t)
  {
    var s := [h] + t;
    forall i, j | 0 <= i < j < |s|
      ensures IndexValue(s[i]) <= IndexValue(s[j])
    {
      assert s[j] == t[j - 1];
      if i > 0 {
        assert s[i] == t[i - 1];
      }
    }
  }

  lemma SortIndicesCorrect(s: seq<string>)
    ensures multiset(SortIndices(s)) == multiset(s)
    ensures Ascending(SortIndices(s))
  {
    SortIndicesPermutes(s);
    SortIndicesAscending(s);
  }

  lemma {:induction false} SortIndicesPermutes(s: seq<string>)
    ensures multiset(SortIndices(s)) == multiset(s)
  {
    if s != [] {
      var t := SortIndices(s[1..]);
      SortIndicesPermutes(s[1..]);
      assert SortIndices(s) == InsertIndex(s[0], t);
      InsertIndexPermutes(s[0], t);
      assert multiset(s) == multiset(s[1..]) + multiset{s[0]} by {
        assert s == [s[0]] + s[1..];
      }
    }
  }

  lemma {:induction false} SortIndicesAscending(s: seq<string>)
    ensures Ascending(SortIndices(s))
  {
    if s != [] {
      var t := SortIndices(s[1..]);
      SortIndicesAscending(s[1..]);
      assert SortIndices(s) == InsertIndex(s[0], t);
      InsertIndexAscending(s[0], t);
    }
  }

  /** `Object.keys` lists every key exactly as often as it was added. */
  lemma ObjectKeysPermutes(order: seq<string>)
    ensures multiset(ObjectKeys(order)) == multiset(order)
  {
    var idx := Filter(order, IsArrayIndex);
    var rest := Filter(order, NotIndex());
    SortIndicesCorrect(idx);
    FilterMultiplicity(order, IsArrayIndex);
    FilterMultiplicity(order, NotIndex());
    assert multiset(ObjectKeys(order)) == multiset(SortIndices(idx)) + multiset(rest);
  }

  /** The index keys come first, in ascending value; the others follow in
      the order they were added. */
  lemma ObjectKeysOrder(order: seq<string>)
    ensures var n := |Filter(order, IsArrayIndex)|; var r := ObjectKeys(order);
      && n <= |r|
      && (forall i :: 0 <= i < |r| ==> (IsArrayIndex(r[i]) <==> i < n))
      && (forall i, j :: 0 <= i < j < n ==> IndexValue(r[i]) <= IndexValue(r[j]))
      && IsSubseq(r[n..], order)
  {
    var idx := Filter(order, IsArrayIndex);
    var rest := Filter(order, NotIndex());
    var sorted := SortIndices(idx);
    var r := ObjectKeys(order);
    assert r == sorted + rest;
    SortIndicesCorrect(idx);
    forall i, j | 0 <= i < j < |idx|
      ensures IndexValue(r[i]) <= IndexValue(r[j])
    {
      assert r[i] == sorted[i] && r[j] == sorted[j];
    }
    assert r[|idx|..] == rest;
    FilterIsSubseq(order, NotIndex());
    IndexKeysFirst(sorted, rest, idx);
  }

  /** Keys drawn from the index keys, followed by keys that are not. */
  lemma IndexKeysFirst(sorted: seq<string>, rest: seq<string>, idx: seq<string>)
    requires multiset(sorted) == multiset(idx)
    requires forall k :: k in idx ==> IsArrayIndex(k)
    requires forall k :: k in rest ==> !IsArrayIndex(k)
    ensures var r := sorted + rest;
      forall i :: 0 <= i < |r| ==> (IsArrayIndex(r[i]) <==> i < |sorted|)
  {
    var r := sorted + rest;
    forall i | 0 <= i < |r|
      ensures IsArrayIndex(r[i]) <==> i < |sorted|
    {
      if i < |sorted| {
        assert r[i] == sorted[i];
        assert r[i] in multiset(idx);
      } else {
        assert r[i] == rest[i - |sorted|];
      }
    }
  }

  /** Without index keys, `Object.keys` is the insertion order. */
  lemma ObjectKeysPlain(order: seq<string>)
    requires forall i :: 0 <= i < |order| ==> !IsArrayIndex(order[i])
    ensures ObjectKeys(order) == order
  {
    FilterKeepsNone(order, IsArrayIndex);
    FilterKeepsAll(order, NotIndex());
  }

  // ------------------------------------------------------------ folders

  /** `Math.floor(createdAt / 1000)`: whole seconds since the epoch. */
  function AddDate(createdAt: int): (s: int)
    ensures s * 1000 <= createdAt < s * 1000 + 1000
  {
    createdAt / 1000
  }

  /** One `<DT><A>` entry of the file, with its optional `<DD>` line. */
  datatype Link = Link(href: string, addDate: int, tags: string, title: string, description: string)

  /** One `<DT><H3>` folder and its entries. */
  datatype Folder = Folder(name: string, links: seq<Link>)

  function LinkOf(b: Bookmark): Link {
    Link(b.url, AddDate(b.createdAt), Join(b.tags, ","), b.title, b.description)
  }

  function Links(bs: seq<Bookmark>): (r: seq<Link>)
    ensures |r| == |bs| && forall i :: 0 <= i < |bs| ==> r[i] == LinkOf(bs[i])
  {
    seq(|bs|, i requires 0 <= i < |bs| => LinkOf(bs[i]))
  }

  /** The heading of a group: the name of the collection with the key as
      its id, or "Uncategorized" when there is none. */
  function FolderName(cs: seq<Collection>, key: string): string {
    match FindCollection(cs, key)
    case Some(c) => c.name
    case None => "Uncategorized"
  }

  function FoldersOf(keys: seq<string>, bs: seq<Bookmark>, cs: seq<Collection>): seq<Folder> {
    if keys == [] then []
    else [Folder(FolderName(cs, keys[0]), Links(Group(bs, keys[0])))] + FoldersOf(keys[1..], bs, cs)
  }

  /** The folders of the export, in `Object.keys` order. */
  function Folders(bs: seq<Bookmark>, cs: seq<Collection>): seq<Folder> {
    FoldersOf(ObjectKeys(FirstSeen(bs)), bs, cs)
  }

  /** The groups of the keys one after the other. */
  function GroupedBy(keys: seq<string>, bs: seq<Bookmark>): seq<Bookmark> {
    if keys == [] then [] else Group(bs, keys[0]) + GroupedBy(keys[1..], bs)
  }

  /** The bookmarks in the order the export writes them. */
  function Grouped(bs: seq<Bookmark>): seq<Bookmark> {
    GroupedBy(ObjectKeys(FirstSeen(bs)), bs)
  }

  /** Each folder is named after its key and lists the group of that key. */
  lemma {:induction false} FoldersAt(keys: seq<string>, bs: seq<Bookmark>, cs: seq<Collection>)
    ensures var fs := FoldersOf(keys, bs, cs);
      && |fs| == |keys|
      && forall i :: 0 <= i < |keys| ==> fs[i] == Folder(FolderName(cs, keys[i]), Links(Group(bs, keys[i])))
  {
    if keys != [] {
      FoldersAt(keys[1..], bs, cs);
    }
  }

  lemma GroupCount(bs: seq<Bookmark>, key: string, b: Bookmark)
    ensures multiset(Group(bs, key))[b] == if GroupKey(b) == key then multiset(bs)[b] else 0
  {
    GroupSelects(bs, key);
  }

  /** c copies of m: the product, counted out. */
  function Times(c: nat, m: nat): nat {
    if c == 0 then 0 else m + Times(c - 1, m)
  }

  lemma {:induction false} TimesAdd(a: nat, c: nat, m: nat)
    ensures Times(a + c, m) == Times(a, m) + Times(c, m)
  {
    if a > 0 {
      TimesAdd(a - 1, c, m);
      assert a + c - 1 == (a - 1) + c;
    }
  }

  lemma {:induction false} TimesZero(c: nat)
    ensures Times(c, 0) == 0
  {
    if c > 0 {
      TimesZero(c - 1);
    }
  }

  /** A bookmark occurs in the groups of a key list as often as it is stored,
      times the number of times its key is listed. */
  lemma {:induction false} GroupedByCount(keys: seq<string>, bs: seq<Bookmark>, b: Bookmark)
    ensures multiset(GroupedBy(keys, bs))[b] == Times(multiset(keys)[GroupKey(b)], multiset(bs)[b])
  {
    if keys != [] {
      GroupedByCount(keys[1..], bs, b);
      GroupedByStep(keys, bs, b);
      TimesAdd(if GroupKey(b) == keys[0] then 1 else 0, multiset(keys[1..])[GroupKey(b)], multiset(bs)[b]);
    }
  }

  /** The first key's group, then the rest, counted for one bookmark. */
  lemma GroupedByStep(keys: seq<string>, bs: seq<Bookmark>, b: Bookmark)
    requires keys != []
    ensures var a := if GroupKey(b) == keys[0] then 1 else 0;
      && multiset(keys)[GroupKey(b)] == a + multiset(keys[1..])[GroupKey(b)]
      && multiset(GroupedBy(keys, bs))[b] == Times(a, multiset(bs)[b]) + multiset(GroupedBy(keys[1..], bs))[b]
  {
    var k := keys[0];
    GroupCount(bs, k, b);
    assert keys == [k] + keys[1..];
    assert multiset(GroupedBy(keys, bs)) == multiset(Group(bs, k)) + multiset(GroupedBy(keys[1..], bs));
  }

  /** In a list without repeats, a present value occurs once. */
  lemma {:induction false} OnceIfPresent(s: seq<string>, x: string)
    requires NoDuplicates(s) && x in s
    ensures multiset(s)[x] == 1
  {
    assert s == [s[0]] + s[1..];
    if s[0] == x {
      assert x !in s[1..];
    } else {
      OnceIfPresent(s[1..], x);
    }
  }

  /** The export writes every stored bookmark exactly as often as it is
      stored: the folders partition the list. */
  lemma GroupedPermutes(bs: seq<Bookmark>)
    ensures multiset(Grouped(bs)) == multiset(bs)
  {
    forall b
      ensures multiset(Grouped(bs))[b] == multiset(bs)[b]
    {
      GroupedOnce(bs, b);
    }
  }

  lemma GroupedOnce(bs: seq<Bookmark>, b: Bookmark)
    ensures multiset(Grouped(bs))[b] == multiset(bs)[b]
  {
    var seen := FirstSeen(bs);
    var keys := ObjectKeys(seen);
    GroupedByCount(keys, bs, b);
    var m := multiset(bs)[b];
    if b in bs {
      FirstSeenKeys(bs);
      ObjectKeysPermutes(seen);
      GroupSelects(bs, GroupKey(b));
      assert b in Group(bs, GroupKey(b));
      OnceIfPresent(seen, GroupKey(b));
      assert multiset(keys)[GroupKey(b)] == 1;
    } else {
      TimesZero(multiset(keys)[GroupKey(b)]);
    }
  }

  // ------------------------------------------------------------- the text

  function Concat(parts: seq<string>): string {
    if parts == [] then "" else parts[0] + Concat(parts[1..])
  }

  /** The fixed head of the file, stamped with the export time. */
  function HtmlPreamble(exportDate: string): string {
    "<!DOCTYPE NETSCAPE-Bookmark-file-1>\n<!--This is an automatically generated file.\nIt will be read and overwritten.\nDo NOT edit!-->\n<!-- Export from "
    + AppName + " v" + AppVersion + " on " + exportDate
    + " -->\n<META HTTP-EQUIV=\"Content-Type\" CONTENT=\"text/html; charset=UTF-8\">\n<TITLE>Bookmarks</TITLE>\n<H1>Bookmarks</H1>\n<DL><p>"
  }

  /** An entry; the `<DD>` line only when there is a description. */
  function LinkText(l: Link): string {
    "\n        <DT><A HREF=\"" + l.href + "\" ADD_DATE=\"" + IntToString(l.addDate) + "\" TAGS=\"" + l.tags + "\">"
    + l.title + "</A>" + (if l.description != "" then "\n        <DD>" + l.description else "")
  }

  function LinkTexts(ls: seq<Link>): (r: seq<string>)
    ensures |r| == |ls| && forall i :: 0 <= i < |ls| ==> r[i] == LinkText(ls[i])
  {
    seq(|ls|, i requires 0 <= i < |ls| => LinkText(ls[i]))
  }

  function FolderHead(name: string): string {
    "\n    <DT><H3 FOLDED>" + name + "</H3>\n    <DL><p>"
  }

  function FolderTail(): string {
    "\n    </DL><p>"
  }

  function FolderText(f: Folder): string {
    FolderHead(f.name) + Concat(LinkTexts(f.links)) + FolderTail()
  }

  function FolderTexts(fs: seq<Folder>): (r: seq<string>)
    ensures |r| == |fs| && forall i :: 0 <= i < |fs| ==> r[i] == FolderText(fs[i])
  {
    seq(|fs|, i requires 0 <= i < |fs| => FolderText(fs[i]))
  }

  /** `exportBookmarksHtml`: the folders of the stored bookmarks as a
      Netscape bookmark file. */
  function ExportHtml(bs: seq<Bookmark>, cs: seq<Collection>, exportDate: string): string {
    HtmlPreamble(exportDate) + Concat(FolderTexts(Folders(bs, cs))) + HtmlTail()
  }

  function HtmlTail(): string {
    "\n</DL><p>"
  }

  /** A concatenation holds each part between the parts before and after it. */
  lemma {:induction false} ConcatAt(parts: seq<string>, i: int)
    requires 0 <= i < |parts|
    ensures Concat(parts) == Concat(parts[..i]) + parts[i] + Concat(parts[i + 1..])
  {
    if i > 0 {
      ConcatAt(parts[1..], i - 1);
      assert parts[1..][..i - 1] == parts[1..i];
      assert parts[1..][i - 1 + 1..] == parts[i + 1..];
      assert parts[..i] == [parts[0]] + parts[1..i];
      assert Concat(parts[..i]) == parts[0] + Concat(parts[1..i]);
    } else {
      assert parts[1..] == parts[i + 1..];
      assert parts[..0] == [];
    }
  }

  /** `t` is written somewhere inside `s`. */
  ghost predicate Within(s: string, t: string) {
    exists pre: string, post: string :: s == pre + t + post
  }

  lemma WithinAt(pre: string, t: string, post: string)
    ensures Within(pre + t + post, t)
  {
  }

  lemma WithinTrans(s: string, t: string, u: string)
    requires Within(s, t) && Within(t, u)
    ensures Within(s, u)
  {
    var p1: string, q1: string :| s == p1 + t + q1;
    var p2: string, q2: string :| t == p2 + u + q2;
    assert s == (p1 + p2) + u + (q2 + q1);
  }

  lemma ConcatWithin(parts: seq<string>, i: int)
    requires 0 <= i < |parts|
    ensures Within(Concat(parts), parts[i])
  {
    ConcatAt(parts, i);
    WithinAt(Concat(parts[..i]), parts[i], Concat(parts[i + 1..]));
  }

  /** A folder's text holds the text of each of its entries. */
  lemma FolderWithin(f: Folder, k: int)
    requires 0 <= k < |f.links|
    ensures Within(FolderText(f), LinkText(f.links[k]))
  {
    var lines := LinkTexts(f.links);
    ConcatWithin(lines, k);
    WithinAt(FolderHead(f.name), Concat(lines), FolderTail());
    WithinTrans(FolderText(f), Concat(lines), LinkText(f.links[k]));
  }

  /** The file holds the text of each folder. */
  lemma DocumentWithin(head: string, fs: seq<Folder>, tail: string, j: int)
    requires 0 <= j < |fs|
    ensures Within(head + Concat(FolderTexts(fs)) + tail, FolderText(fs[j]))
  {
    var texts := FolderTexts(fs);
    ConcatWithin(texts, j);
    WithinAt(head, Concat(texts), tail);
    WithinTrans(head + Concat(texts) + tail, Concat(texts), texts[j]);
  }

  /** Where a stored bookmark lands: the folder of its group, among that
      folder's entries. */
  lemma FolderOf(bs: seq<Bookmark>, cs: seq<Collection>, b: Bookmark) returns (j: int, k: int)
    requires b in bs
    ensures 0 <= j < |Folders(bs, cs)| && 0 <= k < |Folders(bs, cs)[j].links|
    ensures Folders(bs, cs)[j].name == FolderName(cs, GroupKey(b))
    ensures Folders(bs, cs)[j].links[k] == LinkOf(b)
  {
    var seen := FirstSeen(bs);
    var keys := ObjectKeys(seen);
    var key := GroupKey(b);
    GroupSelects(bs, key);
    FirstSeenKeys(bs);
    ObjectKeysPermutes(seen);
    assert key in multiset(keys);
    j :| 0 <= j < |keys| && keys[j] == key;
    FoldersAt(keys, bs, cs);
    var g := Group(bs, key);
    k :| 0 <= k < |g| && g[k] == b;
  }

  /** Whatever surrounds the folders, each stored bookmark's entry is
      written inside the folder of its group. */
  lemma FoldersWriteEntry(bs: seq<Bookmark>, cs: seq<Collection>, head: string, tail: string, b: Bookmark)
    requires b in bs
    ensures var doc := head + Concat(FolderTexts(Folders(bs, cs))) + tail;
      && (exists f :: f in Folders(bs, cs) && f.name == FolderName(cs, GroupKey(b)) && LinkOf(b) in f.links
                       && Within(doc, FolderText(f)))
      && Within(doc, LinkText(LinkOf(b)))
  {
    var doc := head + Concat(FolderTexts(Folders(bs, cs))) + tail;
    var j, k := FolderOf(bs, cs, b);
    var f := Folders(bs, cs)[j];
    DocumentWithin(head, Folders(bs, cs), tail, j);
    FolderWithin(f, k);
    WithinTrans(doc, FolderText(f), LinkText(LinkOf(b)));
    assert f in Folders(bs, cs) && LinkOf(b) in f.links;
  }

  /** Every stored bookmark's entry is written into the file. */
  lemma ExportWritesEntry(bs: seq<Bookmark>, cs: seq<Collection>, exportDate: string, b: Bookmark)
    requires b in bs
    ensures Within(ExportHtml(bs, cs, exportDate), LinkText(LinkOf(b)))
  {
    FoldersWriteEntry(bs, cs, HtmlPreamble(exportDate), HtmlTail(), b);
  }

  /** The entry sits in a folder of the file headed by the name of the
      bookmark's collection, or "Uncategorized" when it has none. */
  lemma ExportEntryInFolder(bs: seq<Bookmark>, cs: seq<Collection>, exportDate: string, b: Bookmark)
    requires b in bs
    ensures exists f :: f in Folders(bs, cs) && f.name == FolderName(cs, GroupKey(b)) && LinkOf(b) in f.links
              && Within(ExportHtml(bs, cs, exportDate), FolderText(f))
  {
    FoldersWriteEntry(bs, cs, HtmlPreamble(exportDate), HtmlTail(), b);
  }

  // --------------------------------------------------------------- import

  /** A link as the page parser reports it: its href, its text content, and
      its TAGS attribute when it has one. */
  datatype Anchor = Anchor(href: string, text: string, tags: Option<string>)

  /** The record `handleHtmlImport` builds for one link: the trimmed text as
      the title (the href when the text is blank), the comma-separated TAGS
      attribute as the tags, everything else at its default. */
  function AnchorRecord(a: Anchor, id: string, now: int): (b: Bookmark)
    ensures b.id == id && b.url == a.href && b.collection == "" && b.createdAt == now
    ensures b.description == "" && b.rating == 0 && !b.isRead && b.visitCount == 0
    ensures Trim(a.text) != "" ==> b.title == Trim(a.text)
    ensures Trim(a.text) == "" ==> b.title == a.href
    ensures b.title == "" ==> a.href == ""
    ensures forall t :: t in b.tags ==> ',' !in t
  {
    var t := Trim(a.text);
    BlankBookmark().(
      id := id,
      title := if t != "" then t else a.href,
      url := a.href,
      tags := if a.tags.Some? && a.tags.value != "" then Split(a.tags.value, ',') else [],
      createdAt := now)
  }

  /** The tags are the pieces of a non-empty TAGS attribute, which joining
      them with commas gives back; without the attribute, or with an empty
      one, there are none. */
  lemma AnchorRecordTags(a: Anchor, id: string, now: int)
    ensures var b := AnchorRecord(a, id, now);
      && (a.tags.Some? && a.tags.value != "" ==> b.tags != [] && Join(b.tags, ",") == a.tags.value)
      && (a.tags.None? || a.tags.value == "" ==> b.tags == [])
  {
    if a.tags.Some? && a.tags.value != "" {
      JoinSplit(a.tags.value, ',');
    }
  }

  /** The records of the links in document order, each under an id that
      neither `used` nor an earlier record carries. */
  function AnchorRecords(anchors: seq<Anchor>, used: seq<string>, now: int): seq<Bookmark>
    decreases |anchors|
  {
    if anchors == [] then []
    else
      var before := AnchorRecords(anchors[..|anchors| - 1], used, now);
      before + [AnchorRecord(anchors[|anchors| - 1], FreshId(used + BookmarkIds(before)), now)]
  }

  /** One record per link, in order, each built from its link. */
  lemma {:induction false} AnchorRecordsShape(anchors: seq<Anchor>, used: seq<string>, now: int)
    ensures var r := AnchorRecords(anchors, used, now);
      && |r| == |anchors|
      && forall i :: 0 <= i < |r| ==> r[i] == AnchorRecord(anchors[i], r[i].id, now)
    decreases |anchors|
  {
    if anchors != [] {
      var n := |anchors| - 1;
      var before := AnchorRecords(anchors[..n], used, now);
      AnchorRecordsShape(anchors[..n], used, now);
      var r := AnchorRecords(anchors, used, now);
      assert r[..n] == before;
      forall i | 0 <= i < |r|
        ensures r[i] == AnchorRecord(anchors[i], r[i].id, now)
      {
        if i < n {
          assert r[i] == before[i] && anchors[..n][i] == anchors[i];
        } else {
          assert i == n;
          var id := FreshId(used + BookmarkIds(before));
          var last := AnchorRecord(anchors[n], id, now);
          assert r[n] == last && last.id == id;
        }
      }
    }
  }

  /** The records carry distinct ids, none of which was in use. */
  lemma {:induction false} AnchorRecordsFresh(anchors: seq<Anchor>, used: seq<string>, now: int)
    ensures var r := AnchorRecords(anchors, used, now);
      NoDuplicates(BookmarkIds(r)) && forall b :: b in r ==> b.id !in used
    decreases |anchors|
  {
    if anchors != [] {
      var n := |anchors| - 1;
      var before := AnchorRecords(anchors[..n], used, now);
      AnchorRecordsFresh(anchors[..n], used, now);
      var x := AnchorRecord(anchors[n], FreshId(used + BookmarkIds(before)), now);
      assert x.id !in used + BookmarkIds(before);
      AppendFresh(before, x, used);
    }
  }

  /** `handleHtmlImport`: one new bookmark per link; a file without links
      imports nothing. */
  function ImportHtml(anchors: seq<Anchor>, used: seq<string>, now: int): (r: Result<seq<Bookmark>, Failure>)
    ensures r.Err? <==> anchors == []
    ensures r.Err? ==> r.error == NothingToImport
  {
    if anchors == [] then Err(NothingToImport) else Ok(AnchorRecords(anchors, used, now))
  }

  /** An import adds one record per link, built from it, under distinct ids
      that were not in use. */
  lemma ImportHtmlSpec(anchors: seq<Anchor>, used: seq<string>, now: int)
    ensures var r := ImportHtml(anchors, used, now);
      r.Ok? ==> && |r.value| == |anchors|
                && (forall i :: 0 <= i < |anchors| ==> r.value[i] == AnchorRecord(anchors[i], r.value[i].id, now))
                && NoDuplicates(BookmarkIds(r.value))
                && forall b :: b in r.value ==> b.id !in used
  {
    AnchorRecordsShape(anchors, used, now);
    AnchorRecordsFresh(anchors, used, now);
  }

  /** The `forEach` over the links that builds the records. */
  method ReadHtml(anchors: seq<Anchor>, used: seq<string>, now: int) returns (r: Result<seq<Bookmark>, Failure>)
    ensures r == ImportHtml(anchors, used, now)
  {
    var recs: seq<Bookmark> := [];
    var i := 0;
    while i < |anchors|
      invariant 0 <= i <= |anchors|
      invariant recs == AnchorRecords(anchors[..i], used, now)
    {
      assert anchors[..i + 1][..i] == anchors[..i];
      var id := FreshId(used + BookmarkIds(recs));
      recs := recs + [AnchorRecord(anchors[i], id, now)];
      i := i + 1;
    }
    assert anchors[..i] == anchors;
    if |anchors| == 0 {
      return Err(NothingToImport);
    }
    return Ok(recs);
  }

  // ----------------------------------------------------------- round trip

  /** What the parser reports for the entries of the folders, in document
      order: the href, the title as text, and the tags attribute. */
  function FolderAnchors(fs: seq<Folder>): seq<Anchor> {
    if fs == [] then [] else LinkAnchors(fs[0].links) + FolderAnchors(fs[1..])
  }

  function LinkAnchors(ls: seq<Link>): (r: seq<Anchor>)
    ensures |r| == |ls| && forall i :: 0 <= i < |ls| ==> r[i] == Anchor(ls[i].href, ls[i].title, Some(ls[i].tags))
  {
    seq(|ls|, i requires 0 <= i < |ls| => Anchor(ls[i].href, ls[i].title, Some(ls[i].tags)))
  }

  lemma LinksAppend(a: seq<Bookmark>, b: seq<Bookmark>)
    ensures LinkAnchors(Links(a + b)) == LinkAnchors(Links(a)) + LinkAnchors(Links(b))
  {
    var l, r := LinkAnchors(Links(a + b)), LinkAnchors(Links(a)) + LinkAnchors(Links(b));
    forall i | 0 <= i < |l|
      ensures l[i] == r[i]
    {
      if i >= |a| {
        assert (a + b)[i] == b[i - |a|];
      }
    }
  }

  /** The entries of the folders, read back in document order, are the
      grouped bookmarks. */
  lemma {:induction false} FolderAnchorsOf(keys: seq<string>, bs: seq<Bookmark>, cs: seq<Collection>)
    ensures FolderAnchors(FoldersOf(keys, bs, cs)) == LinkAnchors(Links(GroupedBy(keys, bs)))
  {
    if keys != [] {
      FolderAnchorsOf(keys[1..], bs, cs);
      LinksAppend(Group(bs, keys[0]), GroupedBy(keys[1..], bs));
      var fs := FoldersOf(keys, bs, cs);
      assert fs[0].links == Links(Group(bs, keys[0])) && fs[1..] == FoldersOf(keys[1..], bs, cs);
    }
  }

  /** Tags that are not empty and hold no comma. */
  predicate TagsListable(tags: seq<string>) {
    forall i :: 0 <= i < |tags| ==> tags[i] != "" && ',' !in tags[i]
  }

  /** Written as a TAGS attribute and read back, listable tags come back as
      they were; no tags at all come back as none. */
  lemma TagsRoundTrip(tags: seq<string>)
    requires TagsListable(tags)
    ensures var attr := Join(tags, ",");
      (if attr != "" then Split(attr, ',') else []) == tags
  {
    if tags != [] {
      JoinEnds(tags, ",");
      assert Join(tags, ",")[..|tags[0]|] == tags[0];
      SplitJoin(tags, ',');
    }
  }

  /** What an entry reads back as: the url as it was, the title trimmed
      (the url when the title is blank), listable tags as they were. */
  predicate ReadsBack(r: Bookmark, b: Bookmark) {
    && r.url == b.url
    && r.title == (if Trim(b.title) != "" then Trim(b.title) else b.url)
    && (TagsListable(b.tags) ==> r.tags == b.tags)
  }

  lemma ReadBackEntry(g: seq<Bookmark>, used: seq<string>, now: int, i: int)
    requires 0 <= i < |g|
    ensures var r := AnchorRecords(LinkAnchors(Links(g)), used, now);
      |r| == |g| && ReadsBack(r[i], g[i])
  {
    AnchorRecordsShape(LinkAnchors(Links(g)), used, now);
    if TagsListable(g[i].tags) {
      TagsRoundTrip(g[i].tags);
    }
  }

  /** Reading back the entries of a non-empty list of bookmarks imports one
      record per bookmark, each reading back as it. */
  lemma ReadBackAll(g: seq<Bookmark>, used: seq<string>, now: int)
    requires g != []
    ensures var r := ImportHtml(LinkAnchors(Links(g)), used, now);
      r.Ok? && |r.value| == |g| && forall i :: 0 <= i < |g| ==> ReadsBack(r.value[i], g[i])
  {
    var r := AnchorRecords(LinkAnchors(Links(g)), used, now);
    ReadBackEntry(g, used, now, 0);
    forall i | 0 <= i < |g|
      ensures ReadsBack(r[i], g[i])
    {
      ReadBackEntry(g, used, now, i);
    }
  }

  /** Importing what the export writes gives one new bookmark per stored one,
      in folder order, each reading back as the stored one. */
  lemma HtmlRoundTrip(bs: seq<Bookmark>, cs: seq<Collection>, used: seq<string>, now: int)
    requires bs != []
    ensures multiset(Grouped(bs)) == multiset(bs)
    ensures var g, r := Grouped(bs), ImportHtml(FolderAnchors(Folders(bs, cs)), used, now);
      r.Ok? && |r.value| == |g| && forall i :: 0 <= i < |g| ==> ReadsBack(r.value[i], g[i])
  {
    var g := Grouped(bs);
    GroupedPermutes(bs);
    assert bs[0] in multiset(g);
    FolderAnchorsOf(ObjectKeys(FirstSeen(bs)), bs, cs);
    assert FolderAnchors(Folders(bs, cs)) == LinkAnchors(Links(g));
    ReadBackAll(g, used, now);
  }
}

=== FILE: manager.dfy ===
/** `AdvancedBookmarkManager`: the stored lists, the settings, the view state
    and the bulk selection, and the operations the interface invokes on
    them. Dialog answers, file contents and the clock arrive as parameters. */
module Manager {
  import opened Wrappers
  import opened Text
  import opened Seqs
  import opened Domain
  import opened Query
  import opened Reconcile
  import opened Transfer
  import Csv
  import Html

  /** How an operation ended: it changed the state, it stopped without
      changing anything (a dismissed dialog, an empty selection, an empty
      answer), or it refused its input with an alert. */
  datatype Outcome = Done | Dismissed | Refused(why: Failure)

  // ------------------------------------------------------------ removal

  /** The bookmarks whose id is not in `ids`, in stored order. */
  function WithoutIds(bs: seq<Bookmark>, ids: set<string>): seq<Bookmark> {
    Filter(bs, (b: Bookmark) => b.id !in ids)
  }

  /** Removal drops every copy of every bookmark with one of the ids and
      keeps every copy of every other bookmark, in order. */
  lemma WithoutIdsSpec(bs: seq<Bookmark>, ids: set<string>)
    ensures IsSubseq(WithoutIds(bs, ids), bs)
    ensures forall b :: multiset(WithoutIds(bs, ids))[b] == if b.id in ids then 0 else multiset(bs)[b]
    ensures forall i :: 0 <= i < |WithoutIds(bs, ids)| ==> WithoutIds(bs, ids)[i].id !in ids
  {
    FilterIsSubseq(bs, (b: Bookmark) => b.id !in ids);
    FilterMultiplicity(bs, (b: Bookmark) => b.id !in ids);
  }

  /** The collections other than `cid`. */
  function WithoutCollection(cs: seq<Collection>, cid: string): seq<Collection> {
    Filter(cs, (c: Collection) => c.id != cid)
  }

  /** After the removal no collection carries the id, and every other
      collection is still there, in order. */
  lemma WithoutCollectionSpec(cs: seq<Collection>, cid: string)
    ensures FindCollection(WithoutCollection(cs, cid), cid) == None
    ensures IsSubseq(WithoutCollection(cs, cid), cs)
    ensures forall c :: c in WithoutCollection(cs, cid) <==> c in cs && c.id != cid
  {
    var p := (c: Collection) => c.id != cid;
    FilterIsSubseq(cs, p);
    FilterMultiplicity(cs, p);
    var r := WithoutCollection(cs, cid);
    forall c | true
      ensures c in r <==> c in cs && c.id != cid
    {
      assert c in r <==> multiset(r)[c] > 0;
      assert c in cs <==> multiset(cs)[c] > 0;
    }
  }

  // ------------------------------------------------------- per-bookmark loops

  /** The bookmarks after their collection `cid` is deleted: the ones filed
      under it become uncategorized, and nothing else changes. */
  function Unfiled(bs: seq<Bookmark>, cid: string): (r: seq<Bookmark>)
    ensures |r| == |bs| && BookmarkIds(r) == BookmarkIds(bs)
    ensures forall i :: 0 <= i < |bs| ==> r[i].(collection := bs[i].collection) == bs[i]
    ensures forall i :: 0 <= i < |bs| && bs[i].collection != cid ==> r[i] == bs[i]
    ensures forall i :: 0 <= i < |bs| && bs[i].collection == cid ==> r[i].collection == ""
  {
    seq(|bs|, i requires 0 <= i < |bs| => if bs[i].collection == cid then bs[i].(collection := "") else bs[i])
  }

  /** Deleting a stored collection empties its view. */
  lemma UnfiledEmptiesView(bs: seq<Bookmark>, cid: string, now: int)
    requires cid != "" && !IsVirtual(cid)
    ensures ByCollection(Unfiled(bs, cid), cid, now) == []
  {
    var r := Unfiled(bs, cid);
    ByCollectionSelects(r, cid, now);
    assert forall b :: b in r ==> b.collection != cid;
    assert forall b :: b !in ByCollection(r, cid, now);
  }

  /** The `forEach` of `deleteCollection`. */
  method UnfileEach(bs: seq<Bookmark>, cid: string) returns (r: seq<Bookmark>)
    ensures r == Unfiled(bs, cid)
  {
    r := bs;
    var i := 0;
    while i < |r|
      invariant 0 <= i <= |r| == |bs|
      invariant forall j :: 0 <= j < i ==> r[j] == Unfiled(bs, cid)[j]
      invariant r[i..] == bs[i..]
    {
      assert r[i] == bs[i..][0];
      if r[i].collection == cid {
        r := r[i := r[i].(collection := "")];
      }
      i := i + 1;
    }
  }

  /** The bookmarks after a bulk move of the selected ids to `cid`. */
  function MovedTo(bs: seq<Bookmark>, ids: set<string>, cid: string): (r: seq<Bookmark>)
    ensures |r| == |bs| && BookmarkIds(r) == BookmarkIds(bs)
    ensures forall i :: 0 <= i < |bs| ==> r[i].(collection := bs[i].collection) == bs[i]
    ensures forall i :: 0 <= i < |bs| && bs[i].id !in ids ==> r[i] == bs[i]
    ensures forall i :: 0 <= i < |bs| && bs[i].id in ids ==> r[i].collection == cid
  {
    seq(|bs|, i requires 0 <= i < |bs| => if bs[i].id in ids then bs[i].(collection := cid) else bs[i])
  }

  /** After a move to a stored collection, every moved bookmark shows in
      that collection's view. */
  lemma MovedShowInView(bs: seq<Bookmark>, ids: set<string>, cid: string, now: int, b: Bookmark)
    requires !IsVirtual(cid)
    requires b in MovedTo(bs, ids, cid) && b.id in ids
    ensures b in ByCollection(MovedTo(bs, ids, cid), cid, now)
  {
    var r := MovedTo(bs, ids, cid);
    var i :| 0 <= i < |r| && r[i] == b;
    assert BookmarkIds(r)[i] == bs[i].id;
    ByCollectionSelects(r, cid, now);
  }

  /** The `forEach` of `bulkMoveBookmarks`. */
  method MoveEach(bs: seq<Bookmark>, ids: set<string>, cid: string) returns (r: seq<Bookmark>)
    ensures r == MovedTo(bs, ids, cid)
  {
    r := bs;
    var i := 0;
    while i < |r|
      invariant 0 <= i <= |r| == |bs|
      invariant forall j :: 0 <= j < i ==> r[j] == MovedTo(bs, ids, cid)[j]
      invariant r[i..] == bs[i..]
    {
      assert r[i] == bs[i..][0];
      if r[i].id in ids {
        r := r[i := r[i].(collection := cid)];
      }
      i := i + 1;
    }
  }

  /** Keeps every string but the empty one. */
  function NonEmpty(): string -> bool {
    (t: string) => t != ""
  }

  /** `answer.split(',').map(t => t.trim()).filter(t => t)`. */
  function TagList(answer: string): seq<string> {
    Filter(Csv.TrimAll(Split(answer, ',')), NonEmpty())
  }

  /** Every tag of the list is non-empty, trimmed and free of commas. */
  lemma TagListClean(answer: string)
    ensures forall t :: t in TagList(answer) ==> t != "" && IsTrimmed(t) && ',' !in t
  {
    var parts := Split(answer, ',');
    var trimmed := Csv.TrimAll(parts);
    forall t | t in TagList(answer)
      ensures t != "" && IsTrimmed(t) && ',' !in t
    {
      assert t in trimmed && NonEmpty()(t);
      var i :| 0 <= i < |trimmed| && trimmed[i] == t;
      assert parts[i] in parts;
      TrimWithin(parts[i], ',');
    }
  }

  /** The bookmarks after a bulk tag: each selected one gets the tags it
      does not have yet, appended in order. */
  function TaggedWith(bs: seq<Bookmark>, ids: set<string>, add: seq<string>): (r: seq<Bookmark>)
    ensures |r| == |bs| && BookmarkIds(r) == BookmarkIds(bs)
    ensures forall i :: 0 <= i < |bs| ==> r[i].(tags := bs[i].tags) == bs[i]
    ensures forall i :: 0 <= i < |bs| && bs[i].id !in ids ==> r[i] == bs[i]
  {
    seq(|bs|, i requires 0 <= i < |bs| =>
      if bs[i].id in ids then bs[i].(tags := AppendAbsent(bs[i].tags, add)) else bs[i])
  }

  /** A tagged bookmark keeps its old tags first and in order, has every
      added tag, has no other tag, and gains no repeated tag. */
  lemma TaggedWithSpec(bs: seq<Bookmark>, ids: set<string>, add: seq<string>, i: int)
    requires 0 <= i < |bs| && bs[i].id in ids
    ensures var old_, new_ := bs[i].tags, TaggedWith(bs, ids, add)[i].tags;
      && |new_| >= |old_| && new_[..|old_|] == old_
      && (forall t :: t in new_ <==> t in old_ || t in add)
      && (NoDuplicates(old_) ==> NoDuplicates(new_))
  {
    AppendAbsentGrows(bs[i].tags, add);
  }

  /** The `forEach` of `bulkTagBookmarks`, with the inner tag loop. */
  method TagEach(bs: seq<Bookmark>, ids: set<string>, add: seq<string>) returns (r: seq<Bookmark>)
    ensures r == TaggedWith(bs, ids, add)
  {
    r := bs;
    var i := 0;
    while i < |r|
      invariant 0 <= i <= |r| == |bs|
      invariant forall j :: 0 <= j < i ==> r[j] == TaggedWith(bs, ids, add)[j]
      invariant r[i..] == bs[i..]
    {
      assert r[i] == bs[i..][0];
      if r[i].id in ids {
        var merged := AppendMissing(r[i].tags, add);
        r := r[i := r[i].(tags := merged)];
      }
      i := i + 1;
    }
  }

  /** The `forEach` of `mergeImportData` over one list. */
  method MergeEach<T(!new), P(!new)>(k: Keying<T, P>, xs: seq<T>, ps: seq<P>) returns (r: seq<T>)
    requires Lawful(k)
    ensures r == MergeAll(k, xs, ps)
  {
    r := xs;
    var i := 0;
    while i < |ps|
      invariant 0 <= i <= |ps|
      invariant MergeAll(k, r, ps[i..]) == MergeAll(k, xs, ps)
    {
      assert ps[i..][1..] == ps[i + 1..];
      r := MergeOne(k, r, ps[i]);
      i := i + 1;
    }
  }

  // ------------------------------------------------------------------ ids

  /** Appending records whose ids are distinct and unused keeps the ids of
      the list distinct. */
  lemma AppendFreshRecords(bs: seq<Bookmark>, recs: seq<Bookmark>)
    requires NoDuplicates(BookmarkIds(bs)) && NoDuplicates(BookmarkIds(recs))
    requires forall r :: r in recs ==> r.id !in BookmarkIds(bs)
    ensures NoDuplicates(BookmarkIds(bs + recs))
  {
    var all := bs + recs;
    forall i, j | 0 <= i < j < |all|
      ensures BookmarkIds(all)[i] != BookmarkIds(all)[j]
    {
      if j < |bs| {
        assert BookmarkIds(bs)[i] != BookmarkIds(bs)[j];
      } else if i >= |bs| {
        assert BookmarkIds(recs)[i - |bs|] != BookmarkIds(recs)[j - |bs|];
      } else {
        assert recs[j - |bs|] in recs;
        assert BookmarkIds(bs)[i] == all[i].id;
      }
    }
  }

  /** Appending what a CSV import yields keeps the ids distinct. */
  lemma CsvImportKeepsIds(bs: seq<Bookmark>, text: string, now: int)
    ensures var r := Csv.ImportCsv(text, BookmarkIds(bs), now);
      r.Ok? && NoDuplicates(BookmarkIds(bs)) ==> NoDuplicates(BookmarkIds(bs + r.value))
  {
    var r := Csv.ImportCsv(text, BookmarkIds(bs), now);
    if r.Ok? && NoDuplicates(BookmarkIds(bs)) {
      Csv.ImportCsvFresh(text, BookmarkIds(bs), now);
      AppendFreshRecords(bs, r.value);
    }
  }

  /** Appending what an HTML import yields keeps the ids distinct. */
  lemma HtmlImportKeepsIds(bs: seq<Bookmark>, anchors: seq<Html.Anchor>, now: int)
    ensures var r := Html.ImportHtml(anchors, BookmarkIds(bs), now);
      r.Ok? && NoDuplicates(BookmarkIds(bs)) ==> NoDuplicates(BookmarkIds(bs + r.value))
  {
    var r := Html.ImportHtml(anchors, BookmarkIds(bs), now);
    if r.Ok? && NoDuplicates(BookmarkIds(bs)) {
      Html.AnchorRecordsFresh(anchors, BookmarkIds(bs), now);
      AppendFreshRecords(bs, r.value);
    }
  }

  /** Overwriting a bookmark with one of the same id keeps the ids. */
  lemma IdsAfterUpdate(bs: seq<Bookmark>, i: int, x: Bookmark)
    requires 0 <= i < |bs| && x.id == bs[i].id
    ensures BookmarkIds(bs[i := x]) == BookmarkIds(bs)
  {
    assert forall j :: 0 <= j < |bs| ==> BookmarkIds(bs[i := x])[j] == BookmarkIds(bs)[j];
  }

  /** `{ ...settings, ...settings }` is the settings themselves. */
  lemma OverriddenSelf(s: Settings)
    ensures Overridden(s, s) == s
  {
  }

  // ------------------------------------------------------------ the class

  class BookmarkManager {
    var bookmarks: seq<Bookmark>
    var collections: seq<Collection>
    var tags: seq<string>
    var settings: Settings
    var currentCollection: string
    var currentSort: string
    var searchQuery: string
    var bulkMode: bool
    var selected: set<string>

    /** The view state: what is shown, how, and what is selected. */
    ghost function ViewState(): (string, string, string, bool, set<string>)
      reads this
    {
      (currentCollection, currentSort, searchQuery, bulkMode, selected)
    }

    /** Start-up: the stored lists where there are any (the seed collections
        otherwise), the default settings overridden by the stored ones, the
        `all` view sorted newest first, no search and no selection. */
    constructor (storedBookmarks: Option<seq<Bookmark>>, storedCollections: Option<seq<Collection>>,
                 storedTags: Option<seq<string>>, storedSettings: Settings, now: int)
      ensures bookmarks == storedBookmarks.GetOr([])
      ensures collections == storedCollections.GetOr(SeedCollections(now))
      ensures tags == storedTags.GetOr([])
      ensures settings == LoadSettings(storedSettings)
      ensures currentCollection == "all" && currentSort == "date-desc" && searchQuery == ""
      ensures !bulkMode && selected == {}
    {
      bookmarks := storedBookmarks.GetOr([]);
      collections := storedCollections.GetOr(SeedCollections(now));
      tags := storedTags.GetOr([]);
      settings := LoadSettings(storedSettings);
      currentCollection := "all";
      currentSort := "date-desc";
      searchQuery := "";
      bulkMode := false;
      selected := {};
    }

    // ------------------------------------------------------------- view

    /** `getFilteredBookmarks`. In the `all` view with no search the stored
        array itself is sorted, so the stored order becomes the view. */
    method FilteredBookmarks(now: int) returns (view: seq<Bookmark>)
      modifies this
      ensures view == FilteredView(old(bookmarks), currentCollection, searchQuery, currentSort, now)
      ensures bookmarks == if currentCollection == "all" && searchQuery == "" then view else old(bookmarks)
      ensures multiset(bookmarks) == multiset(old(bookmarks))
      ensures collections == old(collections) && tags == old(tags) && settings == old(settings)
      ensures ViewState() == old(ViewState())
    {
      view := FilteredView(bookmarks, currentCollection, searchQuery, currentSort, now);
      if currentCollection == "all" && searchQuery == "" {
        AllViewPermutes(bookmarks, currentSort, now);
        bookmarks := view;
      }
    }

    /** `selectCollection`: show another view, leaving bulk mode. */
    method SelectCollection(cid: string)
      modifies this
      ensures currentCollection == cid && !bulkMode && selected == {}
      ensures currentSort == old(currentSort) && searchQuery == old(searchQuery)
      ensures bookmarks == old(bookmarks) && collections == old(collections)
      ensures tags == old(tags) && settings == old(settings)
    {
      currentCollection := cid;
      ExitBulkMode();
    }

    /** `handleSearch`. */
    method Search(query: string)
      modifies this
      ensures searchQuery == query
      ensures currentCollection == old(currentCollection) && currentSort == old(currentSort)
      ensures bulkMode == old(bulkMode) && selected == old(selected)
      ensures bookmarks == old(bookmarks) && collections == old(collections)
      ensures tags == old(tags) && settings == old(settings)
    {
      searchQuery := query;
    }

    /** `handleSortChange`. */
    method ChangeSort(sort: string)
      modifies this
      ensures currentSort == sort
      ensures currentCollection == old(currentCollection) && searchQuery == old(searchQuery)
      ensures bulkMode == old(bulkMode) && selected == old(selected)
      ensures bookmarks == old(bookmarks) && collections == old(collections)
      ensures tags == old(tags) && settings == old(settings)
    {
      currentSort := sort;
    }

    // -------------------------------------------------------- one bookmark

    /** `openBookmark`: one more visit, stamped now; the answer says whether
        the page opens in a new tab. */
    method OpenBookmark(i: int, now: int) returns (inNewTab: bool)
      requires 0 <= i < |bookmarks|
      modifies this
      ensures bookmarks == old(bookmarks)[i := Visited(old(bookmarks)[i], now)]
      ensures inNewTab == FlagOn(settings, "openInNewTab")
      ensures collections == old(collections) && tags == old(tags) && settings == old(settings)
      ensures ViewState() == old(ViewState())
    {
      bookmarks := bookmarks[i := Visited(bookmarks[i], now)];
      inNewTab := FlagOn(settings, "openInNewTab");
    }

    /** `toggleFavorite`: the bookmark stops or starts being a favourite,
        and nothing else about it changes. */
    method ToggleFavorite(i: int)
      requires 0 <= i < |bookmarks|
      modifies this
      ensures |bookmarks| == |old(bookmarks)| && bookmarks[i].(rating := old(bookmarks)[i].rating) == old(bookmarks)[i]
      ensures forall j :: 0 <= j < |bookmarks| && j != i ==> bookmarks[j] == old(bookmarks)[j]
      ensures IsFavorite(bookmarks[i]) <==> !IsFavorite(old(bookmarks)[i])
      ensures bookmarks[i].rating == ToggledRating(old(bookmarks)[i].rating)
      ensures collections == old(collections) && tags == old(tags) && settings == old(settings)
      ensures ViewState() == old(ViewState())
    {
      bookmarks := bookmarks[i := bookmarks[i].(rating := ToggledRating(bookmarks[i].rating))];
    }

    /** `deleteBookmark`: on confirmation, every bookmark with the id goes,
        and so does the id from the selection. */
    method DeleteBookmark(id: string, confirmed: bool)
      modifies this
      ensures !confirmed ==> bookmarks == old(bookmarks) && selected == old(selected)
      ensures confirmed ==> bookmarks == WithoutIds(old(bookmarks), {id}) && selected == old(selected) - {id}
      ensures collections == old(collections) && tags == old(tags) && settings == old(settings)
      ensures currentCollection == old(currentCollection) && currentSort == old(currentSort)
      ensures searchQuery == old(searchQuery) && bulkMode == old(bulkMode)
    {
      if confirmed {
        bookmarks := WithoutIds(bookmarks, {id});
        selected := selected - {id};
      }
    }

    /** `updateTagsList`: the tags not yet registered are appended, in order;
        nothing else changes. */
    method UpdateTagsList(add: seq<string>)
      modifies this`tags
      ensures tags == AppendAbsent(old(tags), add)
      ensures forall t :: t in tags <==> t in old(tags) || t in add
      ensures NoDuplicates(old(tags)) ==> NoDuplicates(tags)
    {
      tags := AppendMissing(tags, add);
      AppendAbsentGrows(old(tags), add);
    }

    /** `handleQuickAddSubmit`: a new bookmark under a fresh id, refused when
        the trimmed title or url is empty; its tags are registered. Only the
        bookmarks and the tags change. */
    method QuickAdd(title: string, url: string, collection: string, rating: int, tagList: seq<string>,
                    isRead: bool, now: int) returns (o: Outcome)
      modifies this`bookmarks, this`tags
      ensures var r := NewBookmark(title, url, collection, rating, tagList, isRead,
                                   FreshId(BookmarkIds(old(bookmarks))), now);
        && (r.Err? ==> o == Refused(MissingRequiredField) && bookmarks == old(bookmarks) && tags == old(tags))
        && (r.Ok? ==> o == Done && bookmarks == old(bookmarks) + [r.value]
                      && tags == AppendAbsent(old(tags), tagList))
      ensures NoDuplicates(BookmarkIds(old(bookmarks))) ==> NoDuplicates(BookmarkIds(bookmarks))
    {
      var id := FreshId(BookmarkIds(bookmarks));
      var r := NewBookmark(title, url, collection, rating, tagList, isRead, id, now);
      if r.Err? {
        return Refused(MissingRequiredField);
      }
      if NoDuplicates(BookmarkIds(bookmarks)) {
        assert r.value.id == id;
        AppendFreshRecords(bookmarks, [r.value]);
      }
      bookmarks := bookmarks + [r.value];
      UpdateTagsList(tagList);
      return Done;
    }

    /** `handleEditSubmit`: overwrite the fields of the bookmark being
        edited (none: nothing happens) and register its tags; only the
        bookmarks and the tags change. */
    method EditBookmark(editing: Option<nat>, title: string, url: string, description: string,
                        collection: string, priority: string, rating: int, tagList: seq<string>,
                        isRead: bool, notes: string, now: int)
      requires editing.Some? ==> editing.value < |bookmarks|
      modifies this`bookmarks, this`tags
      ensures editing.None? ==> bookmarks == old(bookmarks) && tags == old(tags)
      ensures editing.Some? ==> var i := editing.value;
        bookmarks == old(bookmarks)[i := EditedBookmark(old(bookmarks)[i], title, url,
          description, collection, priority, rating, tagList, isRead, notes, now)]
      ensures editing.Some? ==> tags == AppendAbsent(old(tags), tagList)
    {
      if editing.Some? {
        var i := editing.value;
        var newBookmarks := bookmarks[i := EditedBookmark(bookmarks[i], title, url, description, collection,
                                                          priority, rating, tagList, isRead, notes, now)];
        UpdateTagsList(tagList);
        bookmarks := newBookmarks;
      }
    }

    // -------------------------------------------------------- collections

    /** `handleCollectionSubmit`: edit the collection being edited, or add a
        new one under a fresh id; refused when the trimmed name is empty.
        Nothing but the collections changes. */
    method SubmitCollection(editing: Option<nat>, name: string, description: string, color: string,
                            icon: string, now: int) returns (o: Outcome)
      requires editing.Some? ==> editing.value < |collections|
      modifies this`collections
      ensures o == Done || o == Refused(MissingRequiredField)
      ensures o.Refused? <==> Trim(name) == ""
      ensures o.Refused? ==> collections == old(collections)
      ensures o.Done? && editing.Some? ==>
        collections == old(collections)[editing.value :=
             EditedCollection(old(collections)[editing.value], name, description, color, icon, now).value]
      ensures o.Done? && editing.None? ==>
        collections == old(collections) +
             [NewCollection(name, description, color, icon, FreshId(CollectionIds(old(collections))), now).value]
    {
      if Trim(name) == "" {
        return Refused(MissingRequiredField);
      }
      if editing.Some? {
        var j := editing.value;
        var edited := EditedCollection(collections[j], name, description, color, icon, now);
        assert edited.Ok?;
        collections := collections[j := edited.value];
        return Done;
      }
      var made := NewCollection(name, description, color, icon, FreshId(CollectionIds(collections)), now);
      assert made.Ok?;
      collections := collections + [made.value];
      return Done;
    }

    /** `deleteCollection`: on confirmation of a stored collection, its
        bookmarks become uncategorized, the collection goes, and a view of it
        falls back to `all` (leaving bulk mode). */
    method DeleteCollection(cid: string, confirmed: bool)
      modifies this
      ensures FindCollection(old(collections), cid).None? || !confirmed ==>
        && bookmarks == old(bookmarks) && collections == old(collections)
        && ViewState() == old(ViewState())
      ensures FindCollection(old(collections), cid).Some? && confirmed ==>
        && bookmarks == Unfiled(old(bookmarks), cid)
        && collections == WithoutCollection(old(collections), cid)
        && (old(currentCollection) == cid ==> currentCollection == "all" && !bulkMode && selected == {})
        && (old(currentCollection) != cid ==> ViewState() == old(ViewState()))
        && currentSort == old(currentSort) && searchQuery == old(searchQuery)
      ensures tags == old(tags) && settings == old(settings)
    {
      if FindCollection(collections, cid).None? || !confirmed {
        return;
      }
      bookmarks := UnfileEach(bookmarks, cid);
      collections := WithoutCollection(collections, cid);
      if currentCollection == cid {
        SelectCollection("all");
      }
    }

    // --------------------------------------------------------------- bulk

    /** `exitBulkMode`. */
    method ExitBulkMode()
      modifies this
      ensures !bulkMode && selected == {}
      ensures currentCollection == old(currentCollection) && currentSort == old(currentSort)
      ensures searchQuery == old(searchQuery)
      ensures bookmarks == old(bookmarks) && collections == old(collections)
      ensures tags == old(tags) && settings == old(settings)
    {
      bulkMode := false;
      selected := {};
    }

    /** `toggleBulkMode`: leaving bulk mode clears the selection; entering
        it keeps the selection as it is. */
    method ToggleBulkMode()
      modifies this
      ensures bulkMode == !old(bulkMode)
      ensures selected == if old(bulkMode) then {} else old(selected)
      ensures currentCollection == old(currentCollection) && currentSort == old(currentSort)
      ensures searchQuery == old(searchQuery)
      ensures bookmarks == old(bookmarks) && collections == old(collections)
      ensures tags == old(tags) && settings == old(settings)
    {
      bulkMode := !bulkMode;
      if !bulkMode {
        ExitBulkMode();
      }
    }

    /** `toggleBookmarkSelection`. */
    method ToggleSelection(id: string)
      modifies this
      ensures selected == Toggled(old(selected), id)
      ensures (id in selected) <==> (id !in old(selected))
      ensures currentCollection == old(currentCollection) && currentSort == old(currentSort)
      ensures searchQuery == old(searchQuery) && bulkMode == old(bulkMode)
      ensures bookmarks == old(bookmarks) && collections == old(collections)
      ensures tags == old(tags) && settings == old(settings)
    {
      if id in selected {
        selected := selected - {id};
      } else {
        selected := selected + {id};
      }
    }

    /** `bulkDeleteBookmarks`: with a selection and a confirmation, the
        selected bookmarks go and bulk mode ends. */
    method BulkDelete(confirmed: bool) returns (o: Outcome)
      modifies this
      ensures old(selected) == {} || !confirmed ==>
        o == Dismissed && bookmarks == old(bookmarks) && ViewState() == old(ViewState())
      ensures old(selected) != {} && confirmed ==>
        && o == Done && bookmarks == WithoutIds(old(bookmarks), old(selected))
        && !bulkMode && selected == {}
        && currentCollection == old(currentCollection) && currentSort == old(currentSort)
        && searchQuery == old(searchQuery)
      ensures collections == old(collections) && tags == old(tags) && settings == old(settings)
    {
      if selected == {} || !confirmed {
        return Dismissed;
      }
      bookmarks := WithoutIds(bookmarks, selected);
      ExitBulkMode();
      return Done;
    }

    /** `bulkMoveBookmarks`: the answer to the prompt names the target
        collection; an empty answer stops, an unknown id is refused, and
        otherwise the selected bookmarks move there and bulk mode ends. */
    method BulkMove(answer: Option<string>) returns (o: Outcome)
      modifies this
      ensures old(selected) == {} || answer.None? || answer.value == "" ==>
        o == Dismissed && bookmarks == old(bookmarks) && ViewState() == old(ViewState())
      ensures old(selected) != {} && answer.Some? && answer.value != "" &&
              FindCollection(collections, answer.value).None? ==>
        o == Refused(CollectionNotFound) && bookmarks == old(bookmarks) && ViewState() == old(ViewState())
      ensures old(selected) != {} && answer.Some? && answer.value != "" &&
              FindCollection(collections, answer.value).Some? ==>
        && o == Done && bookmarks == MovedTo(old(bookmarks), old(selected), answer.value)
        && !bulkMode && selected == {}
        && currentCollection == old(currentCollection) && currentSort == old(currentSort)
        && searchQuery == old(searchQuery)
      ensures collections == old(collections) && tags == old(tags) && settings == old(settings)
    {
      if selected == {} || answer.None? || answer.value == "" {
        return Dismissed;
      }
      var cid := answer.value;
      if FindCollection(collections, cid).None? {
        return Refused(CollectionNotFound);
      }
      bookmarks := MoveEach(bookmarks, selected, cid);
      ExitBulkMode();
      return Done;
    }

    /** `bulkTagBookmarks`: the answer to the prompt is a comma-separated
        tag list; an empty answer stops, and otherwise every selected
        bookmark gets the tags it lacks, the tags are registered and bulk
        mode ends. */
    method BulkTag(answer: Option<string>) returns (o: Outcome)
      modifies this
      ensures old(selected) == {} || answer.None? || answer.value == "" ==>
        && o == Dismissed && bookmarks == old(bookmarks) && tags == old(tags)
        && ViewState() == old(ViewState())
      ensures old(selected) != {} && answer.Some? && answer.value != "" ==>
        && o == Done
        && bookmarks == TaggedWith(old(bookmarks), old(selected), TagList(answer.value))
        && tags == AppendAbsent(old(tags), TagList(answer.value))
        && !bulkMode && selected == {}
        && currentCollection == old(currentCollection) && currentSort == old(currentSort)
        && searchQuery == old(searchQuery)
      ensures collections == old(collections) && settings == old(settings)
    {
      if selected == {} || answer.None? || answer.value == "" {
        return Dismissed;
      }
      var add := TagList(answer.value);
      bookmarks := TagEach(bookmarks, selected, add);
      UpdateTagsList(add);
      ExitBulkMode();
      return Done;
    }

    // ------------------------------------------------------------- import

    /** `handleJsonImport`: a file that fails validation is refused;
        otherwise it is merged into the state or replaces it, as the user
        chose. Merging leaves the settings alone. */
    method ImportJson(data: ImportData, newer: string -> bool, confirmed: bool, merge: bool) returns (o: Outcome)
      modifies this
      ensures ValidateImport(data, newer, confirmed).Err? ==>
        && o == Refused(InvalidFormat) && bookmarks == old(bookmarks) && collections == old(collections)
        && tags == old(tags) && settings == old(settings)
      ensures ValidateImport(data, newer, confirmed).Ok? && merge ==>
        && o == Done
        && bookmarks == MergeBookmarks(old(bookmarks), data.bookmarks.value)
        && collections == (if data.collections.Some? then MergeCollections(old(collections), data.collections.value)
                           else old(collections))
        && tags == (if data.tags.Some? then AppendAbsent(old(tags), data.tags.value) else old(tags))
        && settings == old(settings)
      ensures ValidateImport(data, newer, confirmed).Ok? && !merge ==>
        && o == Done
        && bookmarks == PatchesToBookmarks(data.bookmarks.value)
        && collections == (if data.collections.Some? then PatchesToCollections(data.collections.value)
                           else old(collections))
        && tags == data.tags.GetOr(old(tags))
        && settings == (if data.settings.Some? then Overridden(old(settings), data.settings.value)
                        else old(settings))
      ensures data == Export(old(bookmarks), old(collections), old(tags), old(settings)) && !newer(AppVersion) && !merge ==>
        && bookmarks == old(bookmarks) && collections == old(collections)
        && tags == old(tags) && settings == old(settings)
      ensures ViewState() == old(ViewState())
    {
      if ValidateImport(data, newer, confirmed).Err? {
        return Refused(InvalidFormat);
      }
      if merge {
        ByUrlLawful();
        ByNameLawful();
        bookmarks := MergeEach(ByUrl(), bookmarks, data.bookmarks.value);
        if data.collections.Some? {
          collections := MergeEach(ByName(), collections, data.collections.value);
        }
        if data.tags.Some? {
          UpdateTagsList(data.tags.value);
        }
      } else {
        if data == Export(bookmarks, collections, tags, settings) {
          ReplaceExportRoundTrip(bookmarks, collections);
          OverriddenSelf(settings);
        }
        bookmarks := PatchesToBookmarks(data.bookmarks.value);
        if data.collections.Some? {
          collections := PatchesToCollections(data.collections.value);
        }
        if data.tags.Some? {
          tags := data.tags.value;
        }
        if data.settings.Some? {
          settings := Overridden(settings, data.settings.value);
        }
      }
      return Done;
    }

    /** `handleCsvImport`: the records of the file, under fresh ids,
        appended on confirmation. */
    method ImportCsvFile(text: string, confirmed: bool, now: int) returns (o: Outcome)
      modifies this
      ensures var r := Csv.ImportCsv(text, BookmarkIds(old(bookmarks)), now);
        && (r.Err? ==> o == Refused(r.error) && bookmarks == old(bookmarks))
        && (r.Ok? && !confirmed ==> o == Dismissed && bookmarks == old(bookmarks))
        && (r.Ok? && confirmed ==> o == Done && bookmarks == old(bookmarks) + r.value)
      ensures NoDuplicates(BookmarkIds(old(bookmarks))) ==> NoDuplicates(BookmarkIds(bookmarks))
      ensures collections == old(collections) && tags == old(tags) && settings == old(settings)
      ensures ViewState() == old(ViewState())
    {
      var r := Csv.ReadCsv(text, BookmarkIds(bookmarks), now);
      if r.Err? {
        return Refused(r.error);
      }
      if !confirmed {
        return Dismissed;
      }
      CsvImportKeepsIds(bookmarks, text, now);
      bookmarks := bookmarks + r.value;
      return Done;
    }

    /** `handleHtmlImport`: one record per link of the page, under fresh
        ids, appended on confirmation. */
    method ImportHtmlFile(anchors: seq<Html.Anchor>, confirmed: bool, now: int) returns (o: Outcome)
      modifies this
      ensures var r := Html.ImportHtml(anchors, BookmarkIds(old(bookmarks)), now);
        && (r.Err? ==> o == Refused(r.error) && bookmarks == old(bookmarks))
        && (r.Ok? && !confirmed ==> o == Dismissed && bookmarks == old(bookmarks))
        && (r.Ok? && confirmed ==> o == Done && bookmarks == old(bookmarks) + r.value)
      ensures NoDuplicates(BookmarkIds(old(bookmarks))) ==> NoDuplicates(BookmarkIds(bookmarks))
      ensures collections == old(collections) && tags == old(tags) && settings == old(settings)
      ensures ViewState() == old(ViewState())
    {
      var r := Html.ReadHtml(anchors, BookmarkIds(bookmarks), now);
      if r.Err? {
        return Refused(r.error);
      }
      if !confirmed {
        return Dismissed;
      }
      HtmlImportKeepsIds(bookmarks, anchors, now);
      bookmarks := bookmarks + r.value;
      return Done;
    }
  }

  /** Selecting an id that is selected deselects it, and the other way. */
  function Toggled(s: set<string>, id: string): (r: set<string>)
    ensures id in r <==> id !in s
    ensures r - {id} == s - {id}
  {
    if id in s then s - {id} else s + {id}
  }

  /** Toggling twice restores the selection. */
  lemma ToggledTwice(s: set<string>, id: string)
    ensures Toggled(Toggled(s, id), id) == s
  {
  }

  /** The `all` view without a search is a sorted rearrangement of the
      stored list: sorting it in place loses and adds nothing. */
  lemma AllViewPermutes(bs: seq<Bookmark>, sort: string, now: int)
    ensures multiset(FilteredView(bs, "all", "", sort, now)) == multiset(bs)
    ensures Sorted(ParseSortKey(sort), FilteredView(bs, "all", "", sort, now))
  {
    FilteredViewContents(bs, "all", "", sort, now);
    assert forall b :: multiset(FilteredView(bs, "all", "", sort, now))[b] == multiset(bs)[b];
  }
}

=== FILE: query.dfy ===
/** The query engine behind `getFilteredBookmarks`: resolve the current
    collection (a stored one or a virtual one), narrow by the search query,
    then sort by the chosen key. */
module Query {
  import opened Text
  import opened Seqs
  import opened Domain
  import opened Dates

  // --------------------------------------------------- collection views

  /** The ids with a meaning of their own; every other id names a stored
      collection. */
  predicate IsVirtual(cid: string) {
    cid == "all" || cid == "favorites" || cid == "recent" || cid == "unread" || cid == "broken"
  }

  /** `getBookmarksByCollection(cid)`. */
  function ByCollection(bs: seq<Bookmark>, cid: string, now: int): seq<Bookmark> {
    if cid == "all" then bs
    else if cid == "favorites" then Filter(bs, (b: Bookmark) => b.rating >= 4)
    else if cid == "recent" then Filter(bs, (b: Bookmark) => IsRecent(b.createdAt, now))
    else if cid == "unread" then Filter(bs, (b: Bookmark) => !b.isRead)
    else if cid == "broken" then Filter(bs, (b: Bookmark) => b.isBroken)
    else Filter(bs, (b: Bookmark) => b.collection == cid)
  }

  /** What membership of each view means, independently of how the view is
      computed. */
  predicate BelongsTo(cid: string, b: Bookmark, now: int) {
    if cid == "all" then true
    else if cid == "favorites" then b.rating >= 4
    else if cid == "recent" then Abs(now - b.createdAt) <= 7 * DayMs
    else if cid == "unread" then !b.isRead
    else if cid == "broken" then b.isBroken
    else b.collection == cid
  }

  /** A view keeps, in stored order, exactly the bookmarks that belong to it
      (every copy of each), and `all` is the stored list itself. */
  lemma ByCollectionSelects(bs: seq<Bookmark>, cid: string, now: int)
    ensures IsSubseq(ByCollection(bs, cid, now), bs)
    ensures forall b :: multiset(ByCollection(bs, cid, now))[b] ==
                        (if BelongsTo(cid, b, now) then multiset(bs)[b] else 0)
    ensures forall b :: b in ByCollection(bs, cid, now) <==> b in bs && BelongsTo(cid, b, now)
    ensures cid == "all" ==> ByCollection(bs, cid, now) == bs
  {
    var r := ByCollection(bs, cid, now);
    forall b: Bookmark | true
      ensures (IsRecent(b.createdAt, now) <==> Abs(now - b.createdAt) <= 7 * DayMs)
    {
      IsRecentIff(b.createdAt, now);
    }
    if cid == "all" {
      assert IsSubseq(bs, bs) by { SubseqRefl(bs); }
    } else if cid == "favorites" {
      FilterIsSubseq(bs, (b: Bookmark) => b.rating >= 4);
      FilterMultiplicity(bs, (b: Bookmark) => b.rating >= 4);
    } else if cid == "recent" {
      FilterIsSubseq(bs, (b: Bookmark) => IsRecent(b.createdAt, now));
      FilterMultiplicity(bs, (b: Bookmark) => IsRecent(b.createdAt, now));
    } else if cid == "unread" {
      FilterIsSubseq(bs, (b: Bookmark) => !b.isRead);
      FilterMultiplicity(bs, (b: Bookmark) => !b.isRead);
    } else if cid == "broken" {
      FilterIsSubseq(bs, (b: Bookmark) => b.isBroken);
      FilterMultiplicity(bs, (b: Bookmark) => b.isBroken);
    } else {
      FilterIsSubseq(bs, (b: Bookmark) => b.collection == cid);
      FilterMultiplicity(bs, (b: Bookmark) => b.collection == cid);
    }
  }

  lemma {:induction false} SubseqRefl<T>(s: seq<T>)
    ensures IsSubseq(s, s)
  {
    if s != [] {
      SubseqRefl(s[1..]);
    }
  }

  // --------------------------------------------------------------- search

  /** The search predicate for an already lower-cased query: the query
      occurs in the lower-cased title, description or url, or in one of the
      lower-cased tags. */
  predicate Matches(b: Bookmark, query: string) {
    Contains(Lower(b.title), query)
    || Contains(Lower(b.description), query)
    || Contains(Lower(b.url), query)
    || exists t :: t in b.tags && Contains(Lower(t), query)
  }

  /** The search step: an empty query passes everything through; any other
      query is lower-cased and filters. */
  function Search(bs: seq<Bookmark>, query: string): seq<Bookmark> {
    if query == "" then bs
    else
      var q := Lower(query);
      Filter(bs, (b: Bookmark) => Matches(b, q))
  }

  /** An empty query is the identity; otherwise the result keeps, in order,
      exactly the bookmarks in which the lower-cased query occurs. */
  lemma SearchSelects(bs: seq<Bookmark>, query: string)
    ensures query == "" ==> Search(bs, query) == bs
    ensures query != "" ==> IsSubseq(Search(bs, query), bs)
    ensures query != "" ==> forall b :: multiset(Search(bs, query))[b] ==
                                        (if Matches(b, Lower(query)) then multiset(bs)[b] else 0)
  {
    if query != "" {
      var q := Lower(query);
      FilterIsSubseq(bs, (b: Bookmark) => Matches(b, q));
      FilterMultiplicity(bs, (b: Bookmark) => Matches(b, q));
    }
  }

  /** Search ignores the case of the query. */
  lemma SearchIgnoresCase(bs: seq<Bookmark>, q1: string, q2: string)
    requires Lower(q1) == Lower(q2)
    ensures Search(bs, q1) == Search(bs, q2)
  {
    assert |q1| == |Lower(q1)| == |Lower(q2)| == |q2|;
  }

  /** A bookmark whose title holds the query, in any case, is found. */
  lemma SearchFindsTitle(bs: seq<Bookmark>, query: string, b: Bookmark)
    requires b in bs && query != ""
    requires Contains(Lower(b.title), Lower(query))
    ensures b in Search(bs, query)
  {
  }

  // ---------------------------------------------------------------- sort

  /** The values of `currentSort`; any other value sorts nothing. */
  datatype SortKey = ByTitle | DateDesc | DateAsc | ByRating | ByVisits | Unsorted

  function ParseSortKey(s: string): SortKey {
    if s == "title" then ByTitle
    else if s == "date-desc" then DateDesc
    else if s == "date-asc" then DateAsc
    else if s == "rating" then ByRating
    else if s == "visits" then ByVisits
    else Unsorted
  }

  /** The comparator handed to `sort`: negative puts a first, positive puts
      b first, zero keeps their order. Titles compare by `Compare`. */
  function Cmp(key: SortKey, a: Bookmark, b: Bookmark): int {
    match key
    case ByTitle => Compare(a.title, b.title)
    case DateDesc => b.createdAt - a.createdAt
    case DateAsc => a.createdAt - b.createdAt
    case ByRating => b.rating - a.rating
    case ByVisits => b.visitCount - a.visitCount
    case Unsorted => 0
  }

  /** The comparator is consistent: its sign flips with its arguments, and
      both "not after" and "tied" are transitive. */
  lemma CmpConsistent(key: SortKey, a: Bookmark, b: Bookmark, c: Bookmark)
    ensures (Cmp(key, a, b) < 0 <==> Cmp(key, b, a) > 0) && (Cmp(key, a, b) == 0 <==> Cmp(key, b, a) == 0)
    ensures Cmp(key, a, b) <= 0 && Cmp(key, b, c) <= 0 ==> Cmp(key, a, c) <= 0
    ensures Cmp(key, a, b) == 0 && Cmp(key, b, c) == 0 ==> Cmp(key, a, c) == 0
  {
    if key == ByTitle {
      CompareAntisymmetric(a.title, b.title);
      if Compare(a.title, b.title) <= 0 && Compare(b.title, c.title) <= 0 {
        CompareTransitive(a.title, b.title, c.title);
      }
    }
  }

  /** Puts x before the first element it does not come after. */
  function Insert(key: SortKey, x: Bookmark, r: seq<Bookmark>): seq<Bookmark> {
    if r == [] then [x]
    else if Cmp(key, x, r[0]) <= 0 then [x] + r
    else [r[0]] + Insert(key, x, r[1..])
  }

  /** `Array.prototype.sort` with the comparator for `key`. The sort is
      stable, and a stable sort under a consistent comparator has exactly
      one possible output, so insertion sort stands for it. */
  function SortBy(key: SortKey, s: seq<Bookmark>): seq<Bookmark> {
    if s == [] then [] else Insert(key, s[0], SortBy(key, s[1..]))
  }

  /** No element comes after a later one. */
  predicate Sorted(key: SortKey, s: seq<Bookmark>) {
    forall i, j :: 0 <= i < j < |s| ==> Cmp(key, s[i], s[j]) <= 0
  }

  /** The elements of s tied with b, in order. */
  function TiedWith(key: SortKey, s: seq<Bookmark>, b: Bookmark): seq<Bookmark> {
    if s == [] then []
    else (if Cmp(key, s[0], b) == 0 then [s[0]] else []) + TiedWith(key, s[1..], b)
  }

  lemma {:induction false} InsertPermutes(key: SortKey, x: Bookmark, r: seq<Bookmark>)
    ensures multiset(Insert(key, x, r)) == multiset(r) + multiset{x}
  {
    if r != [] && Cmp(key, x, r[0]) > 0 {
      InsertPermutes(key, x, r[1..]);
      assert r == [r[0]] + r[1..];
    }
  }

  lemma {:induction false} InsertSorted(key: SortKey, x: Bookmark, r: seq<Bookmark>)
    requires Sorted(key, r)
    ensures Sorted(key, Insert(key, x, r))
  {
    if r != [] {
      if Cmp(key, x, r[0]) <= 0 {
        InsertSortedFront(key, x, r);
      } else {
        InsertSorted(key, x, r[1..]);
        InsertSortedLater(key, x, r);
      }
    }
  }

  /** x not after the head of a sorted list is not after any of it. */
  lemma InsertSortedFront(key: SortKey, x: Bookmark, r: seq<Bookmark>)
    requires Sorted(key, r) && r != [] && Cmp(key, x, r[0]) <= 0
    ensures Sorted(key, [x] + r)
  {
    forall j | 0 <= j < |r|
      ensures Cmp(key, x, r[j]) <= 0
    {
      CmpConsistent(key, x, r[0], r[j]);
    }
  }

  /** x after the head of a sorted list goes behind it. */
  lemma InsertSortedLater(key: SortKey, x: Bookmark, r: seq<Bookmark>)
    requires Sorted(key, r) && r != [] && Cmp(key, x, r[0]) > 0
    requires Sorted(key, Insert(key, x, r[1..]))
    ensures Sorted(key, Insert(key, x, r))
  {
    var t := Insert(key, x, r[1..]);
    InsertPermutes(key, x, r[1..]);
    forall j | 0 <= j < |t|
      ensures Cmp(key, r[0], t[j]) <= 0
    {
      assert t[j] in multiset(t);
      if t[j] == x {
        CmpConsistent(key, x, r[0], x);
      } else {
        assert t[j] in r[1..];
      }
    }
    SortedCons(key, r[0], t);
  }

  /** A head not after any element of a sorted tail keeps the list sorted. */
  lemma SortedCons(key: SortKey, h: Bookmark, t: seq<Bookmark>)
    requires Sorted(key, t) && forall j :: 0 <= j < |t| ==> Cmp(key, h, t[j]) <= 0
    ensures Sorted(key, [h] + t)
  {
    var s := [h] + t;
    forall i, j | 0 <= i < j < |s|
      ensures Cmp(key, s[i], s[j]) <= 0
    {
      assert s[j] == t[j - 1];
      if i > 0 {
        assert s[i] == t[i - 1];
      }
    }
  }

  lemma {:induction false} InsertTied(key: SortKey, x: Bookmark, r: seq<Bookmark>, b: Bookmark)
    ensures TiedWith(key, Insert(key, x, r), b) ==
            (if Cmp(key, x, b) == 0 then [x] else []) + TiedWith(key, r, b)
  {
    if r != [] && Cmp(key, x, r[0]) > 0 {
      InsertTied(key, x, r[1..], b);
      InsertTiedLater(key, x, r, b);
    } else if r != [] {
      var ins := Insert(key, x, r);
      assert ins[1..] == r;
    }
  }

  /** x goes behind a head it comes after; the two cannot both be tied with
      b, so the tied elements keep their order. */
  lemma InsertTiedLater(key: SortKey, x: Bookmark, r: seq<Bookmark>, b: Bookmark)
    requires r != [] && Cmp(key, x, r[0]) > 0
    requires TiedWith(key, Insert(key, x, r[1..]), b) ==
             (if Cmp(key, x, b) == 0 then [x] else []) + TiedWith(key, r[1..], b)
    ensures TiedWith(key, Insert(key, x, r), b) ==
            (if Cmp(key, x, b) == 0 then [x] else []) + TiedWith(key, r, b)
  {
    var t := Insert(key, x, r[1..]);
    assert Insert(key, x, r) == [r[0]] + t;
    TiedCons(key, r[0], t, b);
    TiedCons(key, r[0], r[1..], b);
    assert [r[0]] + r[1..] == r;
    CmpConsistent(key, x, b, r[0]);
    CmpConsistent(key, b, r[0], x);
    SwapEmpty(if Cmp(key, r[0], b) == 0 then [r[0]] else [], if Cmp(key, x, b) == 0 then [x] else [],
              TiedWith(key, r[1..], b));
  }

  lemma TiedCons(key: SortKey, h: Bookmark, t: seq<Bookmark>, b: Bookmark)
    ensures TiedWith(key, [h] + t, b) == (if Cmp(key, h, b) == 0 then [h] else []) + TiedWith(key, t, b)
  {
    assert ([h] + t)[1..] == t;
  }

  /** Two pieces of which one is empty can change places. */
  lemma SwapEmpty<T>(a: seq<T>, b: seq<T>, c: seq<T>)
    requires a == [] || b == []
    ensures a + (b + c) == b + (a + c)
  {
  }

  /** Sorting yields a permutation of its input in which no element comes
      after a later one, and bookmarks with equal keys keep their input order. */
  lemma {:induction false} SortByCorrect(key: SortKey, s: seq<Bookmark>)
    ensures multiset(SortBy(key, s)) == multiset(s)
    ensures Sorted(key, SortBy(key, s))
    ensures forall b :: TiedWith(key, SortBy(key, s), b) == TiedWith(key, s, b)
  {
    if s != [] {
      SortByCorrect(key, s[1..]);
      InsertPermutes(key, s[0], SortBy(key, s[1..]));
      InsertSorted(key, s[0], SortBy(key, s[1..]));
      assert s == [s[0]] + s[1..];
      forall b: Bookmark | true
        ensures TiedWith(key, SortBy(key, s), b) == TiedWith(key, s, b)
      {
        InsertTied(key, s[0], SortBy(key, s[1..]), b);
      }
    }
  }

  /** What sortedness means for each key. */
  lemma SortedMeans(key: SortKey, s: seq<Bookmark>, i: int, j: int)
    requires Sorted(key, s) && 0 <= i < j < |s|
    ensures key == ByRating ==> s[i].rating >= s[j].rating
    ensures key == ByVisits ==> s[i].visitCount >= s[j].visitCount
    ensures key == DateDesc ==> s[i].createdAt >= s[j].createdAt
    ensures key == DateAsc ==> s[i].createdAt <= s[j].createdAt
    ensures key == ByTitle ==> Compare(s[i].title, s[j].title) <= 0
  {
  }

  /** An unknown key leaves the order as it was. */
  lemma {:induction false} UnsortedIsIdentity(s: seq<Bookmark>)
    ensures SortBy(Unsorted, s) == s
  {
    if s != [] {
      UnsortedIsIdentity(s[1..]);
      if |s| > 1 {
        assert s == [s[0]] + s[1..];
      }
    }
  }

  // -------------------------------------------------------------- pipeline

  /** `getFilteredBookmarks`: view, then search, then sort. */
  function FilteredView(bs: seq<Bookmark>, cid: string, query: string, sort: string, now: int): seq<Bookmark> {
    SortBy(ParseSortKey(sort), Search(ByCollection(bs, cid, now), query))
  }

  /** The visible list holds exactly the stored bookmarks that belong to the
      view and match the query, each as often as it is stored, sorted. */
  lemma FilteredViewContents(bs: seq<Bookmark>, cid: string, query: string, sort: string, now: int)
    ensures Sorted(ParseSortKey(sort), FilteredView(bs, cid, query, sort, now))
    ensures forall b :: multiset(FilteredView(bs, cid, query, sort, now))[b] ==
                        (if BelongsTo(cid, b, now) && (query == "" || Matches(b, Lower(query)))
                         then multiset(bs)[b] else 0)
  {
    var v := ByCollection(bs, cid, now);
    ByCollectionSelects(bs, cid, now);
    SearchSelects(v, query);
    SortByCorrect(ParseSortKey(sort), Search(v, query));
  }
}

=== FILE: reconcile.dfy ===
/** Merging imported partial records into a stored list, as the JSON import
    does for bookmarks (matched on url) and for collections (matched on
    name): the first stored record with the imported key is overlaid in
    place; an import without a match is appended under a fresh id. */
module Reconcile {
  import opened Seqs
  import opened Domain

  /** How records of type T are matched with and built from imported partial
      records of type P. */
  datatype Keying<!T, !P> = Keying(
    key: T -> string,         // the field the merge matches on
    patchKey: P -> string,    // the same field of an imported record
    id: T -> string,
    overlay: (T, P) -> T,     // `{ ...stored, ...imported }`
    make: (P, string) -> T)   // an unmatched import given the fresh id

  /** Overlaying and building keep the imported key, and building uses the
      id it is given. */
  ghost predicate Lawful<T(!new), P(!new)>(k: Keying<T, P>) {
    && (forall t, p :: k.key(k.overlay(t, p)) == k.patchKey(p))
    && (forall p, i :: k.key(k.make(p, i)) == k.patchKey(p))
    && (forall p, i :: k.id(k.make(p, i)) == i)
  }

  function Keys<T, P>(k: Keying<T, P>, xs: seq<T>): (r: seq<string>)
    ensures |r| == |xs| && forall i :: 0 <= i < |xs| ==> r[i] == k.key(xs[i])
  {
    seq(|xs|, i requires 0 <= i < |xs| => k.key(xs[i]))
  }

  function PatchKeys<T, P>(k: Keying<T, P>, ps: seq<P>): (r: seq<string>)
    ensures |r| == |ps| && forall i :: 0 <= i < |ps| ==> r[i] == k.patchKey(ps[i])
  {
    seq(|ps|, i requires 0 <= i < |ps| => k.patchKey(ps[i]))
  }

  function Ids<T, P>(k: Keying<T, P>, xs: seq<T>): (r: seq<string>)
    ensures |r| == |xs| && forall i :: 0 <= i < |xs| ==> r[i] == k.id(xs[i])
  {
    seq(|xs|, i requires 0 <= i < |xs| => k.id(xs[i]))
  }

  /** `findIndex` from position `from`: the first index at or after it whose
      record carries the key, or -1. */
  function FindFrom<T, P>(k: Keying<T, P>, xs: seq<T>, key: string, from: nat): (r: int)
    requires from <= |xs|
    ensures r == -1 || from <= r < |xs|
    ensures r >= 0 ==> k.key(xs[r]) == key
    ensures forall j :: from <= j < |xs| && (r < 0 || j < r) ==> k.key(xs[j]) != key
    decreases |xs| - from
  {
    if from == |xs| then -1
    else if k.key(xs[from]) == key then from
    else FindFrom(k, xs, key, from + 1)
  }

  /** `xs.findIndex(x => x.key === key)`. */
  function FindKey<T, P>(k: Keying<T, P>, xs: seq<T>, key: string): (r: int)
    ensures r == -1 || 0 <= r < |xs|
    ensures r >= 0 ==> k.key(xs[r]) == key
    ensures forall j :: 0 <= j < |xs| && (r < 0 || j < r) ==> k.key(xs[j]) != key
  {
    FindFrom(k, xs, key, 0)
  }

  /** One imported record: overwrite the first match in place, or append the
      record under an id no stored record carries. */
  function MergeOne<T(!new), P(!new)>(k: Keying<T, P>, xs: seq<T>, p: P): (r: seq<T>)
    requires Lawful(k)
    ensures |r| == |xs| <==> k.patchKey(p) in Keys(k, xs)
    ensures |r| == |xs| || (|r| == |xs| + 1 && r[..|xs|] == xs && k.id(r[|xs|]) !in Ids(k, xs))
    ensures |r| == |xs| + 1 ==> r[|xs|] == k.make(p, k.id(r[|xs|]))
  {
    var i := FindKey(k, xs, k.patchKey(p));
    if i >= 0 then xs[i := k.overlay(xs[i], p)]
    else
      var r := xs + [k.make(p, FreshId(Ids(k, xs)))];
      assert r[..|xs|] == xs;
      r
  }

  /** `ps.forEach(p => ...)`: the imported records one after another. */
  function MergeAll<T(!new), P(!new)>(k: Keying<T, P>, xs: seq<T>, ps: seq<P>): seq<T>
    requires Lawful(k)
    decreases |ps|
  {
    if ps == [] then xs else MergeAll(k, MergeOne(k, xs, ps[0]), ps[1..])
  }

  /** The imported records carrying a key, in import order. */
  function WithKey<T, P>(k: Keying<T, P>, ps: seq<P>, key: string): seq<P> {
    if ps == [] then []
    else (if k.patchKey(ps[0]) == key then [ps[0]] else []) + WithKey(k, ps[1..], key)
  }

  /** Overlaying several imported records one after the other. */
  function OverlayAll<T, P>(k: Keying<T, P>, t: T, ps: seq<P>): T
    decreases |ps|
  {
    if ps == [] then t else OverlayAll(k, k.overlay(t, ps[0]), ps[1..])
  }

  // --------------------------------------------------------------- keys

  /** On keys, one merge step is an append-if-absent. */
  lemma MergeOneKeys<T(!new), P(!new)>(k: Keying<T, P>, xs: seq<T>, p: P)
    requires Lawful(k)
    ensures Keys(k, MergeOne(k, xs, p)) ==
            if k.patchKey(p) in Keys(k, xs) then Keys(k, xs) else Keys(k, xs) + [k.patchKey(p)]
  {
  }

  /** On keys, the whole merge is the append-if-absent of the imported keys:
      the stored keys stay in place and each imported key not yet present is
      appended once, in import order. */
  lemma {:induction false} MergeAllKeys<T(!new), P(!new)>(k: Keying<T, P>, xs: seq<T>, ps: seq<P>)
    requires Lawful(k)
    ensures Keys(k, MergeAll(k, xs, ps)) == AppendAbsent(Keys(k, xs), PatchKeys(k, ps))
    decreases |ps|
  {
    if ps != [] {
      var ys := MergeOne(k, xs, ps[0]);
      MergeOneKeys(k, xs, ps[0]);
      MergeAllKeys(k, ys, ps[1..]);
      assert PatchKeys(k, ps)[1..] == PatchKeys(k, ps[1..]);
    }
  }

  /** What the merge does to the list as a whole: the stored records' keys
      keep their positions, the length grows by exactly the number of
      distinct imported keys not yet stored, every key is stored or
      imported, and a list with unique keys keeps them unique. */
  lemma MergeAllCounts<T(!new), P(!new)>(k: Keying<T, P>, xs: seq<T>, ps: seq<P>)
    requires Lawful(k)
    ensures var r := MergeAll(k, xs, ps);
      && |r| == |xs| + |set x | x in PatchKeys(k, ps) && x !in Keys(k, xs)|
      && Keys(k, r)[..|xs|] == Keys(k, xs)
      && (forall x :: x in Keys(k, r) <==> x in Keys(k, xs) || x in PatchKeys(k, ps))
      && (NoDuplicates(Keys(k, xs)) ==> NoDuplicates(Keys(k, r)))
  {
    MergeAllKeys(k, xs, ps);
    AppendAbsentCount(Keys(k, xs), PatchKeys(k, ps));
    AppendAbsentGrows(Keys(k, xs), PatchKeys(k, ps));
  }

  // ----------------------------------------------------------- positions

  /** One merge step leaves alone every stored record of another key. */
  lemma MergeOneElsewhere<T(!new), P(!new)>(k: Keying<T, P>, xs: seq<T>, p: P, j: int)
    requires Lawful(k) && 0 <= j < |xs| && k.key(xs[j]) != k.patchKey(p)
    ensures MergeOne(k, xs, p)[j] == xs[j]
  {
  }

  /** One merge step overlays the first stored record with the imported key. */
  lemma MergeOneFirst<T(!new), P(!new)>(k: Keying<T, P>, xs: seq<T>, p: P, j: int)
    requires Lawful(k) && 0 <= j < |xs| && k.key(xs[j]) == k.patchKey(p)
    requires forall i :: 0 <= i < j ==> k.key(xs[i]) != k.key(xs[j])
    ensures MergeOne(k, xs, p)[j] == k.overlay(xs[j], p)
  {
    assert FindKey(k, xs, k.patchKey(p)) == j;
  }

  /** One merge step leaves alone a stored record when an earlier stored
      record carries the same key: `findIndex` stops at the first match. */
  lemma MergeOneLater<T(!new), P(!new)>(k: Keying<T, P>, xs: seq<T>, p: P, i: int, j: int)
    requires Lawful(k) && 0 <= i < j < |xs| && k.key(xs[i]) == k.key(xs[j])
    ensures MergeOne(k, xs, p)[j] == xs[j]
  {
    if k.patchKey(p) == k.key(xs[j]) {
      assert FindKey(k, xs, k.patchKey(p)) <= i;
    } else {
      MergeOneElsewhere(k, xs, p, j);
    }
  }

  /** One merge step keeps the key at every stored position. */
  lemma MergeOneKeepsKeys<T(!new), P(!new)>(k: Keying<T, P>, xs: seq<T>, p: P)
    requires Lawful(k)
    ensures |MergeOne(k, xs, p)| >= |xs|
    ensures forall i :: 0 <= i < |xs| ==> k.key(MergeOne(k, xs, p)[i]) == k.key(xs[i])
  {
    var ys := MergeOne(k, xs, p);
    MergeOneKeys(k, xs, p);
    forall i | 0 <= i < |xs|
      ensures k.key(ys[i]) == k.key(xs[i])
    {
      assert k.key(ys[i]) == Keys(k, ys)[i];
    }
  }

  /** The stored record at position j, the first with its key, ends up as
      itself overlaid with every imported record of that key, in import
      order; in particular a record whose key is not imported is untouched,
      and one matched once takes the imported fields over its own. */
  lemma {:induction false} MergeAllAt<T(!new), P(!new)>(k: Keying<T, P>, xs: seq<T>, ps: seq<P>, j: int)
    requires Lawful(k) && 0 <= j < |xs|
    requires forall i :: 0 <= i < j ==> k.key(xs[i]) != k.key(xs[j])
    ensures j < |MergeAll(k, xs, ps)|
    ensures MergeAll(k, xs, ps)[j] == OverlayAll(k, xs[j], WithKey(k, ps, k.key(xs[j])))
    decreases |ps|
  {
    if ps != [] {
      var p := ps[0];
      var key := k.key(xs[j]);
      var ys := MergeOne(k, xs, p);
      var rest := WithKey(k, ps[1..], key);
      MergeOneKeepsKeys(k, xs, p);
      MergeAllAt(k, ys, ps[1..], j);
      assert MergeAll(k, xs, ps) == MergeAll(k, ys, ps[1..]);
      if k.patchKey(p) == key {
        MergeOneFirst(k, xs, p, j);
        assert WithKey(k, ps, key) == [p] + rest;
        assert ([p] + rest)[1..] == rest;
      } else {
        MergeOneElsewhere(k, xs, p, j);
        assert WithKey(k, ps, key) == rest;
      }
    }
  }

  /** A stored record whose key no import carries is unchanged. */
  lemma {:induction false} MergeAllUntouched<T(!new), P(!new)>(k: Keying<T, P>, xs: seq<T>, ps: seq<P>, j: int)
    requires Lawful(k) && 0 <= j < |xs|
    requires k.key(xs[j]) !in PatchKeys(k, ps)
    ensures j < |MergeAll(k, xs, ps)| && MergeAll(k, xs, ps)[j] == xs[j]
    decreases |ps|
  {
    if ps != [] {
      var ys := MergeOne(k, xs, ps[0]);
      assert PatchKeys(k, ps)[0] == k.patchKey(ps[0]);
      assert PatchKeys(k, ps)[1..] == PatchKeys(k, ps[1..]);
      MergeOneElsewhere(k, xs, ps[0], j);
      MergeOneKeepsKeys(k, xs, ps[0]);
      MergeAllUntouched(k, ys, ps[1..], j);
      assert MergeAll(k, xs, ps) == MergeAll(k, ys, ps[1..]);
    }
  }

  /** A stored record after an earlier one with the same key is never
      touched by the merge, whatever is imported: only the first stored
      record with a key is overlaid. */
  lemma {:induction false} MergeAllLater<T(!new), P(!new)>(k: Keying<T, P>, xs: seq<T>, ps: seq<P>, i: int, j: int)
    requires Lawful(k) && 0 <= i < j < |xs| && k.key(xs[i]) == k.key(xs[j])
    ensures j < |MergeAll(k, xs, ps)| && MergeAll(k, xs, ps)[j] == xs[j]
    decreases |ps|
  {
    if ps != [] {
      var ys := MergeOne(k, xs, ps[0]);
      MergeOneLater(k, xs, ps[0], i, j);
      MergeOneKeepsKeys(k, xs, ps[0]);
      MergeAllLater(k, ys, ps[1..], i, j);
      assert MergeAll(k, xs, ps) == MergeAll(k, ys, ps[1..]);
    }
  }

  /** Merging a list of imports is merging a prefix of it, then the rest. */
  lemma {:induction false} MergeAllSplit<T(!new), P(!new)>(k: Keying<T, P>, xs: seq<T>, ps: seq<P>, m: int)
    requires Lawful(k) && 0 <= m <= |ps|
    ensures MergeAll(k, xs, ps) == MergeAll(k, MergeAll(k, xs, ps[..m]), ps[m..])
    decreases m
  {
    if m > 0 {
      var ys := MergeOne(k, xs, ps[0]);
      MergeAllSplit(k, ys, ps[1..], m - 1);
      assert ps[1..][..m - 1] == ps[..m][1..];
      assert ps[1..][m - 1..] == ps[m..];
    } else {
      assert ps[..0] == [] && ps[0..] == ps;
    }
  }

  /** An import whose key is neither stored nor carried by an earlier import
      is appended, at the end of the list merged so far, as the record built
      from it under an id that list does not use; the later imports of its
      key are then overlaid onto it in order. */
  lemma MergeAllAppended<T(!new), P(!new)>(k: Keying<T, P>, xs: seq<T>, ps: seq<P>, m: int)
    requires Lawful(k) && 0 <= m < |ps|
    requires k.patchKey(ps[m]) !in Keys(k, xs) && k.patchKey(ps[m]) !in PatchKeys(k, ps[..m])
    ensures var ys := MergeAll(k, xs, ps[..m]);
      && |ys| < |MergeAll(k, xs, ps)|
      && MergeAll(k, xs, ps)[|ys|] ==
         OverlayAll(k, k.make(ps[m], FreshId(Ids(k, ys))), WithKey(k, ps[m + 1..], k.patchKey(ps[m])))
      && FreshId(Ids(k, ys)) !in Ids(k, ys)
  {
    var key := k.patchKey(ps[m]);
    var ys := MergeAll(k, xs, ps[..m]);
    MergeAllKeys(k, xs, ps[..m]);
    AppendAbsentGrows(Keys(k, xs), PatchKeys(k, ps[..m]));
    assert key !in Keys(k, ys);
    var zs := MergeOne(k, ys, ps[m]);
    assert zs == ys + [k.make(ps[m], FreshId(Ids(k, ys)))];
    forall i | 0 <= i < |ys|
      ensures k.key(zs[i]) != k.key(zs[|ys|])
    {
      assert Keys(k, ys)[i] == k.key(zs[i]);
    }
    MergeAllAt(k, zs, ps[m + 1..], |ys|);
    MergeAllSplit(k, xs, ps, m);
    assert ps[m..][1..] == ps[m + 1..];
  }

  lemma {:induction false} WithKeyAbsent<T, P>(k: Keying<T, P>, ps: seq<P>, key: string)
    requires key !in PatchKeys(k, ps)
    ensures WithKey(k, ps, key) == []
  {
    if ps != [] {
      assert PatchKeys(k, ps)[1..] == PatchKeys(k, ps[1..]);
      WithKeyAbsent(k, ps[1..], key);
    }
  }

  /** When no two imported records share a key, the records with the key of
      record j are record j alone. */
  lemma {:induction false} WithKeyUnique<T, P>(k: Keying<T, P>, ps: seq<P>, j: int)
    requires 0 <= j < |ps| && NoDuplicates(PatchKeys(k, ps))
    ensures WithKey(k, ps, k.patchKey(ps[j])) == [ps[j]]
  {
    var key := k.patchKey(ps[j]);
    assert PatchKeys(k, ps)[1..] == PatchKeys(k, ps[1..]);
    if j == 0 {
      forall i | 0 <= i < |ps| - 1
        ensures PatchKeys(k, ps[1..])[i] != key
      {
        assert PatchKeys(k, ps)[i + 1] != PatchKeys(k, ps)[0];
      }
      WithKeyAbsent(k, ps[1..], key);
    } else {
      assert PatchKeys(k, ps)[0] != PatchKeys(k, ps)[j];
      WithKeyUnique(k, ps[1..], j - 1);
    }
  }

  /** Merging, record for record, imports that carry each stored record's
      key and overlay onto it without effect changes nothing, provided the
      stored keys are unique. */
  lemma MergeIdentity<T(!new), P(!new)>(k: Keying<T, P>, xs: seq<T>, ps: seq<P>)
    requires Lawful(k) && NoDuplicates(Keys(k, xs)) && |ps| == |xs|
    requires forall i :: 0 <= i < |xs| ==> k.patchKey(ps[i]) == k.key(xs[i])
    requires forall i :: 0 <= i < |xs| ==> k.overlay(xs[i], ps[i]) == xs[i]
    ensures MergeAll(k, xs, ps) == xs
  {
    var r := MergeAll(k, xs, ps);
    assert PatchKeys(k, ps) == Keys(k, xs);
    MergeAllCounts(k, xs, ps);
    assert (set x | x in PatchKeys(k, ps) && x !in Keys(k, xs)) == {};
    forall j | 0 <= j < |xs|
      ensures r[j] == xs[j]
    {
      MergeIdentityAt(k, xs, ps, j);
    }
  }

  lemma MergeIdentityAt<T(!new), P(!new)>(k: Keying<T, P>, xs: seq<T>, ps: seq<P>, j: int)
    requires Lawful(k) && NoDuplicates(Keys(k, xs)) && |ps| == |xs| && 0 <= j < |xs|
    requires forall i :: 0 <= i < |xs| ==> k.patchKey(ps[i]) == k.key(xs[i])
    requires k.overlay(xs[j], ps[j]) == xs[j]
    ensures j < |MergeAll(k, xs, ps)| && MergeAll(k, xs, ps)[j] == xs[j]
  {
    assert forall i :: 0 <= i < j ==> k.key(xs[i]) != k.key(xs[j]) by {
      assert forall i :: 0 <= i < |xs| ==> k.key(xs[i]) == Keys(k, xs)[i];
    }
    assert PatchKeys(k, ps) == Keys(k, xs);
    MergeAllAt(k, xs, ps, j);
    WithKeyUnique(k, ps, j);
    assert OverlayAll(k, xs[j], [ps[j]]) == k.overlay(xs[j], ps[j]);
  }
}

=== FILE: seqs.dfy ===
/** Sequence operations the manager uses on its lists: `Array.filter`, and the
    append-if-absent loop (`if (!list.includes(x)) list.push(x)`) that keeps
    both the global tag registry and a bookmark's own tag list free of
    repeats. */
module Seqs {

  // --------------------------------------------------------------- filter

  /** `s.filter(p)`: the elements satisfying p, in their original order. */
  function Filter<T(!new)>(s: seq<T>, p: T -> bool): (r: seq<T>)
    ensures |r| <= |s|
    ensures forall x :: x in r <==> x in s && p(x)
  {
    if s == [] then []
    else (if p(s[0]) then [s[0]] else []) + Filter(s[1..], p)
  }

  /** r can be obtained from s by deleting elements: it keeps s's order. */
  ghost predicate IsSubseq<T>(r: seq<T>, s: seq<T>)
    decreases |s|
  {
    r == [] || (s != [] && ((r[0] == s[0] && IsSubseq(r[1..], s[1..])) || IsSubseq(r, s[1..])))
  }

  /** Filtering is an order-preserving selection. */
  lemma {:induction false} FilterIsSubseq<T(!new)>(s: seq<T>, p: T -> bool)
    ensures IsSubseq(Filter(s, p), s)
  {
    if s != [] {
      FilterIsSubseq(s[1..], p);
      var r := Filter(s, p);
      if p(s[0]) {
        assert r[1..] == Filter(s[1..], p);
      } else {
        assert r == Filter(s[1..], p);
      }
    }
  }

  /** Filtering keeps every copy of a selected element and no copy of a
      rejected one. */
  lemma {:induction false} FilterMultiplicity<T(!new)>(s: seq<T>, p: T -> bool)
    ensures forall x :: multiset(Filter(s, p))[x] == if p(x) then multiset(s)[x] else 0
  {
    if s != [] {
      FilterMultiplicity(s[1..], p);
      assert s == [s[0]] + s[1..];
      assert multiset(s) == multiset([s[0]]) + multiset(s[1..]);
      var head := if p(s[0]) then [s[0]] else [];
      assert multiset(Filter(s, p)) == multiset(head) + multiset(Filter(s[1..], p));
    }
  }

  /** A filter that keeps everything is the identity. */
  lemma {:induction false} FilterKeepsAll<T(!new)>(s: seq<T>, p: T -> bool)
    requires forall x :: x in s ==> p(x)
    ensures Filter(s, p) == s
  {
    if s != [] {
      FilterKeepsAll(s[1..], p);
      assert s == [s[0]] + s[1..];
    }
  }

  /** A filter that keeps nothing gives the empty sequence. */
  lemma {:induction false} FilterKeepsNone<T(!new)>(s: seq<T>, p: T -> bool)
    requires forall x :: x in s ==> !p(x)
    ensures Filter(s, p) == []
  {
    if s != [] {
      FilterKeepsNone(s[1..], p);
    }
  }

  /** Filtering distributes over concatenation. */
  lemma {:induction false} FilterAppend<T(!new)>(a: seq<T>, b: seq<T>, p: T -> bool)
    ensures Filter(a + b, p) == Filter(a, p) + Filter(b, p)
  {
    if a != [] {
      FilterAppend(a[1..], b, p);
      var h := if p(a[0]) then [a[0]] else [];
      assert (a + b)[0] == a[0] && (a + b)[1..] == a[1..] + b;
      assert Filter(a + b, p) == h + Filter(a[1..] + b, p);
      assert Filter(a, p) == h + Filter(a[1..], p);
      assert h + (Filter(a[1..], p) + Filter(b, p)) == (h + Filter(a[1..], p)) + Filter(b, p);
    } else {
      assert a + b == b;
    }
  }

  // ------------------------------------------------------ append if absent

  /** No element occurs twice. */
  predicate NoDuplicates<T(==)>(s: seq<T>) {
    forall i, j :: 0 <= i < j < |s| ==> s[i] != s[j]
  }

  /** `add.forEach(x => { if (!reg.includes(x)) reg.push(x) })`, as a value. */
  function AppendAbsent<T(==)>(reg: seq<T>, add: seq<T>): seq<T>
    decreases |add|
  {
    if add == [] then reg
    else AppendAbsent(if add[0] in reg then reg else reg + [add[0]], add[1..])
  }

  /** The registry only grows: the old entries stay first and in order, the
      entries afterwards are exactly the old ones and the added ones, and a
      registry without repeats stays without repeats. */
  lemma {:induction false} AppendAbsentGrows<T>(reg: seq<T>, add: seq<T>)
    ensures |AppendAbsent(reg, add)| >= |reg|
    ensures AppendAbsent(reg, add)[..|reg|] == reg
    ensures forall x :: x in AppendAbsent(reg, add) <==> x in reg || x in add
    ensures NoDuplicates(reg) ==> NoDuplicates(AppendAbsent(reg, add))
    decreases |add|
  {
    if add != [] {
      var next := if add[0] in reg then reg else reg + [add[0]];
      AppendAbsentGrows(next, add[1..]);
      assert next[..|reg|] == reg;
      assert add == [add[0]] + add[1..];
    }
  }

  /** One more added value is appended at the end unless it is present
      already: the result lists the values in order of first appearance. */
  lemma {:induction false} AppendAbsentSnoc<T>(reg: seq<T>, add: seq<T>, x: T)
    ensures AppendAbsent(reg, add + [x]) ==
            var r := AppendAbsent(reg, add); if x in r then r else r + [x]
    decreases |add|
  {
    if add == [] {
      assert add + [x] == [x];
      assert [x][1..] == [];
    } else {
      var next := if add[0] in reg then reg else reg + [add[0]];
      assert (add + [x])[0] == add[0];
      assert (add + [x])[1..] == add[1..] + [x];
      AppendAbsentSnoc(next, add[1..], x);
    }
  }

  /** Entries already present are never appended again: the number of new
      entries is the number of distinct added values not yet present. */
  lemma {:induction false} AppendAbsentCount<T>(reg: seq<T>, add: seq<T>)
    ensures |AppendAbsent(reg, add)| == |reg| + |set x | x in add && x !in reg|
    decreases |add|
  {
    if add != [] {
      var y := add[0];
      var next := if y in reg then reg else reg + [y];
      AppendAbsentCount(next, add[1..]);
      var want := set x | x in add && x !in reg;
      var got := set x | x in add[1..] && x !in next;
      assert add == [y] + add[1..];
      if y in reg {
        assert want == got;
      } else {
        assert want == got + {y};
        assert y !in got;
      }
    }
  }

  /** The loop behind `updateTagsList` and the per-bookmark tag loop of
      `bulkTagBookmarks`: walk `add`, pushing each value not yet present. */
  method AppendMissing<T(==)>(reg: seq<T>, add: seq<T>) returns (r: seq<T>)
    ensures r == AppendAbsent(reg, add)
  {
    r := reg;
    var i := 0;
    while i < |add|
      invariant 0 <= i <= |add|
      invariant AppendAbsent(r, add[i..]) == AppendAbsent(reg, add)
    {
      assert add[i..][1..] == add[i + 1..];
      if add[i] !in r {
        r := r + [add[i]];
      }
      i := i + 1;
    }
  }

  // --------------------------------------------------------- accumulation

  /** Feeds the elements of xs, in order, to step, threading the result. */
  function Accumulate<A, T>(step: (seq<T>, A) -> seq<T>, xs: seq<A>, acc: seq<T>): seq<T>
    decreases |xs|
  {
    if xs == [] then acc else Accumulate(step, xs[1..], step(acc, xs[0]))
  }

  /** On the elements of xs, step appends exactly one element. */
  ghost predicate AppendsOne<A, T(!new)>(step: (seq<T>, A) -> seq<T>, xs: seq<A>) {
    forall a: seq<T>, x: A :: x in xs ==> |step(a, x)| == |a| + 1 && step(a, x)[..|a|] == a
  }

  /** A step that appends one element per input yields one element per
      input, after the ones already there. */
  lemma {:induction false} AccumulateLength<A, T(!new)>(step: (seq<T>, A) -> seq<T>, xs: seq<A>, acc: seq<T>)
    requires AppendsOne(step, xs)
    ensures |Accumulate(step, xs, acc)| == |acc| + |xs| && Accumulate(step, xs, acc)[..|acc|] == acc
    decreases |xs|
  {
    if xs != [] {
      var next := step(acc, xs[0]);
      assert xs[0] in xs;
      assert forall x :: x in xs[1..] ==> x in xs;
      AccumulateLength(step, xs[1..], next);
      var r := Accumulate(step, xs, acc);
      assert r[..|acc|] == r[..|next|][..|acc|];
    }
  }

  /** The element an input contributes is the one step appends for it to
      the elements before it. */
  lemma {:induction false} AccumulateAt<A, T(!new)>(step: (seq<T>, A) -> seq<T>, xs: seq<A>, acc: seq<T>, i: nat)
    requires AppendsOne(step, xs) && i < |xs|
    ensures |Accumulate(step, xs, acc)| == |acc| + |xs|
    ensures var r := Accumulate(step, xs, acc);
      r[|acc| + i] == step(r[..|acc| + i], xs[i])[|acc| + i]
    decreases i
  {
    var next := step(acc, xs[0]);
    assert xs[0] in xs;
    assert forall x :: x in xs[1..] ==> x in xs;
    AccumulateLength(step, xs, acc);
    AccumulateLength(step, xs[1..], next);
    var r := Accumulate(step, xs, acc);
    if i == 0 {
      assert r[..|acc|] == acc;
      assert r[|acc|] == r[..|next|][|acc|] == next[|acc|];
    } else {
      AccumulateAt(step, xs[1..], next, i - 1);
      assert xs[1..][i - 1] == xs[i];
      assert |next| + (i - 1) == |acc| + i;
    }
  }
}

=== FILE: text.dfy ===
/** The string primitives the bookmark manager leans on: `toLowerCase`,
    `includes`, `trim`, `split`/`join`, `startsWith`, `parseInt`, the decimal
    rendering of numbers, and the code-point ordering that stands in for
    `localeCompare`. Strings are sequences of characters. */
module Text {
  import opened Wrappers

  // ---------------------------------------------------------------- case

  /** Upper-case letters; only the ASCII range is folded. */
  predicate IsUpper(c: char) {
    'A' <= c <= 'Z'
  }

  function LowerChar(c: char): (r: char)
    ensures !IsUpper(r)
    ensures IsUpper(c) ==> r as int == c as int + 32
    ensures !IsUpper(c) ==> r == c
  {
    if IsUpper(c) then (c as int + 32) as char else c
  }

  /** `s.toLowerCase()`. */
  function Lower(s: string): (r: string)
    ensures |r| == |s|
    ensures forall i :: 0 <= i < |s| ==> r[i] == LowerChar(s[i])
    ensures forall i :: 0 <= i < |r| ==> !IsUpper(r[i])
  {
    seq(|s|, i requires 0 <= i < |s| => LowerChar(s[i]))
  }

  /** Lower-casing works character by character, so it distributes over
      concatenation. */
  lemma LowerAppend(a: string, b: string)
    ensures Lower(a + b) == Lower(a) + Lower(b)
  {
    assert forall i :: 0 <= i < |a + b| ==> Lower(a + b)[i] == (Lower(a) + Lower(b))[i];
  }

  /** Lower-casing twice is lower-casing once. */
  lemma LowerIdempotent(s: string)
    ensures Lower(Lower(s)) == Lower(s)
  {
  }

  // ------------------------------------------------------------ substrings

  /** `s.startsWith(p)`. */
  predicate StartsWith(s: string, p: string) {
    |p| <= |s| && s[..|p|] == p
  }

  /** `s.includes(q)`: q occurs somewhere in s. */
  predicate Contains(s: string, q: string)
    decreases |s|
  {
    StartsWith(s, q) || (|s| > 0 && Contains(s[1..], q))
  }

  /** q occurs in s at offset i. */
  predicate OccursAt(s: string, q: string, i: int) {
    0 <= i <= |s| - |q| && s[i..i + |q|] == q
  }

  /** `Contains` holds exactly when q occurs at some offset of s. */
  lemma {:induction false} ContainsIffOccurs(s: string, q: string)
    ensures Contains(s, q) <==> exists i :: OccursAt(s, q, i)
    decreases |s|
  {
    if StartsWith(s, q) {
      assert OccursAt(s, q, 0);
    }
    if |s| > 0 {
      ContainsIffOccurs(s[1..], q);
      if Contains(s[1..], q) {
        var i :| OccursAt(s[1..], q, i);
        assert s[i + 1..i + 1 + |q|] == s[1..][i..i + |q|];
        assert OccursAt(s, q, i + 1);
      }
    }
    if exists i :: OccursAt(s, q, i) {
      var i :| OccursAt(s, q, i);
      if i == 0 {
        assert StartsWith(s, q);
      } else {
        assert s[1..][i - 1..i - 1 + |q|] == s[i..i + |q|];
        assert OccursAt(s[1..], q, i - 1);
      }
    }
  }

  /** The empty string occurs in every string. */
  lemma ContainsEmpty(s: string)
    ensures Contains(s, "")
  {
    assert StartsWith(s, "");
  }

  // ----------------------------------------------------------------- trim

  /** The white space `trim` removes; only the ASCII white space characters. */
  predicate IsSpace(c: char) {
    c == ' ' || c == '\t' || c == '\n' || c == '\r' || c as int == 11 || c as int == 12
  }

  /** The index of the first non-space character of s at or after i, or |s|. */
  function SkipSpaces(s: string, i: nat): (j: nat)
    requires i <= |s|
    ensures i <= j <= |s|
    ensures forall k :: i <= k < j ==> IsSpace(s[k])
    ensures j == |s| || !IsSpace(s[j])
    decreases |s| - i
  {
    if i < |s| && IsSpace(s[i]) then SkipSpaces(s, i + 1) else i
  }

  /** The index just past the last non-space character of s before j and at
      or after lo, or lo. */
  function SkipSpacesBack(s: string, lo: nat, j: nat): (e: nat)
    requires lo <= j <= |s|
    ensures lo <= e <= j
    ensures forall k :: e <= k < j ==> IsSpace(s[k])
    ensures e == lo || !IsSpace(s[e - 1])
    decreases j - lo
  {
    if j > lo && IsSpace(s[j - 1]) then SkipSpacesBack(s, lo, j - 1) else j
  }

  /** Drops leading white space: what is left is empty or starts with a
      character that is not white space. */
  function TrimStart(s: string): (r: string)
    ensures |r| <= |s|
    ensures r == [] || !IsSpace(r[0])
  {
    s[SkipSpaces(s, 0)..]
  }

  /** What `TrimStart` drops is white space, and what it keeps is the rest of s. */
  lemma TrimStartSuffix(s: string)
    ensures var r := TrimStart(s);
      && r == s[|s| - |r|..]
      && forall i :: 0 <= i < |s| - |r| ==> IsSpace(s[i])
  {
  }

  /** r is the slice of s starting at i, and everything cut away is white space. */
  predicate SliceBetweenSpaces(s: string, r: string, i: int) {
    0 <= i <= |s| - |r| && r == s[i..i + |r|]
    && (forall k :: 0 <= k < i ==> IsSpace(s[k]))
    && (forall k :: i + |r| <= k < |s| ==> IsSpace(s[k]))
  }

  /** `s.trim()`: neither leading nor trailing white space is left. */
  function Trim(s: string): (r: string)
    ensures r == [] || (!IsSpace(r[0]) && !IsSpace(r[|r| - 1]))
  {
    var i := SkipSpaces(s, 0);
    var e := SkipSpacesBack(s, i, |s|);
    assert i < e ==> !IsSpace(s[i]);
    s[i..e]
  }

  /** Lower-casing neither makes nor unmakes white space. */
  lemma {:induction false} SkipSpacesLower(s: string, i: nat)
    requires i <= |s|
    ensures SkipSpaces(Lower(s), i) == SkipSpaces(s, i)
    decreases |s| - i
  {
    if i < |s| {
      assert Lower(s)[i] == LowerChar(s[i]);
      assert IsSpace(Lower(s)[i]) == IsSpace(s[i]);
      SkipSpacesLower(s, i + 1);
    }
  }

  lemma {:induction false} SkipSpacesBackLower(s: string, lo: nat, j: nat)
    requires lo <= j <= |s|
    ensures SkipSpacesBack(Lower(s), lo, j) == SkipSpacesBack(s, lo, j)
    decreases j - lo
  {
    if j > lo {
      assert Lower(s)[j - 1] == LowerChar(s[j - 1]);
      assert IsSpace(Lower(s)[j - 1]) == IsSpace(s[j - 1]);
      SkipSpacesBackLower(s, lo, j - 1);
    }
  }

  /** Trimming and lower-casing commute. */
  lemma TrimLower(s: string)
    ensures Trim(Lower(s)) == Lower(Trim(s))
  {
    var i := SkipSpaces(s, 0);
    SkipSpacesLower(s, 0);
    SkipSpacesBackLower(s, i, |s|);
    var e := SkipSpacesBack(s, i, |s|);
    assert Trim(Lower(s)) == Lower(s)[i..e];
    LowerSlice(s, i, e);
  }

  lemma LowerSlice(s: string, i: int, e: int)
    requires 0 <= i <= e <= |s|
    ensures Lower(s)[i..e] == Lower(s[i..e])
  {
    assert forall k :: 0 <= k < e - i ==> Lower(s)[i..e][k] == LowerChar(s[i + k]);
  }

  /** Trimming cuts only white space, from the start up to the first other
      character and from the end back to the last. */
  lemma TrimCutsSpaces(s: string)
    ensures SliceBetweenSpaces(s, Trim(s), |s| - |TrimStart(s)|)
  {
  }

  /** Trimming only cuts characters away: none is introduced. */
  lemma TrimWithin(s: string, c: char)
    requires c !in s
    ensures c !in Trim(s)
  {
    var r := Trim(s);
    var i := |s| - |TrimStart(s)|;
    TrimCutsSpaces(s);
    assert forall k :: 0 <= k < |r| ==> r[k] == s[i + k];
  }

  /** A string with no white space at either end.  */
  predicate IsTrimmed(s: string) {
    s == [] || (!IsSpace(s[0]) && !IsSpace(s[|s| - 1]))
  }

  /** `trim` leaves a trimmed string alone, so trimming is idempotent. */
  lemma TrimTrimmed(s: string)
    requires IsTrimmed(s)
    ensures Trim(s) == s
  {
  }

  /** Trimming a string with one extra leading space undoes the space. */
  lemma TrimLeadingSpace(s: string)
    requires IsTrimmed(s)
    ensures Trim(" " + s) == s
  {
    assert (" " + s)[1..] == s;
  }

  // ---------------------------------------------------------- split, join

  /** `s.split(c)` for a one-character separator: the pieces between the
      occurrences of c, so there is always at least one piece. */
  function Split(s: string, c: char): (r: seq<string>)
    ensures |r| >= 1
    ensures forall p :: p in r ==> c !in p
  {
    if s == [] then [""]
    else
      var rest := Split(s[1..], c);
      if s[0] == c then [""] + rest else [[s[0]] + rest[0]] + rest[1..]
  }

  /** Splitting on a character that is not a letter commutes with
      lower-casing: the pieces of the lowered string are the lowered pieces. */
  lemma {:induction false} SplitLower(s: string, c: char)
    requires !IsUpper(c) && !('a' <= c <= 'z')
    ensures |Split(Lower(s), c)| == |Split(s, c)|
    ensures forall i :: 0 <= i < |Split(s, c)| ==> Split(Lower(s), c)[i] == Lower(Split(s, c)[i])
  {
    if s != [] {
      var rest, low := Split(s[1..], c), Split(Lower(s[1..]), c);
      assert Lower(s)[0] == LowerChar(s[0]);
      assert Lower(s)[1..] == Lower(s[1..]);
      SplitLower(s[1..], c);
      SplitCons(s, c);
      SplitCons(Lower(s), c);
      var l, r := Split(Lower(s), c), Split(s, c);
      forall i | 0 <= i < |r|
        ensures l[i] == Lower(r[i])
      {
        if i == 0 && s[0] != c {
          LowerAppend([s[0]], rest[0]);
        }
      }
    } else {
      assert Lower(s) == [];
    }
  }

  /** The pieces of a non-empty string in terms of the pieces of its tail. */
  lemma SplitCons(s: string, c: char)
    requires s != []
    ensures var rest, r := Split(s[1..], c), Split(s, c);
      && (s[0] == c ==> |r| == |rest| + 1 && r[0] == "" && forall i :: 1 <= i < |r| ==> r[i] == rest[i - 1])
      && (s[0] != c ==> |r| == |rest| && r[0] == [s[0]] + rest[0] && forall i :: 1 <= i < |r| ==> r[i] == rest[i])
  {
  }

  /** `parts.join(sep)`. */
  function Join(parts: seq<string>, sep: string): string {
    if |parts| == 0 then ""
    else if |parts| == 1 then parts[0]
    else parts[0] + sep + Join(parts[1..], sep)
  }

  /** Joining the pieces of a split with the separator gives the string back. */
  lemma {:induction false} JoinSplit(s: string, c: char)
    ensures Join(Split(s, c), [c]) == s
  {
    if s != [] {
      JoinSplit(s[1..], c);
      var rest := Split(s[1..], c);
      if s[0] == c {
        assert ([""] + rest)[1..] == rest;
      } else if |rest| > 1 {
        var r := [[s[0]] + rest[0]] + rest[1..];
        assert r[1..] == rest[1..];
        assert Join(rest, [c]) == rest[0] + [c] + Join(rest[1..], [c]);
      }
    }
  }

  /** Splitting at the first occurrence of the separator. */
  lemma {:induction false} SplitAtFirst(a: string, c: char, b: string)
    requires c !in a
    ensures Split(a + [c] + b, c) == [a] + Split(b, c)
  {
    if a == [] {
      assert a + [c] + b == [c] + b;
      assert ([c] + b)[1..] == b;
    } else {
      assert (a + [c] + b)[1..] == a[1..] + [c] + b;
      SplitAtFirst(a[1..], c, b);
      assert [a[0]] + a[1..] == a;
    }
  }

  /** A string without the separator splits into itself. */
  lemma {:induction false} SplitNoSeparator(a: string, c: char)
    requires c !in a
    ensures Split(a, c) == [a]
  {
    if a != [] {
      SplitNoSeparator(a[1..], c);
      assert [a[0]] + a[1..] == a;
    }
  }

  /** Splitting a join gives the parts back, provided no part holds the
      separator (the other direction of the round trip). */
  lemma {:induction false} SplitJoin(parts: seq<string>, c: char)
    requires |parts| >= 1
    requires forall p :: p in parts ==> c !in p
    ensures Split(Join(parts, [c]), c) == parts
  {
    if |parts| == 1 {
      SplitNoSeparator(parts[0], c);
    } else {
      SplitJoin(parts[1..], c);
      SplitAtFirst(parts[0], c, Join(parts[1..], [c]));
      assert [parts[0]] + parts[1..] == parts;
    }
  }

  /** The number of pieces is additive across one separator, whatever the
      two sides hold. */
  lemma {:induction false} SplitLengthAt(a: string, c: char, b: string)
    ensures |Split(a + [c] + b, c)| == |Split(a, c)| + |Split(b, c)|
  {
    if a == [] {
      assert a + [c] + b == [c] + b;
      assert ([c] + b)[1..] == b;
    } else {
      assert (a + [c] + b)[1..] == a[1..] + [c] + b;
      SplitLengthAt(a[1..], c, b);
    }
  }

  /** A join of n parts splits into at least n pieces, even when the parts
      hold the separator themselves. */
  lemma {:induction false} SplitJoinLength(parts: seq<string>, c: char)
    ensures |Split(Join(parts, [c]), c)| >= |parts|
  {
    if |parts| > 1 {
      SplitJoinLength(parts[1..], c);
      SplitLengthAt(parts[0], c, Join(parts[1..], [c]));
    }
  }

  /** A character that neither the separator nor any part holds is not in
      the join. */
  lemma {:induction false} JoinExcludes(parts: seq<string>, sep: string, c: char)
    requires c !in sep && forall p :: p in parts ==> c !in p
    ensures c !in Join(parts, sep)
  {
    if |parts| > 1 {
      JoinExcludes(parts[1..], sep, c);
    }
  }

  /** Joining two non-empty lists of parts is joining each and putting the
      separator between. */
  lemma {:induction false} JoinAppend(a: seq<string>, b: seq<string>, sep: string)
    requires |a| >= 1 && |b| >= 1
    ensures Join(a + b, sep) == Join(a, sep) + sep + Join(b, sep)
  {
    if |a| > 1 {
      JoinAppend(a[1..], b, sep);
      assert (a + b)[1..] == a[1..] + b;
    } else {
      assert (a + b)[1..] == b;
    }
  }

  /** A join starts with its first part and ends with its last. */
  lemma {:induction false} JoinEnds(parts: seq<string>, sep: string)
    requires |parts| >= 1
    ensures var j := Join(parts, sep); var last := parts[|parts| - 1];
      && |j| >= |parts[0]| && j[..|parts[0]|] == parts[0]
      && |j| >= |last| && j[|j| - |last|..] == last
  {
    if |parts| > 1 {
      JoinEnds(parts[1..], sep);
      var rest := Join(parts[1..], sep);
      var j := Join(parts, sep);
      assert j == parts[0] + sep + rest;
      assert j[|j| - |rest|..] == rest;
    }
  }

  /** Joining non-empty parts that have no white space at their outer ends
      gives a string with no white space at its ends. */
  lemma JoinTrimmed(parts: seq<string>, sep: string)
    requires |parts| >= 1 && parts[0] != "" && parts[|parts| - 1] != ""
    requires IsTrimmed(parts[0]) && IsTrimmed(parts[|parts| - 1])
    ensures IsTrimmed(Join(parts, sep))
  {
    JoinEnds(parts, sep);
    var j := Join(parts, sep);
    var last := parts[|parts| - 1];
    assert j[0] == j[..|parts[0]|][0] == parts[0][0];
    assert j[|j| - 1] == j[|j| - |last|..][|last| - 1] == last[|last| - 1];
  }

  /** A string holding a non-space character does not trim to nothing. */
  lemma TrimNonEmpty(s: string, k: int)
    requires 0 <= k < |s| && !IsSpace(s[k])
    ensures Trim(s) != ""
  {
  }

  // -------------------------------------------------------------- numbers

  predicate IsDigit(c: char) {
    '0' <= c <= '9'
  }

  predicate AllDigits(s: string) {
    forall i :: 0 <= i < |s| ==> IsDigit(s[i])
  }

  function DigitChar(d: nat): (c: char)
    requires d < 10
    ensures IsDigit(c) && c as int - '0' as int == d
  {
    ('0' as int + d) as char
  }

  /** The decimal digits of n, without leading zeros (`String(n)` for n >= 0). */
  function NatToString(n: nat): (r: string)
    ensures |r| >= 1 && AllDigits(r)
  {
    if n < 10 then [DigitChar(n)] else NatToString(n / 10) + [DigitChar(n % 10)]
  }

  /** `String(n)` for an integer. */
  function IntToString(n: int): string {
    if n < 0 then "-" + NatToString(-n) else NatToString(n)
  }

  /** The number a string of decimal digits denotes. */
  function DigitsValue(ds: string): nat
    requires AllDigits(ds)
  {
    if ds == [] then 0 else DigitsValue(ds[..|ds| - 1]) * 10 + (ds[|ds| - 1] as int - '0' as int)
  }

  /** The length of the run of digits at the start of s. */
  function DigitRun(s: string): (n: nat)
    ensures n <= |s| && AllDigits(s[..n])
    ensures n < |s| ==> !IsDigit(s[n])
  {
    if |s| > 0 && IsDigit(s[0]) then
      var n := 1 + DigitRun(s[1..]);
      assert s[..n] == [s[0]] + s[1..][..n - 1];
      n
    else 0
  }

  /** `parseInt(s)` in base 10: leading white space, an optional sign, then the
      longest run of digits; no digits at all is `NaN`, here `None`. */
  function ParseInt(s: string): Option<int> {
    var t := TrimStart(s);
    if |t| > 0 && t[0] == '-' then
      var v := LeadingNumber(t[1..]);
      if v.Some? then Some(0 - v.value) else None
    else if |t| > 0 && t[0] == '+' then LeadingNumber(t[1..])
    else LeadingNumber(t)
  }

  /** The number the run of digits at the start of s denotes; `None` when s
      does not start with a digit. */
  function LeadingNumber(s: string): Option<int> {
    var n := DigitRun(s);
    if n == 0 then None else Some(DigitsValue(s[..n]))
  }

  /** `parseInt(s) || 0`: NaN (and zero) become 0. */
  function ParseIntOr0(s: string): int {
    ParseInt(s).GetOr(0)
  }

  /** A digit string is a run of digits to its end. */
  lemma DigitRunAll(s: string)
    requires AllDigits(s)
    ensures DigitRun(s) == |s|
  {
  }

  /** The digits of n denote n. */
  lemma {:induction false} NatToStringValue(n: nat)
    ensures DigitsValue(NatToString(n)) == n
  {
    if n >= 10 {
      NatToStringValue(n / 10);
      var r := NatToString(n);
      assert r[..|r| - 1] == NatToString(n / 10);
    }
  }

  /** Trimming leading white space leaves a string that does not start with
      white space unchanged. */
  lemma TrimStartKeeps(s: string)
    requires |s| >= 1 && !IsSpace(s[0])
    ensures TrimStart(s) == s
  {
    assert SkipSpaces(s, 0) == 0;
  }

  /** A non-empty digit string is, as a whole, the leading number. */
  lemma LeadingDigits(ds: string)
    requires |ds| >= 1 && AllDigits(ds)
    ensures LeadingNumber(ds) == Some(DigitsValue(ds))
  {
    DigitRunAll(ds);
    assert ds[..|ds|] == ds;
  }

  /** A non-empty digit string is read back as the number it denotes. */
  lemma ParseDigits(ds: string)
    requires |ds| >= 1 && AllDigits(ds)
    ensures ParseInt(ds) == Some(DigitsValue(ds))
  {
    assert IsDigit(ds[0]);
    TrimStartKeeps(ds);
    LeadingDigits(ds);
  }

  /** A minus sign followed by digits only is read as the negated number. */
  lemma ParseNegated(s: string)
    requires |s| >= 2 && s[0] == '-' && AllDigits(s[1..])
    ensures ParseInt(s) == Some(0 - DigitsValue(s[1..]))
  {
    TrimStartKeeps(s);
    LeadingDigits(s[1..]);
  }

  /** Reading back the digits of a natural number gives the number. */
  lemma ParseNatRoundTrip(m: nat)
    ensures ParseInt(NatToString(m)) == Some(m)
  {
    NatToStringValue(m);
    ParseDigits(NatToString(m));
  }

  /** Reading back a rendered integer gives the integer. */
  lemma ParseIntRoundTrip(n: int)
    ensures ParseInt(IntToString(n)) == Some(n)
    ensures ParseIntOr0(IntToString(n)) == n
  {
    if n < 0 {
      var s := IntToString(n);
      assert s[1..] == NatToString(-n);
      NatToStringValue(-n);
      assert DigitsValue(s[1..]) == -n;
      ParseNegated(s);
    } else {
      assert IntToString(n) == NatToString(n);
      ParseNatRoundTrip(n);
    }
  }

  // ------------------------------------------------------------- ordering

  /** Three-way comparison by character code, the stand-in for
      `localeCompare`: -1, 0 or 1. */
  function Compare(a: string, b: string): (r: int)
    ensures -1 <= r <= 1
    ensures r == 0 <==> a == b
  {
    if a == [] && b == [] then 0
    else if a == [] then -1
    else if b == [] then 1
    else if a[0] < b[0] then -1
    else if a[0] > b[0] then 1
    else
      var r := Compare(a[1..], b[1..]);
      assert r == 0 ==> a == [a[0]] + a[1..] == [b[0]] + b[1..] == b;
      r
  }

  /** Swapping the arguments flips the sign. */
  lemma {:induction false} CompareAntisymmetric(a: string, b: string)
    ensures Compare(b, a) == -Compare(a, b)
  {
    if a != [] && b != [] && a[0] == b[0] {
      CompareAntisymmetric(a[1..], b[1..]);
    }
  }

  /** "Not after" is transitive. */
  lemma {:induction false} CompareTransitive(a: string, b: string, c: string)
    requires Compare(a, b) <= 0 && Compare(b, c) <= 0
    ensures Compare(a, c) <= 0
  {
    if a != [] && b != [] && c != [] && a[0] == b[0] == c[0] {
      CompareTransitive(a[1..], b[1..], c[1..]);
    }
  }
}

=== FILE: transfer.dfy ===
/** The JSON file format: what an import carries, its validation, the merge
    and replace modes, and the export that produces such a file. */
module Transfer {
  import opened Wrappers
  import opened Seqs
  import opened Domain
  import opened Reconcile

  /** A parsed JSON file. A top-level field is `None` when it is absent (for
      `bookmarks`, also when it is not an array). */
  datatype ImportData = ImportData(
    bookmarks: Option<seq<BookmarkPatch>>,
    collections: Option<seq<CollectionPatch>>,
    tags: Option<seq<string>>,
    settings: Option<Settings>,
    version: Option<string>)

  /** The version field is present and not the empty string. */
  predicate HasVersion(data: ImportData) {
    data.version.Some? && data.version.value != ""
  }

  /** `validateImportData`: a file needs a bookmarks array; a file from a
      newer version is accepted only if the user confirms. `newer(v)` stands
      for `parseFloat(v) > parseFloat(AppVersion)`; `confirmed` is the answer
      to the dialog. */
  function ValidateImport(data: ImportData, newer: string -> bool, confirmed: bool): (r: Result<ImportData, Failure>)
    ensures r.Ok? ==> r.value == data && data.bookmarks.Some?
    ensures r.Err? ==> r.error == InvalidFormat
    ensures data.bookmarks.None? ==> r.Err?
    ensures data.bookmarks.Some? && !(HasVersion(data) && newer(data.version.value)) ==> r.Ok?
    ensures data.bookmarks.Some? && HasVersion(data) && newer(data.version.value) ==> (r.Ok? <==> confirmed)
  {
    if data.bookmarks.None? then Err(InvalidFormat)
    else if HasVersion(data) && newer(data.version.value) && !confirmed then Err(InvalidFormat)
    else Ok(data)
  }

  // ------------------------------------------------------------- keyings

  /** Bookmarks are matched on their url; an unmatched import keeps every
      field it carries except the id, which is replaced by a fresh one. */
  function ByUrl(): Keying<Bookmark, BookmarkPatch> {
    Keying((b: Bookmark) => b.url, (p: BookmarkPatch) => p.url, (b: Bookmark) => b.id,
           OverlayBookmark, (p: BookmarkPatch, newId: string) => PatchToBookmark(p).(id := newId))
  }

  /** Collections are matched on their name. */
  function ByName(): Keying<Collection, CollectionPatch> {
    Keying((c: Collection) => c.name, (p: CollectionPatch) => p.name, (c: Collection) => c.id,
           OverlayCollection, (p: CollectionPatch, newId: string) => PatchToCollection(p).(id := newId))
  }

  lemma ByUrlLawful()
    ensures Lawful(ByUrl())
  {
  }

  lemma ByNameLawful()
    ensures Lawful(ByName())
  {
  }

  function Urls(bs: seq<Bookmark>): seq<string> {
    Keys(ByUrl(), bs)
  }

  function MergeBookmarks(bs: seq<Bookmark>, ps: seq<BookmarkPatch>): seq<Bookmark> {
    ByUrlLawful();
    MergeAll(ByUrl(), bs, ps)
  }

  function MergeCollections(cs: seq<Collection>, ps: seq<CollectionPatch>): seq<Collection> {
    ByNameLawful();
    MergeAll(ByName(), cs, ps)
  }

  // -------------------------------------------------------------- export

  function ExportBookmarks(bs: seq<Bookmark>): (ps: seq<BookmarkPatch>)
    ensures |ps| == |bs| && forall i :: 0 <= i < |bs| ==> PatchToBookmark(ps[i]) == bs[i]
  {
    seq(|bs|, i requires 0 <= i < |bs| => BookmarkToPatch(bs[i]))
  }

  function ExportCollections(cs: seq<Collection>): (ps: seq<CollectionPatch>)
    ensures |ps| == |cs| && forall i :: 0 <= i < |cs| ==> PatchToCollection(ps[i]) == cs[i]
  {
    seq(|cs|, i requires 0 <= i < |cs| => CollectionToPatch(cs[i]))
  }

  /** `exportBookmarksJson`: the whole state, stamped with the app version. */
  function Export(bs: seq<Bookmark>, cs: seq<Collection>, tags: seq<string>, settings: Settings): ImportData {
    ImportData(Some(ExportBookmarks(bs)), Some(ExportCollections(cs)), Some(tags), Some(settings),
               Some(AppVersion))
  }

  /** A file the manager exported itself always passes validation, whatever
      the version check and the dialog would say. */
  lemma ExportValidates(bs: seq<Bookmark>, cs: seq<Collection>, tags: seq<string>, settings: Settings,
                        newer: string -> bool, confirmed: bool)
    requires !newer(AppVersion)
    ensures ValidateImport(Export(bs, cs, tags, settings), newer, confirmed).Ok?
  {
  }

  // ------------------------------------------------------------- replace

  /** The list an import in replace mode installs. */
  function PatchesToBookmarks(ps: seq<BookmarkPatch>): (bs: seq<Bookmark>)
    ensures |bs| == |ps| && forall i :: 0 <= i < |ps| ==> bs[i] == PatchToBookmark(ps[i])
    ensures forall i :: 0 <= i < |ps| ==> bs[i].url == ps[i].url
  {
    seq(|ps|, i requires 0 <= i < |ps| => PatchToBookmark(ps[i]))
  }

  function PatchesToCollections(ps: seq<CollectionPatch>): (cs: seq<Collection>)
    ensures |cs| == |ps| && forall i :: 0 <= i < |ps| ==> cs[i] == PatchToCollection(ps[i])
    ensures forall i :: 0 <= i < |ps| ==> cs[i].name == ps[i].name
  {
    seq(|ps|, i requires 0 <= i < |ps| => PatchToCollection(ps[i]))
  }

  /** Replacing with one's own export restores the exported lists exactly. */
  lemma ReplaceExportRoundTrip(bs: seq<Bookmark>, cs: seq<Collection>)
    ensures PatchesToBookmarks(ExportBookmarks(bs)) == bs
    ensures PatchesToCollections(ExportCollections(cs)) == cs
  {
    OverlayFullBookmarkAll(bs);
    OverlayFullCollectionAll(cs);
  }

  lemma OverlayFullBookmarkAll(bs: seq<Bookmark>)
    ensures forall i :: 0 <= i < |bs| ==> PatchToBookmark(BookmarkToPatch(bs[i])) == bs[i]
  {
    forall i | 0 <= i < |bs|
      ensures PatchToBookmark(BookmarkToPatch(bs[i])) == bs[i]
    {
      OverlayFullBookmark(bs[i], bs[i]);
    }
  }

  lemma OverlayFullCollectionAll(cs: seq<Collection>)
    ensures forall i :: 0 <= i < |cs| ==> PatchToCollection(CollectionToPatch(cs[i])) == cs[i]
  {
    forall i | 0 <= i < |cs|
      ensures PatchToCollection(CollectionToPatch(cs[i])) == cs[i]
    {
      OverlayFullCollection(cs[i], cs[i]);
    }
  }

  // --------------------------------------------------------------- merge

  /** Importing one's own export in merge mode changes no bookmark, provided
      no two bookmarks share a url: every record is overlaid with itself. */
  lemma MergeOwnExport(bs: seq<Bookmark>)
    requires NoDuplicates(Urls(bs))
    ensures MergeBookmarks(bs, ExportBookmarks(bs)) == bs
  {
    ByUrlLawful();
    var ps := ExportBookmarks(bs);
    forall i | 0 <= i < |bs|
      ensures OverlayBookmark(bs[i], ps[i]) == bs[i]
    {
      OverlayFullBookmark(bs[i], bs[i]);
    }
    MergeIdentity(ByUrl(), bs, ps);
  }
}

=== FILE: wrappers.dfy ===
/** Optional values and results with an error, for the fields a JSON record may
    leave out and for the operations that can refuse their input. */
module Wrappers {

  datatype Option<+T> = None | Some(value: T) {
    /** The value, or `default` when there is none (the source's `x || default`). */
    function GetOr(default: T): T {
      match this
      case Some(v) => v
      case None => default
    }
  }

  datatype Result<+T, +E> = Ok(value: T) | Err(error: E)
}
